=== FILE: README.md ===
# SpikeHome RS485 bus: a Dafny model

SpikeHome is a home-automation system. Its Arduino nodes and a Node.js
host share one RS485 half-duplex bus. This project models the core of
that bus stack and proves properties of the model. The model covers:

- **Frame formats.** The legacy 7-byte frame, where the last byte is the
  XOR parity of the other six. The version 1 frame of 9 bytes, ending in a
  CRC16 (polynomial 0x1021, start value 0xFFFF, low byte first). The
  two-byte `StateValue` that every frame carries.
- **Host codec.** The host's `RS485BinaryMessage`: it skips noise bytes,
  parses a frame, checks parity or CRC, and builds outgoing frames.
- **Token arbitration.** Every participant runs the same state machine:
  Unknown, Reboot, Single, Unregistered, Registered (and Stable on the
  node). The machine is driven by token frames (`'!'`) and by a tick
  counter. A participant may send only while it holds the token. It
  learns its right-hand neighbour from the sender addresses it sees. The
  node (`RS485State.cpp`) and the host (`RS485State.js`) share one model,
  parameterised by their timing constants. The host also keeps an
  ascending chain of the addresses it has seen.
- **Node driver.** The node's receive loop, including noise skipping. The
  folding of frame errors into a pending receive-error code. The dispatch
  of token and command frames. The node-side addressing of `SerialIO`.
- **Host I/O.** The host's send queue: commands for the same receiver and
  key are merged, and un-acknowledged replies are retried.
- **Serial JSON input.** The `SerialReader` tokenizer and the JSON reader
  of `NotificationV2`.
- **Node state machines.** The light state machine (`LightState`), the
  presence state machine (`ActivityState`), the pin driver `Switches`, and
  the EEPROM key/value store (`EEPROMManager`).

Each module follows one source file or class. Fixed-width integers are
modelled as `bv8`/`bv16`/`bv32` where the source relies on bit operations,
and as bounded `int` subset types with explicit wrap-around elsewhere.
Clocks, serial ports and free memory become parameters or event
sequences. The nodes' real-time receive loop is modelled as a finite
sequence of incoming bytes.

Files: `wrappers.dfy` (Option), `bits.dfy` (bytes, words, XOR parity),
`state_value.dfy`, `crc16.dfy`, `notification.dfy`, `notification_v2.dfy`,
`js_message.dfy`, `arbitration.dfy`, `js_state.dfy`, `serial_io.dfy`,
`rs485_driver.dfy`, `js_io.dfy`, `serial_reader.dfy`, `json_input.dfy`,
`light_state.dfy`, `activity_state.dfy`, `switches.dfy`, `eeprom.dfy`.

## Model

| member | source | states |
|---|---|---|
| Bits.Join | StateValue.h:104-114 | a word built from two bytes gives back the same high byte (integer places) and low byte (decimal places) |
| Bits.SplitJoin | StateValue.h:104-114 | splitting a word into its bytes and joining them again is the identity |
| Bits.XorAllAppend | SpikeHome/Notification.cpp:188-191 | the XOR parity of two concatenated byte strings is the XOR of their parities |
| Bits.XorAllSnoc | SpikeHome/Notification.cpp:188-191 | appending a byte XORs it into the parity |
| Bits.XorAllTrace | SpikeHome/Notification.cpp:188-191 | the running XOR of the parity loop ends at the parity of the whole buffer |
| Bits.XorAllUpdate | SpikeHome/Notification.cpp:188-191 | replacing one byte changes the parity by the XOR of the old and the new byte |
| Bits.XorAllFlip | SpikeHome/Notification.cpp:188-191 | flipping bits in one byte of a zero-parity buffer leaves exactly the flipped bits as parity |
| Values.FromPlaces | StateValue.h:34-37 | the (integer places, decimal places) constructor keeps the low byte of each and carries the decimal high byte into the integer byte |
| Values.PlacesCarry | StateValue.h:128-131 | `(intPlaces << 8) + decPlaces` as a 16-bit word has the decimal low byte as low byte and the carried sum as high byte |
| Values.FromWord | StateValue.h:39-42 | the 16-bit constructor reads back as the same integer, and the value is zero exactly when the word is 0 |
| Values.ToInt | StateValue.h:95-98 | the integer reading is 256 times the integer places plus the decimal places |
| Values.FromByte | StateValue.h:54-57 | the 8-bit constructor puts the byte in the decimal places and reads back as the same integer |
| Values.FromBytes | StateValue.h:76-79 | the byte-array constructor takes byte 0 as integer places and byte 1 as decimal places, read back as 256·hi + lo |
| Values.IsZeroIffToIntZero | StateValue.h:85-98 | `isZero` holds exactly when `toInt` returns 0 |
| Values.PlacesRoundTrip | StateValue.h:104-114 | integer and decimal places below 256 read back unchanged from the places constructor |
| Values.PlacesOfValue | StateValue.h:104-114 | rebuilding a value from its integer and decimal places gives the same value |
| Crc.SwapBytes | SpikeHome/CRC16.h:33-35 | the result's high byte is the input's low byte and the reverse |
| Crc.SwapBytesInvolutive | SpikeHome/CRC16.h:33-35 | swapping the bytes twice is the identity |
| Crc.LsByteToMsByte | SpikeHome/CRC16.h:69-72 | the data byte moves to the high byte with a zero low byte |
| Crc.IsMsbSet | SpikeHome/CRC16.h:74-76 | the top-bit test holds exactly when the word is at least 0x8000 |
| Crc.Crc16 | SpikeHome/CRC16.h:78-91 | the CRC of a buffer is the bit-serial CRC register started at 0xFFFF and fed the buffer's bits, most significant first |
| Crc.ShiftCases | SpikeHome/CRC16.h:74-91 | one CRC bit step shifts left and XORs the polynomial 0x1021 exactly when the top bit was set |
| Crc.Crc16Empty | SpikeHome/CRC16.h:78-91 | the CRC of an empty buffer is the start value 0xFFFF |
| Crc.FoldAppend | SpikeHome/CRC16.h:78-91 | the CRC of a concatenation continues from the CRC of the first part |
| Crc.FoldSnoc | SpikeHome/CRC16.h:78-91 | one more byte applies one byte update to the CRC so far |
| Crc.Crc16Prefix | SpikeHome/CRC16.h:78-91 | the CRC of a prefix one byte longer is one byte update of the shorter prefix's CRC |
| Crc.FoldTrace | SpikeHome/CRC16.h:78-91 | the running value of the CRC loop ends at the CRC of the whole buffer |
| Crc.Crc16CheckValue | SpikeHome/CRC16.h:78-91 | the CRC of ASCII "123456789" is 0x29B1, the CRC-16/CCITT-FALSE check value |
| Crc.ShiftByte | SpikeHome/CRC16.h:82-88 | the inner loop applies exactly eight bit steps |
| Crc.Crc16Loop | SpikeHome/CRC16.h:78-91 | the loop over `length` bytes returns the CRC of that prefix of the buffer |
| Crc.UpdateByteIsBitSerial | SpikeHome/CRC16.h:78-91 | the byte-wise update (XOR the byte into the high half, then shift eight times) equals feeding its eight bits one at a time, MSB first, into the CRC register |
| Crc.Crc16IsBitSerial | SpikeHome/CRC16.h:78-91 | the CRC over any buffer equals the bit-serial CRC register |
| Crc.JsCalcCrc16 | rs485/RS485BinaryMessage.js:189-204 | the host's CRC over a slice, computed on 32-bit numbers and masked to 16 bits, equals the node's CRC of that slice |
| Crc.JsShiftAgrees | rs485/RS485BinaryMessage.js:171-183 | one host bit step on a 32-bit number, masked to 16 bits, equals the node's bit step |
| Crc.JsCrcAgrees | rs485/RS485BinaryMessage.js:189-204 | for every buffer and start value the host's CRC loop agrees with the node's CRC on the low 16 bits |
| Crc.Crc16Reverse | SpikeHome/CRC16.h:37-67 | the reflected CRC of an empty buffer is 0; otherwise it is the complemented, byte-swapped reflected register |
| Crc.ReverseFoldTrace | SpikeHome/CRC16.h:48-64 | the running value of the reflected CRC loop ends at the reflected register of the whole buffer |
| Crc.Crc16ReverseCheckValue | SpikeHome/CRC16.h:37-67 | the reflected CRC of ASCII "123456789" is 0x6E90 |
| Legacy.Create | SpikeHome/Notification.cpp:23-41 | a new frame carries the given key, value and addresses, with no acknowledge request |
| Legacy.Payload | SpikeHome/Notification.cpp:65-74 | the six payload bytes come in wire order |
| Legacy.Parity | SpikeHome/Notification.cpp:188-191 | the payload followed by its parity XORs to 0 |
| Legacy.Encode | SpikeHome/Notification.cpp:65-74 | the encoded frame has 7 bytes, starts with the payload, and has XOR parity 0 |
| Legacy.Decode | SpikeHome/Notification.cpp:43-63 | NO_DATA iff nothing was received; INVALID_LENGTH iff the count is not 7; PARITY_ERROR iff 7 bytes with non-zero XOR; NO_ERROR iff 7 bytes with zero XOR; the key is byte 3, except that a length or parity error clears it to 0 |
| Legacy.XorLast | SpikeHome/Notification.cpp:188-191 | a 7-byte buffer has zero XOR exactly when its last byte is the parity of the first six |
| Legacy.RoundTrip | SpikeHome/Notification.cpp:43-74 | decoding an encoded frame gives back its fields with no error |
| Legacy.SingleByteErrorDetected | SpikeHome/Notification.cpp:43-63 | any non-zero corruption of a single byte of an encoded frame is reported as a parity error |
| NotifyV2.Create | SpikeHome/NotificationV2.cpp:19-46 | a new frame has version 1, size 9, no acknowledge request, and the given key, value and addresses; it is empty exactly when the key is 0 |
| NotifyV2.IsEmpty | SpikeHome/NotificationV2.h:104-107 | a frame is empty exactly when its key is 0 |
| NotifyV2.HasError | SpikeHome/NotificationV2.h:131-134 | a received frame has an error exactly when its error is not NO_ERROR |
| NotifyV2.CalcCrc16 | SpikeHome/NotificationV2.cpp:245-258 | the frame's CRC is the bit-serial CRC-16 register, started at 0xFFFF, over the seven header bytes |
| NotifyV2.CalcParity | SpikeHome/NotificationV2.cpp:260-263 | the six parity bytes followed by the parity XOR to 0 |
| NotifyV2.SetVersion | SpikeHome/NotificationV2.h:84-89 | a version above the supported maximum is ignored; otherwise it is stored |
| NotifyV2.AckVersionSplit | SpikeHome/NotificationV2.cpp:63-101 | a byte splits into acknowledge and version fields that rebuild the byte |
| NotifyV2.AckVersionJoin | SpikeHome/NotificationV2.cpp:104-115 | acknowledge and version packed into one byte read back unchanged |
| NotifyV2.Header | SpikeHome/NotificationV2.cpp:245-258 | the checksummed header is 7 bytes long |
| NotifyV2.WriteToSerial | SpikeHome/NotificationV2.cpp:104-115 | the written frame is 9 bytes: the header, then the header's CRC16 low byte first |
| NotifyV2.IllegalVersion | SpikeHome/NotificationV2.cpp:48-61 | a frame with a version above 1 decodes to ILLEGAL_VERSION, keeping the addresses, acknowledge flag and version from bytes 0-2 |
| NotifyV2.DecodeV0 | SpikeHome/NotificationV2.cpp:63-81 | version 0: NO_DATA, INVALID_LENGTH (count not 7), CHECK_ERROR (parity) and NO_ERROR each exactly in their case; addresses and value are read from the legacy positions |
| NotifyV2.ParityOfBuffer | SpikeHome/NotificationV2.cpp:260-263 | the parity of the decoded fields equals byte 6 exactly when the first seven bytes XOR to 0 |
| NotifyV2.DecodeV1 | SpikeHome/NotificationV2.cpp:83-101 | version 1: NO_DATA, INVALID_LENGTH (count not 9), CHECK_ERROR (CRC mismatch) and NO_ERROR each exactly in their case; the fields are read from their positions |
| NotifyV2.HeaderOfBuffer | SpikeHome/NotificationV2.cpp:83-101 | the header rebuilt from the decoded fields is the first seven received bytes |
| NotifyV2.Decode | SpikeHome/NotificationV2.cpp:48-61 | addresses, acknowledge and version always come from bytes 0-2; ILLEGAL_VERSION iff the version is above 1; `hasError` iff the error is not NO_ERROR |
| NotifyV2.RoundTripV1 | SpikeHome/NotificationV2.cpp:48-115 | a written version 1 frame decodes to the same fields with no error |
| NotifyV2.HeaderInjective | SpikeHome/NotificationV2.cpp:245-258 | two frames with the same header bytes have the same fields |
| NotifyV2.WriteToSerialV0Rejected | SpikeHome/NotificationV2.cpp:104-115 | as written, a version 0 frame is sent in the 9-byte layout and the receiver rejects it for its length |
| NotifyV2.WriteV0 | SpikeHome/NotificationV2.cpp:63-81 | the version 0 layout is the six legacy bytes plus their parity, and it XORs to 0 |
| NotifyV2.V0Parity | SpikeHome/NotificationV2.cpp:260-263 | the version 0 frame's parity byte makes the whole frame XOR to 0 |
| NotifyV2.WriteFrame | SpikeHome/NotificationV2.cpp:104-115 | the corrected writer uses the 7-byte layout for version 0 and the 9-byte layout otherwise |
| NotifyV2.RoundTripV0 | SpikeHome/NotificationV2.cpp:63-81 | a version 0 frame from the corrected writer decodes to the same fields, whatever bytes follow it |
| NotifyV2.RoundTripFixed | SpikeHome/NotificationV2.cpp:48-115 | with the corrected writer, frames of both versions decode to the fields they were written from |
| HostMessage.SkipNoise | rs485/RS485BinaryMessage.js:367-373 | the result is the first position at or after the start whose byte is in 1..127, or the end of the array (a start past the end is returned as is); the bytes skipped are all 0 or above 127 |
| HostMessage.SkipNoiseLoop | rs485/RS485BinaryMessage.js:367-373 | the imperative loop stops at the same position as the recursive definition |
| HostMessage.SkipNoisePrefix | rs485/RS485BinaryMessage.js:367-373 | noise in front of a frame is skipped exactly |
| HostMessage.V0Error | rs485/RS485BinaryMessage.js:298-311 | a parity mismatch wins over an illegal sender, and no error is reported only when both checks pass |
| HostMessage.SetV0MessageAsWritten | rs485/RS485BinaryMessage.js:298-311 | as written, the version 0 parse takes the key and value; no error iff the XOR of the first six bytes equals byte 5 and the sender is at most 127 |
| HostMessage.SetV0Message | rs485/RS485BinaryMessage.js:298-311 | the corrected version 0 parse takes the key and value; no error iff the seven bytes XOR to 0 and the sender is at most 127 |
| HostMessage.XorLastByte | rs485/RS485BinaryMessage.js:232-248 | the seven bytes XOR to 0 exactly when byte 6 is the parity of the first six |
| HostMessage.V1Error | rs485/RS485BinaryMessage.js:318-337 | the version 1 checks apply in order (sender, length, enough data, CRC); each error is reported exactly when all earlier checks pass and its own fails |
| HostMessage.SetV1Message | rs485/RS485BinaryMessage.js:318-337 | the length comes from byte 3; no error iff the sender is legal, the length is 9, all bytes are there, and the CRC matches; a good frame yields its key and value |
| HostMessage.SetMessage | rs485/RS485BinaryMessage.js:344-359 | addresses, reply flag and version always come from bytes 0-2; a version 0 frame has no error iff the XOR of its first six bytes equals byte 5 (as written) and the sender is at most 127; a version 1 frame is exactly the version 1 parse; a version above 1 is reported as unsupported |
| HostMessage.SetMessageFixed | rs485/RS485BinaryMessage.js:344-359 | the same dispatch over the corrected version 0 parse: addresses, reply flag and version from bytes 0-2; a version 0 frame has no error iff the seven bytes XOR to 0 and the sender is at most 127; a version 1 frame is exactly the version 1 parse; a version above 1 is reported as unsupported |
| HostMessage.SetFromByteArray | rs485/RS485BinaryMessage.js:382-397 | after skipping noise a message is complete iff at least 7 bytes remain; a complete message is parsed there and the next index moves past it; otherwise the index stays and the error says whether any data was left |
| HostMessage.SetFromByteArrayFixed | rs485/RS485BinaryMessage.js:382-397 | the same stream handling over the corrected `setMessage` |
| HostMessage.FillByteArrayV0 | rs485/RS485BinaryMessage.js:403-417 | the version 0 frame is 7 bytes and ends with the parity of the first six |
| HostMessage.FillByteArrayV1 | rs485/RS485BinaryMessage.js:423-439 | the version 1 frame is 9 bytes, states length 9, and ends with the CRC16 of the first seven bytes |
| HostMessage.HasError | rs485/RS485BinaryMessage.js:53-55 | a message has an error exactly when an error other than none is set |
| HostMessage.IsSameCommand | rs485/RS485BinaryMessage.js:463-470 | true exactly when the other message exists, has the same sender, receiver and key, and the key is not 'X' |
| HostMessage.IsResponseMessage | rs485/RS485BinaryMessage.js:479-488 | true exactly when the original exists and asked for a reply, its addresses are this message's swapped, and key and value agree |
| HostMessage.SetVersionAndLength | rs485/RS485BinaryMessage.js:69-76 | the length is 7 iff the version is 0, 9 iff it is 1, and 0 for any other version; nothing else changes |
| HostMessage.GetByteArray | rs485/RS485BinaryMessage.js:445-455 | there is no frame iff the version is above 1; otherwise it is the frame of that version |
| HostMessage.SameCommandNeverX | rs485/RS485BinaryMessage.js:463-471 | a message with key 'X' is never the same command as any other message |
| HostMessage.RoundTripV1 | rs485/RS485BinaryMessage.js:382-439 | noise, then a built version 1 frame, then any bytes, parse back to the same message, and the index moves past the frame |
| HostMessage.RoundTripV0 | rs485/RS485BinaryMessage.js:298-417 | with the corrected parity check (SetFromByteArrayFixed), a built version 0 frame parses back the same way |
| HostMessage.V0ParityFromValueByte | rs485/RS485BinaryMessage.js:298-311 | as written, a well-formed version 0 frame is reported as a parity mismatch exactly when its value low byte differs from its parity byte |
| HostMessage.V0ParityCounterexample | rs485/RS485BinaryMessage.js:300 | the token frame of sender 5 with value 1 is the bytes 5,0,0,0x21,0,1,0x25; as written the stream parser reports a parity mismatch for it, the corrected one no error |
| HostMessage.V1FrameMatchesNode | rs485/RS485BinaryMessage.js:423-439 | the host's version 1 frame is byte for byte the node's version 1 frame of the same fields |
| HostMessage.V0FrameMatchesNode | rs485/RS485BinaryMessage.js:403-417 | the host's version 0 frame is byte for byte the node's legacy frame of the same fields |
| Arbitration.NodeTiming | SpikeHome/RS485State.h:194-199 | the node waits at most 1000 ticks, a token loop lasts 100 ticks, the token times out after 400 ticks, and its counter is 16 bits wide |
| Arbitration.HostTiming | nodejs/rs485/RS485State.js:20-54 | the host waits at most 100 ticks, a loop lasts 10 ticks and the token times out after 40 ticks |
| Arbitration.NodeInit | SpikeHome/RS485State.cpp:16-23 | a new node is Unknown, with a zero timer, no right to send, and no known neighbour |
| Arbitration.HostInit | nodejs/rs485/RS485State.js:20-54 | a new host is Unknown with a zero timer, no right to send, no known neighbour, and leftmost address 0 |
| Arbitration.Inc | SpikeHome/RS485State.cpp:60-80 | the tick counter grows by one; the node's 16-bit counter wraps instead of exceeding 0xFFFF |
| Arbitration.ReceiverAddress | SpikeHome/RS485State.cpp:25-35 | the token goes to the neighbour if known, else to the leftmost address if known, else to broadcast |
| Arbitration.StoreSenderAddress | SpikeHome/RS485State.cpp:37-44 | a sender strictly between this address and the current neighbour becomes the neighbour; the leftmost address becomes the minimum of itself and the sender; nothing else changes |
| Arbitration.SetPhase | SpikeHome/RS485State.cpp:82-86 | changing state resets the timer and changes nothing else |
| Arbitration.ActivateEnableSend | SpikeHome/RS485State.cpp:88-97 | a registration request is sent iff no receiver is known; otherwise the token is passed on |
| Arbitration.HandleEnableSend | SpikeHome/RS485State.cpp:99-108 | a token for someone else makes the participant Unregistered; a token for it makes it Registered with the right to send; the timer restarts |
| Arbitration.HandleUnknown | SpikeHome/RS485State.cpp:110-138 | from Unknown the node may send only after a token for itself; a registration request moves it to Unregistered answering with its info; a loop timeout reboots it with a zero timer; a loop start at timer 0 forgets both neighbours and otherwise only withdraws the send permission |
| Arbitration.HandleReboot | SpikeHome/RS485State.cpp:140-164 | in Reboot the node may send only after a token for itself, and any token is reported as a change of state; a registration request moves it to Unregistered answering with its info; a loop start withdraws the send permission and passes the token when there is a receiver, else asks for registrations; a timeout moves it to Single with a zero timer; any other value, registration info included, only withdraws the permission |
| Arbitration.HandleSingle | SpikeHome/RS485State.cpp:166-196 | alone on the bus, the short break grants sending, a loop start withdraws it and asks for registrations, a timeout only restarts the timer, and a token for another node moves it to Unregistered keeping the permission; any state change resets the timer and is reported |
| Arbitration.HandleUnregistered | SpikeHome/RS485State.cpp:198-221 | an unregistered node may send exactly when a token for itself arrives, which registers it; every token is reported as a change; a timeout falls back to Unknown; anything else only withdraws the permission |
| Arbitration.HandleRegistered | SpikeHome/RS485State.cpp:239-267 | a registered node stays registered except on a timeout, which makes it Unregistered; a token sends nothing and grants sending exactly when it is for this node; the long break keeps the state and at most passes the token |
| Arbitration.RegisteredShortLoopBreak | SpikeHome/RS485State.cpp:223-237 | the token is given up exactly at the end of the small period or when it is lost; giving it up withdraws the permission and records the time, otherwise nothing changes; a registration request is sent only while the neighbour is unknown |
| Arbitration.ChangeStateNoInfo | SpikeHome/RS485State.cpp:60-80 | a tick reports a state change exactly when the state changes, and then the timer is 0 |
| Arbitration.IgnoreCommands | SpikeHome/RS485State.h:91-94 | commands are taken exactly in the Stable state |
| Arbitration.ChangeState | SpikeHome/RS485State.cpp:47-58 | a Stable participant ignores requests; every change of state resets the timer and is announced; the neighbour is kept or forgotten, never replaced |
| Arbitration.LoopEvent | SpikeHome/RS485State.cpp:60-80 | a tick is a loop timeout exactly when the timer has reached the maximum wait; otherwise it is a loop start, short or long break, or nothing |
| Arbitration.NodeLoopEvents | SpikeHome/RS485State.cpp:60-80 | on the node, a loop starts at every multiple of 100 ticks, with a short break at 30 and a long break at 70, until 1000 ticks time out |
| Arbitration.NoInfoTimer | SpikeHome/RS485State.cpp:60-80 | a tick without a frame reports STATE_CHANGED exactly when the state changes, and otherwise advances the timer (Single restarts it on a timeout) |
| Arbitration.NoInfoChangesIff | SpikeHome/RS485State.cpp:47-80 | any request reports STATE_CHANGED exactly when the state changes |
| Arbitration.LoopTimeoutTable | SpikeHome/RS485State.cpp:110-267 | a loop timeout moves Unknown to Reboot, Reboot to Single, Unregistered to Unknown and Registered to Unregistered, and keeps Single |
| Arbitration.EnableSendWhenNotRegistered | SpikeHome/RS485State.cpp:99-108 | an unregistered participant receiving the token becomes Registered with the right to send; a token for someone else makes it Unregistered |
| Arbitration.SingleKeepsMaySend | SpikeHome/RS485State.cpp:166-196 | a Single participant that sees another's token becomes Unregistered but keeps its right to send |
| Arbitration.ShortBreakDecision | SpikeHome/RS485State.cpp:223-237 | at the short break a registered participant requests registration, passes the token, or does nothing, each exactly in the case the timing and the neighbour determine |
| Arbitration.RegisteredToken | SpikeHome/RS485State.cpp:239-267 | a Registered participant stays Registered on a token; it may send iff the token is for it, and a foreign token records when it passed |
| Arbitration.TickPreservesInv | SpikeHome/RS485State.cpp:60-80 | a tick keeps the timer within its bound and Stable unreachable from a non-Stable state |
| Arbitration.ApplyPreservesInv | SpikeHome/RS485State.cpp:47-80 | every event, a frame or a tick, keeps the invariant |
| Arbitration.RunPreservesInv | SpikeHome/RS485State.cpp:47-80 | every sequence of events keeps the invariant |
| Arbitration.NodeIgnoresCommands | SpikeHome/RS485State.h:91-94 | a node started fresh never reaches Stable, so after any sequence of events it still ignores commands, and its timer stays at most 1000 |
| Arbitration.HostStaysBounded | nodejs/rs485/RS485State.js:229-248 | a host started fresh never reaches Stable and its timer stays at most 100 |
| Arbitration.ClosestAbove | SpikeHome/RS485State.cpp:37-44 | the neighbour after several senders never exceeds the starting bound |
| Arbitration.StoreAllNeighbour | SpikeHome/RS485State.cpp:37-44 | after storing a sequence of senders, the neighbour is the closest address above this one, and the leftmost address is at most every sender seen |
| Arbitration.ClosestAboveIsLeast | SpikeHome/RS485State.cpp:37-44 | that neighbour is the bound or a seen sender above this address, and no seen sender lies strictly between |
| HostState.Create | nodejs/rs485/RS485State.js:20-54 | a new host state holds only its own address in the chain, has not installed the chain, and satisfies the chain invariant |
| HostState.InsertFrom | nodejs/rs485/RS485State.js:183-204 | inserting keeps every old address, adds nothing but the sender, and grows the chain by at most one |
| HostState.InsertAddress | nodejs/rs485/RS485State.js:183-204 | after insertion the chain holds exactly the old addresses and the sender |
| HostState.InsertAddressAscending | nodejs/rs485/RS485State.js:183-204 | inserting into a strictly ascending chain keeps it strictly ascending |
| HostState.InsertFromAscending | nodejs/rs485/RS485State.js:183-204 | the scan from any position keeps a strictly ascending chain ascending |
| HostState.InsertBeforeGreater | nodejs/rs485/RS485State.js:183-204 | placing the sender in front of the first greater address keeps the chain strictly ascending |
| HostState.UpdateSenderAddressChain | nodejs/rs485/RS485State.js:183-204 | the first call only installs the chain; later calls store the sender as in the node and add it to the chain |
| HostState.UpdateKeepsChainInv | nodejs/rs485/RS485State.js:183-204 | updating keeps the chain ascending and holding this host's address, and an installed chain then holds the sender |
| HostState.CreateStateSignalingMessage | nodejs/rs485/RS485State.js:119-133 | NO_REQUEST and STATE_CHANGED send nothing; otherwise a token frame with that value, sent to the receiver for ENABLE_SEND and to broadcast for anything else |
| HostState.ProcessIncomingStateMessage | nodejs/rs485/RS485State.js:140-152 | only error-free token frames are processed; any answer is a token frame in the received frame's version |
| HostState.UpdateStateNoMessage | nodejs/rs485/RS485State.js:229-248 | a tick advances the machine and sends a frame unless the outcome is NO_REQUEST or STATE_CHANGED |
| HostState.ProcessKeepsChainInv | nodejs/rs485/RS485State.js:140-152 | processing a frame keeps the chain invariant, and an installed chain learns the token's sender |
| HostState.FirstCallOnlyInstalls | nodejs/rs485/RS485State.js:183-204 | the first token frame after start only installs the chain and leaves the neighbour unknown |
| HostState.ProcessAll | nodejs/rs485/RS485State.js:140-152 | any sequence of frames keeps the chain invariant |
| NodeIo.DeviceNoFromAddress | SpikeHome/SerialIO.cpp:91-105 | broadcast maps to device 0; otherwise the result is the first device with that address, or -1 iff no device has it |
| NodeIo.FindFrom | SpikeHome/SerialIO.cpp:91-105 | the scan returns the first matching index at or after the start, or -1 iff there is none |
| NodeIo.Notify | SpikeHome/SerialIO.cpp:62-89 | notifying keeps the device address table well-formed |
| NodeIo.NotifyGating | SpikeHome/SerialIO.cpp:71-80 | the server address changes only on a server-address frame with a value in 1..126, and a device address only on an address frame with a value in 2..126 for that device |
| NodeIo.NotifyDelivery | SpikeHome/SerialIO.cpp:62-89 | a broadcast frame goes to all devices, and a frame for a known address goes to the device with that address, with its key and value |
| NodeIo.Reply | SpikeHome/SerialIO.cpp:55-60 | a reply swaps sender and receiver, keeps key and value, and does not ask for acknowledgement |
| NodeIo.ReplyOfReply | SpikeHome/SerialIO.cpp:55-60 | replying to a reply gives back the original frame without its acknowledge request |
| NodeIo.SendToServer | SpikeHome/SerialIO.cpp:37-41 | the frame goes from the device's address to the server address with the given key and value |
| NodeIo.Broadcast | SpikeHome/SerialIO.cpp:43-47 | the frame goes from the device's address to broadcast with the given key and value |
| NodeIo.SendToAddress | SpikeHome/SerialIO.cpp:49-53 | the frame goes from the device's address to the given receiver with the given key and value |
| NodeBus.FirstStart | SpikeHome/RS485.cpp:52-55 | the result is the first position holding a byte in 1..0x7F, or the end |
| NodeBus.ReceiveFrom | SpikeHome/RS485.cpp:43-61 | the receive loop skips bytes until a frame start, then stores up to 7 bytes; the count and the stored bytes are exactly the incoming bytes from the first frame start on |
| NodeBus.ReceiveStep | SpikeHome/RS485.cpp:49-55 | one received byte either is skipped before a frame start or extends the stored run of bytes from that start |
| NodeBus.Receive | SpikeHome/RS485.cpp:43-61 | the buffer holds at most 7 bytes; a non-empty buffer starts with a frame start byte; it holds exactly the incoming bytes from the first frame start |
| NodeBus.PhaseNumber | SpikeHome/RS485State.h:186-192 | the state numbers reported to the server are 0..5 |
| NodeBus.HandleNewTokenState | SpikeHome/RS485.cpp:81-104 | handling a state outcome delivers nothing to devices and only changes the pending state-change flag |
| NodeBus.TokenStateSends | SpikeHome/RS485.cpp:81-104 | NO_REQUEST sends nothing; any other outcome except STATE_CHANGED ends with a token frame carrying that outcome, sent to the receiver for ENABLE_SEND and broadcast otherwise |
| NodeBus.SendReceiveError | SpikeHome/RS485.cpp:133-139 | a frame with the pending receive error is sent iff there is one, and the error is then cleared |
| NodeBus.HandleStateNotification | SpikeHome/RS485.cpp:63-71 | handling a token frame keeps the driver well-formed and delivers nothing to devices |
| NodeBus.HandleCommandNotification | SpikeHome/RS485.cpp:73-79 | a command frame is answered iff it asks for acknowledgement, and only the addressing state may change |
| NodeBus.HandleNotification | SpikeHome/RS485.cpp:106-131 | handling any received frame, as written, keeps the driver well-formed |
| NodeBus.HandleNotificationFixed | SpikeHome/RS485.cpp:106-131 | the corrected handler keeps the driver well-formed |
| NodeBus.ErrorFolding | SpikeHome/RS485.cpp:110-115 | a length error stores 0x0100 plus the byte count and a parity error stores 0x0200; neither sends a frame nor advances the machine |
| NodeBus.Dispatch | SpikeHome/RS485.cpp:116-126 | silence advances the machine by a tick; a good token frame stores its sender and feeds its value to the machine; a good command frame is answered and delivered |
| NodeBus.ReceiveErrorNeverSent | SpikeHome/RS485.cpp:119-120 | as written, no frame sent while handling a notification carries the receive-error key, so a stored error is never reported |
| NodeBus.StateNotificationSends | SpikeHome/RS485.cpp:63-71 | as written, the token handling sends no receive-error frame once the error has been cleared |
| NodeBus.ReceiveErrorReported | SpikeHome/RS485.cpp:133-139 | with the fix, a pending error is the first frame sent on the next good token frame, and it is then cleared |
| NodeBus.Poll | SpikeHome/RS485.cpp:43-61 | one poll, with `handleNotification` as written, keeps the driver well-formed, and a poll that finds no frame start counts as a silent tick |
| NodeBus.PollFixed | SpikeHome/RS485.cpp:43-61 | the same poll over the corrected handler |
| NodeBus.ReceiveAfterNoise | SpikeHome/RS485.cpp:43-58 | noise followed by an encoded frame fills the buffer with exactly that frame, which decodes with no error |
| NodeBus.PollReceivesFrame | SpikeHome/RS485.cpp:43-61 | noise followed by an encoded frame is handled as exactly that frame, by the as-written and by the corrected handler |
| NodeBus.PollPendingError | SpikeHome/RS485.cpp:43-61 | a token frame received while an error is pending: as written the error is cleared and no receive-error frame is sent; with the fix the error is the first frame sent, then cleared |
| NodeBus.FirstStartAfterNoise | SpikeHome/RS485.cpp:52-55 | bytes that are 0 or above 0x7F in front of a frame are skipped exactly |
| HostIo.Create | nodejs/rs485/RS485IO.js:27-41 | a new host I/O has an empty queue, no retries, and the configured message version |
| HostIo.FindSameCommand | nodejs/rs485/RS485IO.js:271-284 | the scan returns the first queued message that is the same command, or -1 iff there is none |
| HostIo.AddMessageToSendQueue | nodejs/rs485/RS485IO.js:271-284 | a message replaces the first queued message that is the same command, and is appended iff there is none |
| HostIo.KeyXAlwaysAppended | nodejs/rs485/RS485IO.js:271-284 | a message with key 'X' is always appended |
| HostIo.AddKeepsNoDuplicates | nodejs/rs485/RS485IO.js:271-284 | adding keeps a queue free of two messages that are the same command |
| HostIo.SameCommandSymmetric | rs485/RS485BinaryMessage.js:463-471 | "same command" is symmetric |
| HostIo.Dequeue | nodejs/rs485/RS485IO.js:290-292 | dequeuing drops the head of a non-empty queue and leaves an empty queue empty |
| HostIo.Prepare | nodejs/rs485/RS485IO.js:298-309 | a message without a length gets the current version and its length; others are sent as they are |
| HostIo.SendMessageFromQueue | nodejs/rs485/RS485IO.js:298-309 | nothing is sent iff the queue is empty; otherwise the head is sent and dropped when it needs no reply or its retries are used up, and kept with one more retry otherwise |
| HostIo.RetriesBounded | nodejs/rs485/RS485IO.js:298-309 | the retry count never exceeds the maximum |
| HostIo.SetCurMessageVersion | nodejs/rs485/RS485IO.js:193-197 | the version changes only when changes are enabled and the new version is supported; nothing else changes |
| HostIo.VersionStaysSupported | nodejs/rs485/RS485IO.js:193-197 | the current version never exceeds the maximum supported version |
| HostIo.ProcessTick | nodejs/rs485/RS485IO.js:112-137 | after a tick the host no longer may send, at most two frames go out, and the address chain is unchanged |
| HostIo.OneQueuedPerTick | nodejs/rs485/RS485IO.js:125-130 | the queue is only touched while the host may send, and then the last frame sent is the prepared head of the queue |
| HostIo.ProcessTokenMessage | nodejs/rs485/RS485IO.js:203-213 | a token frame sends at most one answer and leaves the queue unchanged |
| HostIo.ProcessMessageRead | nodejs/rs485/RS485IO.js:223-238 | a frame with an error changes nothing; a response to the queue head dequeues it; any other frame leaves the queue as it is |
| SerialReader.CharClasses | SpikeHome/SerialReader.h:65-88 | space, digit and sign are the listed characters and no character is in two classes |
| SerialReader.TimeoutInMilliseconds | SpikeHome/SerialReader.h:27 | the timeout is 3 ms plus the integer time of 8 bits at the given speed, between 3 and 8003 ms |
| SerialReader.TimeoutMonotone | SpikeHome/SerialReader.h:27 | a slower line never gets a shorter timeout |
| SerialReader.ReadNext | SpikeHome/SerialReader.h:37-49 | a character is read iff one is left, and then the position moves by one |
| SerialReader.ReadNextSkipSpaces | SpikeHome/SerialReader.h:94-101 | success lands just past the first non-space character; failure means only spaces were left |
| SerialReader.CheckNext | SpikeHome/SerialReader.h:108-115 | for a non-space character, success holds exactly when the next non-space character is that one |
| SerialReader.DigitsValue | SpikeHome/SerialReader.h:121-150 | a run of n digits has a value below 10^n |
| SerialReader.DigitRunEnd | SpikeHome/SerialReader.h:121-150 | the run end is the first non-digit at or after the position |
| SerialReader.ReadDigits | SpikeHome/SerialReader.h:133-143 | the digit loop reads the whole digit run, multiplying the accumulator by ten per digit, and stops just past it |
| SerialReader.ReadValueFromCharStream | SpikeHome/SerialReader.h:121-150 | the position never moves backwards, success consumes a character, and failure leaves the value 0 |
| SerialReader.FormatNat | SpikeHome/SerialReader.h:121-150 | the decimal form of a number is a non-empty digit run |
| SerialReader.FormatNatValue | SpikeHome/SerialReader.h:121-150 | reading the decimal form of a number gives back the number |
| SerialReader.ReadValueRoundTrip | SpikeHome/SerialReader.h:121-150 | spaces, then an optional minus sign and the decimal form of any integer, then a non-digit, read back as that integer |
| SerialReader.ReadNegative | SpikeHome/SerialReader.h:129-147 | a minus sign before a digit run negates the value read |
| SerialReader.ReadValueDigits | SpikeHome/SerialReader.h:121-150 | a digit run after spaces reads as its value |
| JsonInput.Low8 | SpikeHome/NotificationV2.cpp:197-215 | the cast to an 8-bit field keeps values below 256 and otherwise wraps modulo 256 |
| JsonInput.Low16 | SpikeHome/NotificationV2.cpp:197-215 | the cast to a 16-bit field keeps values below 65536 and otherwise wraps modulo 65536 |
| JsonInput.Upper | SpikeHome/NotificationV2.cpp:181 | lower-case letters become upper case and other characters stay |
| JsonInput.PairName | SpikeHome/NotificationV2.cpp:180-183 | a successful name read consumes input and yields a non-zero field letter |
| JsonInput.PairValue | SpikeHome/NotificationV2.cpp:185-216 | a successful value read sets at most one field; a failed one sets none |
| JsonInput.SetValue | SpikeHome/NotificationV2.cpp:174-220 | reading one pair sets at most one field and consumes input on success; on failure no field changes |
| JsonInput.ReadPairs | SpikeHome/NotificationV2.cpp:230-234 | the pair loop never moves backwards and stays within the input; a loop that ends on a missing comma, rather than on a failed pair, has moved forward |
| JsonInput.SkipToBrace | SpikeHome/NotificationV2.cpp:227-229 | the scan stops just past the first '{', or at the end when there is none |
| JsonInput.GetJson | SpikeHome/NotificationV2.cpp:222-243 | input without '{' fails and clears the key; with a '{', the fields are those the pair loop after it leaves, and the read succeeds iff the reader then stands on '}' and the key is non-zero |
| JsonInput.BraceFound | SpikeHome/NotificationV2.cpp:227-229 | when the input holds a '{', the scan stops with the reader on the first one, also when it is the last char |
| JsonInput.ObjectRead | SpikeHome/NotificationV2.cpp:222-243 | for input that opens with '{', the result is the pair loop's fields from the next char on, successful iff the loop stops on '}' with a non-zero key |
| JsonInput.NumberPairRead | SpikeHome/NotificationV2.cpp:180-216 | a pair `"t": digits` sets field t to the value of the digits and stops after them |
| JsonInput.KeyPairRead | SpikeHome/NotificationV2.cpp:180-193 | a pair `"K": "c"` sets the key to c |
| JsonInput.FivePairs | SpikeHome/NotificationV2.cpp:229-234 | in the pair loop, five pair reads joined by commas (one after white space) compose: the loop ends where the fifth pair ends, with the fields the five reads set in turn |
| JsonInput.KeyObject | SpikeHome/NotificationV2.cpp:222-243 | the object `{"K": "c"}` is read whole: the key becomes c, the reader stops on the '}', and the read succeeds iff c is non-zero |
| JsonInput.FivePairObject | SpikeHome/NotificationV2.cpp:222-243 | an input of '{', five such pairs and a '}' on which the last value stops reads the five pairs' fields, and the read succeeds iff the key set is non-zero |
| LightState.ToInt8 | SpikeHome/LightState.h:236-239 | the 8-bit wait counter keeps values in -128..127 and wraps otherwise |
| LightState.Init | SpikeHome/LightState.h:34 | a new light is off and its wait counter is 0 |
| LightState.UsingLightStates | SpikeHome/LightState.h:165-171 | the light is in use iff it is on but not in the plain bright state; in use implies on |
| LightState.IsUsingLight | SpikeHome/LightState.h:171 | the light is in use exactly when it is on and not held off by brightness |
| LightState.SetLight | SpikeHome/LightState.h:41-48 | switching off turns the light off; switching on turns an off or bright light to dimming up when dark and to bright otherwise, and keeps a dimming light |
| LightState.SwitchOnInDark | SpikeHome/LightState.h:41-48 | switching on in the dark always ends in a state that uses the light |
| LightState.SetAdjustLight | SpikeHome/LightState.h:53-57 | the adjust program starts at its first measuring state with a zero wait counter |
| LightState.CheckForDarkness | SpikeHome/LightState.h:63-69 | a bright light starts dimming up exactly when it gets dark; nothing else changes |
| LightState.TargetBrightnessChanged | SpikeHome/LightState.h:76-86 | a light in use dims up for a higher and down for a lower target; otherwise nothing changes |
| LightState.NextAdjustLightState | SpikeHome/LightState.h:140-147 | the adjust program steps through its measuring states and then switches off; outside it nothing changes |
| LightState.AdjustProgramSequence | SpikeHome/LightState.h:132-147 | the adjust program runs for exactly three steps and then stops with the light off |
| LightState.WaitForReliableBrightness | SpikeHome/LightState.h:152-159 | the wait counter counts up until the brightness is reliable and then drops to 0; the state is kept |
| LightState.ReliableWaitBounded | SpikeHome/LightState.h:152-159 | the wait counter stays between 0 and the reliability threshold |
| LightState.HandleKeepBrightnessAsWritten | SpikeHome/LightState.h:203-232 | the step is always -1, 0 or 1 |
| LightState.HandleKeepBrightness | SpikeHome/LightState.h:203-232 | with the corrected small-difference test, the step is -1, 0 or 1 and the wait counter stays within ±20 |
| LightState.KeepCount | SpikeHome/LightState.h:216-229 | within the small band the wait counter counts towards the target and a step of ±1 happens exactly when it reaches ±20 |
| LightState.KeepFarAndNear | SpikeHome/LightState.h:203-232 | in both the written and the corrected handler, far below the target it starts dimming up and far above it starts dimming down; with the corrected test the counter resets close to the target; as written, a brightness 15 to 40 below the target takes the counting branch and any brightness from less than 15 below to 40 above the target resets the counter without stepping, so together the four clauses cover every brightness |
| LightState.KeepSymmetric | SpikeHome/LightState.h:203-232 | the corrected handler treats "too dark" and "too bright" symmetrically |
| LightState.KeepDimsAfterTwentyTicks | SpikeHome/LightState.h:203-232 | corrected: a light moderately above target with the counter at -19 steps down |
| LightState.KeepAsWrittenNeverDims | SpikeHome/LightState.h:212-213 | as written, a light moderately too bright only resets the counter and never steps down |
| LightState.KeepAsWrittenCounterexample | SpikeHome/LightState.h:212-213 | at brightness 60, target 30 and counter -19, the written code does not step while the corrected one steps down |
| LightState.DimmingStep | SpikeHome/LightState.h:94-126 | dimming up steps +1 until the target is reached and then keeps brightness; dimming down does the mirror; keeping brightness is the written keep handler, which never steps while the light is at most 40 above the target; an off light steps down; the adjust states step as listed |
| LightState.DimmingStepFixed | SpikeHome/LightState.h:94-126 | the same steps, with keeping brightness given by the corrected keep handler, which steps down after twenty ticks 15 to 40 above the target |
| LightState.DimmingStaysDimming | SpikeHome/LightState.h:94-126 | from a dimming state the light stays in a dimming state that uses the light, with either keep handler |
| LightState.StepTowardsTarget | SpikeHome/LightState.h:94-126 | a +1 step happens only below the target and a -1 step only at or above it, with either keep handler |
| ActivityState.Init | ActivityState.h:37 | a new presence state is off with no active detectors |
| ActivityState.LightTimeOut | ActivityState.h:42-45 | a light timeout switches presence off and keeps the counters |
| ActivityState.HandleOff | ActivityState.h:132-144 | from off the ignore timer is kept |
| ActivityState.HandleEntered | ActivityState.h:150-158 | after entering, only a room move changes the state, to in-room |
| ActivityState.HandleInRoom | ActivityState.h:164-174 | in the room the counters are kept |
| ActivityState.HandleLeaving | ActivityState.h:180-192 | while leaving the state either stays or becomes off |
| ActivityState.HandleMove | ActivityState.h:116-126 | a known state moves to a known state; an unknown state is left alone |
| ActivityState.MoveDetected | ActivityState.h:51-74 | a move increments the active detector count (8-bit); a stop decrements it, or clears it when off; a stop that leaves someone present arms the ignore timer |
| ActivityState.FromOff | ActivityState.h:132-144 | from off, a room move enters the room state iff the ignore timer has run out, and an entry move means someone entered |
| ActivityState.LeavingAndOff | ActivityState.h:164-192 | in the room, an entry move means leaving and a move near the entry means the second in-room state; while leaving, the state only changes on an OFF move, which ends it exactly when at most one detector was active |
| ActivityState.RoomMovesRaiseCertainty | ActivityState.h:150-174 | each room move raises the in-room certainty by one level up to the top, and never lowers the weight |
| ActivityState.DecreaseIgnoreMoveTimer | ActivityState.h:76-81 | the ignore timer counts down to 0 and nothing else changes |
| ActivityState.DecreaseTimes | ActivityState.h:76-81 | repeated countdown changes only the ignore timer |
| ActivityState.TimerRunsDown | ActivityState.h:76-81 | n countdowns lower the ignore timer by n, stopping at 0 |
| ActivityState.LateMoveIgnored | ActivityState.h:51-74 | after the last detector stops and the light times out, room moves are ignored for 84 ticks and recognised again afterwards |
| ActivityState.LeavingDoesNotArm | ActivityState.h:180-192 | a stop that ends the leaving state clears the detectors and does not re-arm the ignore timer |
| ActivityState.IgnoreWindow | ActivityState.h:132-144 | after n countdowns from off, a room move is ignored iff n is less than the ignore timer |
| ActivityState.ActivityWeight | ActivityState.h:87-99 | the weight is at most 10 and positive only while someone is present |
| ActivityState.WeightTable | ActivityState.h:87-99 | the weights are 0 off, 1 entered, 0 leaving, and 2, 4, 10 for the in-room levels |
| ActivityState.IsMoveActive | ActivityState.h:105-108 | a move is active exactly when some detector is active |
| Switches.HalfBits | SpikeHome/Switches.cpp:46-69 | shifting right by one drops the lowest bit of the bit list |
| Switches.Writes | SpikeHome/Switches.cpp:54-61 | the digital loop writes pins in ascending order, each in range, at most once |
| Switches.WritesConfiguredPins | SpikeHome/Switches.cpp:54-61 | a pin is written iff its bit in the pin mask is set |
| Switches.WritesValueBits | SpikeHome/Switches.cpp:54-61 | the k-th pin written gets the k-th value bit |
| Switches.SetAllAsWritten | SpikeHome/Switches.cpp:46-69 | as written, unchanged values write nothing; otherwise the values are stored and only digital pins 2..13 are written |
| Switches.SetAll | SpikeHome/Switches.cpp:46-69 | corrected: unchanged values write nothing; otherwise the values are stored and pins 2..17 are written |
| Switches.SetAllDrivesConfiguredPins | SpikeHome/Switches.cpp:46-69 | corrected: every configured pin including A0..A3 is written, with consecutive value bits |
| Switches.AnalogPinNeverDriven | SpikeHome/Switches.cpp:62-67 | as written A0 (pin 14) is never written even when configured; the corrected version writes it |
| Switches.OutputPinsAreDriven | SpikeHome/Switches.cpp:28-44 | the pins set up as outputs are exactly the pins the loop writes |
| Switches.Create | SpikeHome/Switches.cpp:15-21 | the constructor stores the pin mask and values and writes nothing |
| Switches.NewValues | SpikeHome/Switches.cpp:71-86 | the stored values never hold the mode bits |
| Switches.ChangeSwitches | SpikeHome/Switches.cpp:71-86 | a value at or above `SET_MODE \| CLEAR_MODE` (0x6000, so 0x8000 too) is ignored; otherwise the new values are stored without the mode bits; as written only digital pins 2..13 are ever written |
| Switches.ChangeSwitchesFixed | SpikeHome/Switches.cpp:71-86 | the same over the corrected `setAll`, which may also write A0..A3 (pins 14..17) |
| Switches.AnalogChangeExample | SpikeHome/Switches.cpp:46-86 | a switch on A0 alone changed to 1: as written no pin is written, the corrected version writes pin 14 high |
| Switches.ModesBitwise | SpikeHome/Switches.cpp:76-82 | set mode ORs the bits in, clear mode clears them, and a plain value replaces the values |
| Switches.SetThenClear | SpikeHome/Switches.cpp:76-82 | setting and then clearing the same bits leaves them cleared |
| Switches.NewValuesIdempotent | SpikeHome/Switches.cpp:71-86 | applying the same change twice equals applying it once |
| Switches.ChangeIdempotent | SpikeHome/Switches.cpp:71-86 | a repeated change writes no pins, as written and corrected |
| Switches.NoPinsNoWrites | SpikeHome/Switches.cpp:46-69 | without configured pins nothing is written |
| Switches.DocumentedExample | Switches.h:12-19 | the documented example (pins 11 and 12; value 2, then set bit 1, then clear bit 1) writes the pins as documented |
| Switches.HandleChange | SpikeHome/Switches.cpp:88-93 | only the switch status key changes the switches, and only digital pins are written |
| EepromStore.Addr | SpikeHome/EEPROMManager.h:234 | addresses are decoded modulo the 1024-byte EEPROM |
| EepromStore.WriteData | EEPROMManager.cpp:152-166 | the read-back check succeeds iff the cell holds the byte; healthy cells always succeed; no other cell changes |
| EepromStore.SetValueByPos | EEPROMManager.cpp:168-171 | on two healthy cells writing a value succeeds, and the defect set never changes |
| EepromStore.ValueBytes | EEPROMManager.cpp:173-180 | the value read at a position has that cell as low byte and the next cell as high byte |
| EepromStore.PosLayout | EEPROMManager.cpp:249-252 | index -1 is the first cell of the region, entries start after the three header cells, and consecutive entries are three cells apart |
| EepromStore.ValueRoundTrip | EEPROMManager.cpp:168-180 | on healthy cells a written value reads back, and only its two cells change |
| EepromStore.ValueWriteFails | EEPROMManager.cpp:168-180 | a failed value write means one of its two cells is defect |
| EepromStore.Create | EEPROMManager.cpp:21-27 | a manager starts at the free position and reserves room for its maximum entries plus two |
| EepromStore.RegionsDisjoint | EEPROMManager.cpp:21-27 | a manager's entries lie inside its reservation and after its header |
| EepromStore.FindIndex | EEPROMManager.cpp:136-150 | the result is the first stored entry with the key, or none iff no stored entry has it |
| EepromStore.FindPos | EEPROMManager.cpp:136-150 | NOT_FOUND iff no stored entry has the key; otherwise the position of the first entry that has it |
| EepromStore.HasValue | EEPROMManager.cpp:39-42 | true iff some stored entry has the key |
| EepromStore.GetValue | EEPROMManager.cpp:29-37 | a missing key reads 0; otherwise the value of the first entry with the key |
| EepromStore.GetValueByIndex | EEPROMManager.cpp:203-211 | an index below the amount gives that entry's value, any larger index gives 0; index -1 reads the header cells, the amount as low byte and the next cell as high byte |
| EepromStore.GetKeyByIndex | EEPROMManager.cpp:213-221 | an index below the amount gives that entry's key, any larger index gives 0; index -1 reads the amount cell |
| EepromStore.SetEntryAmount | EEPROMManager.cpp:223-226 | on a healthy header the amount becomes the low byte of the argument |
| EepromStore.Clear | EEPROMManager.cpp:254-258 | on a healthy header no entries remain and the insert position resets |
| EepromStore.ClearForgetsAll | EEPROMManager.cpp:254-258 | after clearing every key is missing and reads 0 |
| EepromStore.Shrink | EEPROMManager.cpp:260-263 | on a healthy header the amount becomes the number of entries added |
| EepromStore.SetEntryByPos | EEPROMManager.cpp:182-196 | a position past the last entry fails and changes nothing; otherwise only the entry's three cells change |
| EepromStore.EntryRoundTrip | EEPROMManager.cpp:182-196 | on healthy cells a written entry reads back key and value |
| EepromStore.FailedEntryRepeats | EEPROMManager.cpp:182-196 | after a failed entry write, the same write fails again and changes nothing |
| EepromStore.AppendTurn | EEPROMManager.cpp:124-132 | one loop turn raises the amount by one on a healthy header and keeps the defect cells |
| EepromStore.AppendLoop | EEPROMManager.cpp:119-134 | the retry loop can run forever only when the header cell is defect |
| EepromStore.Append | EEPROMManager.cpp:119-134 | a full store is left unchanged with failure; the loop runs forever only on a defect header |
| EepromStore.AppendAsWritten | EEPROMManager.cpp:119-134 | as written the result is uninitialised exactly when the store is full |
| EepromStore.AppendFlagDefined | EEPROMManager.cpp:119-134 | with room the written and the corrected append agree; when full the written one returns an uninitialised flag and the corrected one fails |
| EepromStore.TurnHealthy | EEPROMManager.cpp:124-132 | on healthy cells one turn writes the entry at the old amount |
| EepromStore.AppendHealthy | EEPROMManager.cpp:119-134 | on healthy cells with room, the entry lands at the old amount and the amount grows by one |
| EepromStore.SetValue | EEPROMManager.cpp:44-57 | a missing key changes nothing and fails |
| EepromStore.SetThenGet | EEPROMManager.cpp:44-57 | on a healthy entry, setting a stored key succeeds and reads back the new value, and every other entry keeps its key and value |
| EepromStore.MoveEntryByPos | EEPROMManager.cpp:106-117 | a move succeeds, keeps the manager and the defect cells, and a move onto itself changes nothing |
| EepromStore.InsertLoop | EEPROMManager.cpp:59-77 | inserting keeps the region and the defect cells, and a position past the end fails without change |
| EepromStore.InsertEntryByPos | EEPROMManager.cpp:59-77 | inserting keeps the region of the manager |
| EepromStore.AddValue | EEPROMManager.cpp:79-104 | a stored key returns its stored value, a new key returns the given value; a stored key exactly at the insert position is only counted as added, and one before it leaves the store unchanged and reports success |
| EepromStore.WriteEntryHealthy | EEPROMManager.cpp:182-196 | on healthy cells writing entry i sets its key and value and no other key |
| EepromStore.InsertWrites | EEPROMManager.cpp:59-77 | without a move the entry is written at the position and the insert position advances |
| EepromStore.SwapMove | EEPROMManager.cpp:106-117 | moving the entry at the insert position to the key's slot keeps the amount and the earlier keys |
| EepromStore.AddSwapsStoredKey | EEPROMManager.cpp:85-96 | adding a key stored beyond the insert position swaps it to the insert position, keeps the amount, and keeps its value |
| EepromStore.AppendKeepsKeys | EEPROMManager.cpp:119-134 | on a healthy region with room, append writes the entry at the old amount, grows the amount by one, and keeps every other key |
| EepromStore.AddInsertsMissingKey | EEPROMManager.cpp:79-104 | adding a missing key to a healthy store with room grows the amount by one and the key then reads the given value |

## Left out

- Serial I/O, the bus direction pin, `millis()` timing and the real-time
  receive loop. A poll is modelled on a finite sequence of incoming bytes.
  The inter-character timeout is computed but not used as a clock.
- `RS485::sendNotification`: the random delay before a send and the
  actual write. Outgoing frames are collected in a list.
- The random wait in `handleUnknown` (SpikeHome/RS485State.cpp:130) is
  not modelled; the delay is not observable in the state.
- Floating point: `StateValue(double)`, `toFloat`, and the host's
  hexadecimal, text and JSON printing of frames.
- HostMessage.SetV0Message, HostMessage.SetV0MessageAsWritten,
  HostMessage.SetV1Message, HostMessage.RoundTripV0, HostMessage.RoundTripV1:
  the message's `value` is the word `valueHigh * 256 + valueLow` for every
  key. For the keys 'h', 't' and 's' the host's `setValue`
  (rs485/RS485BinaryMessage.js:148-149) sets the floating-point
  `valueHigh + valueLow / 100` instead, which `fillByteArrayV0/V1` would
  not encode back to the same two bytes; the round trips hold for the two
  value bytes, not for that decimal reading.
- HostState.UpdateSenderAddressChain: the source replaces the method on
  the shared prototype, so the chain is installed once per process; the
  model installs it once per host.
- NotifyV2.IllegalVersion: the source leaves the key, value, size and
  byte count of a frame with an illegal version unset; the model sets them
  to 0.
- `printToSerial`, `printJsonToSerial`, the trace helpers and `print` of
  the EEPROM manager: output only.
- Configuration persistence (`setConfigValue`) in `Switches` and the
  other glue classes (`Light`, `Activity`, sensors, clock, roller
  shutter): outside the bus core.
- The host's send flag, friendly names, the message tree, logging and
  the version stored per chain entry.
- `Trace::getFreeMemory()` is a parameter of the node driver.
- `StateValue(int16_t)` stores the same 16 bits as the unsigned
  constructor and is covered by Values.FromWord; it has no row of its own.
- The `maySend`, `getState` and `isRegistered` accessors are read
  directly from the state datatype.
- ActivityState: the ignore timer is not initialised by the C++
  constructor; the model takes its start value as a parameter.
- Arbitration.NodeInit: `mLastEnableSend` is not initialised by the C++
  constructor; the model takes it as a parameter.
- SerialReader.ReadValueFromCharStream: the value is an unbounded
  integer; the 32-bit overflow of the C++ accumulator on very long digit
  runs is not modelled.
- JsonInput.GetJson: the whole-object round trip is proved for an
  object of five pairs laid out as FivePairs states (FivePairObject),
  for the one-key object (KeyObject) and per pair; other layouts of pairs and white space are covered only
  by GetJson's own contract.
- Switches: `pinMode` is not modelled; pin numbering uses the Arduino Uno
  layout where A0 is pin 14. Switches.ChangeSwitches and Switches.HandleChange
  follow the source's `setAll`, which never writes A0..A3 (see Findings). The constructor does not drive pins in the
  source either.
- EepromStore: only managers with at most 255 entries are modelled (the
  amount lives in one cell); the 16-bit `pos_t` overflow of positions
  beyond 32767 is not modelled, since positions wrap at 1024 first.
- SpikeHome/RS485.h declares members that `RS485.cpp` does not define;
  only the definitions are modelled.

Some members' own contracts state only part of what the source does;
the rest is stated by the lemmas named on their line:

- Legacy.Payload: states the length only; the content is in Legacy.Encode and Legacy.RoundTrip.
- NotifyV2.Header: states the length only; the content is in NotifyV2.HeaderOfBuffer and NotifyV2.HeaderInjective.
- Arbitration.ChangeState: states the shared rules only; the per-state transitions are in Arbitration.LoopTimeoutTable, Arbitration.EnableSendWhenNotRegistered, Arbitration.SingleKeepsMaySend, Arbitration.ShortBreakDecision and Arbitration.RegisteredToken.
- Arbitration.ClosestAbove: states the bound only; leastness is in Arbitration.ClosestAboveIsLeast.
- HostState.ProcessIncomingStateMessage: states the filter and the answer's shape; the chain effect is in HostState.ProcessKeepsChainInv and HostState.FirstCallOnlyInstalls.
- NodeIo.Notify: states well-formedness only; the effects are in NodeIo.NotifyGating and NodeIo.NotifyDelivery.
- NodeBus.HandleNotification: states well-formedness only; its effect on receive errors is in NodeBus.ReceiveErrorNeverSent.
- NodeBus.HandleNotificationFixed: states well-formedness only; the dispatch is in NodeBus.ErrorFolding, NodeBus.Dispatch and NodeBus.ReceiveErrorReported.
- NodeBus.HandleStateNotification: states well-formedness only; the frames sent are in NodeBus.TokenStateSends and NodeBus.StateNotificationSends.
- NodeBus.Poll, NodeBus.PollFixed: state the silent case only; the frame case is in NodeBus.PollReceivesFrame and NodeBus.PollPendingError.
- HostIo.ProcessTick: states bounds only; the queue handling is in HostIo.OneQueuedPerTick.
- HostIo.ProcessTokenMessage: states bounds only; the answer is computed by HostState.ProcessIncomingStateMessage.
- HostIo.Prepare: tests `length == 0` where `sendMessage` tests `version === undefined` (nodejs/rs485/RS485IO.js:420). The two differ only for a queued message with a version of 2 or more: the source's `getByteArray` throws on it, while the model gives it the current version.
- SerialReader.ReadValueFromCharStream: states progress only; the values read are in SerialReader.ReadValueRoundTrip, SerialReader.ReadNegative and SerialReader.ReadValueDigits.
- JsonInput.PairName, JsonInput.PairValue, JsonInput.SetValue: state that at most one field changes; the values read are in JsonInput.NumberPairRead, JsonInput.KeyPairRead and JsonInput.FivePairs.
- LightState.HandleKeepBrightnessAsWritten, LightState.HandleKeepBrightness: state bounds only; the behaviour of both is in LightState.KeepFarAndNear (the far branches of both, the reset of the corrected one, the counting and reset bands of the written one), LightState.KeepCount and the finding lemmas.
- ActivityState.HandleOff, ActivityState.HandleEntered, ActivityState.HandleInRoom, ActivityState.HandleLeaving, ActivityState.HandleMove: state frame conditions only; the transitions are in ActivityState.FromOff, ActivityState.LeavingAndOff and ActivityState.RoomMovesRaiseCertainty.
- Switches.NewValues: states that the mode bits are cleared; the modes are in Switches.ModesBitwise.
- EepromStore.SetValue: states the missing-key case only; the stored-key case is in EepromStore.SetThenGet.
- EepromStore.SetValue, EepromStore.MoveEntryByPos, EepromStore.InsertLoop: go through the corrected EepromStore.Append, whose full-store result is the defined failure flag; false is one of the values the source's uninitialised `writeCheckOk` (EEPROMManager.cpp:121-133) may hold, and the undefined result is only modelled by EepromStore.AppendAsWritten.
- EepromStore.CalcPosByIndex, EepromStore.GetValueByPos: their properties are stated by EepromStore.PosLayout and EepromStore.ValueBytes rather than by their own contracts.
- JsonInput.ReadPairs: states progress only; which fields a sequence of pairs sets is stated by JsonInput.FivePairs.
- EepromStore.MoveEntryByPos, EepromStore.InsertLoop, EepromStore.InsertEntryByPos, EepromStore.AddValue: state the outcome and the region; the contents are in EepromStore.SwapMove, EepromStore.InsertWrites, EepromStore.AddSwapsStoredKey and EepromStore.AddInsertsMissingKey, on healthy cells.

Where the source code and its design description disagree, the model
follows the code:

- Command frames are always forwarded to the devices; `ignoreCommands`
  is never consulted by `RS485.cpp`.
- A command frame with the acknowledge flag is answered whoever it is
  addressed to.
- A frame with the server-address key changes the server address whoever
  sent it.
- Length and parity errors only set the receive-error code; they do not
  advance the state machine.

## Findings

| source | as written | input that shows it | evidently intended | confidence | as-written member | corrected member |
|---|---|---|---|---|---|---|
| SpikeHome/NotificationV2.cpp:104-115 | `writeToSerial` always writes the 9-byte layout, also for version 0 | any frame with version 0 | a version 0 frame is written in the 7-byte layout with parity | not executed | NotifyV2.WriteToSerialV0Rejected | NotifyV2.RoundTripFixed |
| rs485/RS485BinaryMessage.js:300 | the received parity is read from byte 5 (the value's low byte) instead of byte 6 | sender 5, receiver 0, key '!', value 1: parity byte 0x25, value byte 0x01 | compare with byte 6 | not executed | HostMessage.V0ParityCounterexample | HostMessage.RoundTripV0 |
| SpikeHome/RS485.cpp:119-120 | a good frame clears `mReceiveError` before `handleStateNotification` can send it | a parity error followed by a good token frame | the pending error is reported on the next token frame | not executed | NodeBus.ReceiveErrorNeverSent | NodeBus.ReceiveErrorReported |
| SpikeHome/LightState.h:212-213 | the restart test `cur + SMALL > target \|\| cur - SMALL > target` holds for every light at or above the target, so a light up to 40 too bright keeps resetting the counter | state keep, counter -19, brightness 60, target 30 | `cur - SMALL < target` with the two tests joined by `&&` instead of `\|\|` (with `\|\|` kept the reset test is always true): restart only within 15 of the target, dim down after 20 ticks | not executed | LightState.KeepAsWrittenCounterexample | LightState.KeepDimsAfterTwentyTicks |
| SpikeHome/Switches.cpp:62-67 | the loop over A0..A3 only sets the pin mode and never writes the value | pins mask with bit 12 set (A0) and new values | write the next value bit to each configured analog pin | not executed | Switches.AnalogPinNeverDriven | Switches.SetAllDrivesConfiguredPins |
| EEPROMManager.cpp:119-134 | `writeCheckOk` is read uninitialised when the store is full | a full manager | return false when there is no room | not executed | EepromStore.AppendFlagDefined | EepromStore.AppendHealthy |

=== FILE: activity_state.dfy ===
/** The presence detection of a room (`ActivityState`): movement reports
    from the room's detectors move the room between off, someone entered,
    someone in the room (three levels of certainty) and someone leaving.
    A detector that switches off late must not bring the room back on, so
    a room move is ignored for a while after the detectors went quiet. */
module ActivityState {

  const ACTIVITY_OFF: nat := 0
  const ACTIVITY_ENTERED: nat := 2
  const ACTIVITY_LEAVING: nat := 4
  const ACTIVITY_IN_ROOM: nat := 10
  const ACTIVITY_IN_ROOM2: nat := 12
  const ACTIVITY_IN_ROOM3: nat := 14

  const MOVETYPE_OFF: nat := 0
  const MOVETYPE_ROOM_MOVE: nat := 1
  const MOVETYPE_NEAR_ENTRY_MOVE: nat := 2
  const MOVETYPE_ENTRY_MOVE: nat := 3

  const MOVE_REPEAT_DELAY_IN_SECONDS: nat := 6
  /** Main loops per second (1000 ms / 10 ms) and loops per state check. */
  const LOOPS_PER_SECOND: nat := 100
  const CHECKSTATE_NORMAL: nat := 7
  /** State checks during which room moves are ignored: 6 * (100 / 7). */
  const IGNORE_MOVE_CHECKS: nat := MOVE_REPEAT_DELAY_IN_SECONDS * (LOOPS_PER_SECOND / CHECKSTATE_NORMAL)

  type Byte = x: nat | x < 0x100
  type Value = x: nat | x < 0x1_0000

  datatype Activity = Activity(state: Byte, activeMoveDetectors: Byte, ignoreMoveTimer: Byte)

  /** The six states the machine uses. */
  predicate KnownState(state: nat)
  {
    state == ACTIVITY_OFF || state == ACTIVITY_ENTERED || state == ACTIVITY_LEAVING
    || state == ACTIVITY_IN_ROOM || state == ACTIVITY_IN_ROOM2 || state == ACTIVITY_IN_ROOM3
  }

  /** The constructor. It leaves the ignore timer uninitialised, so its
      first value is a parameter here. */
  function Init(timer: Byte): (a: Activity)
    ensures a.state == ACTIVITY_OFF && a.activeMoveDetectors == 0 && a.ignoreMoveTimer == timer
  {
    Activity(ACTIVITY_OFF, 0, timer)
  }

  /** `lightTimeOut`: the room is off. */
  function LightTimeOut(a: Activity): (r: Activity)
    ensures r.state == ACTIVITY_OFF && r.activeMoveDetectors == a.activeMoveDetectors
    ensures r.ignoreMoveTimer == a.ignoreMoveTimer
  {
    a.(state := ACTIVITY_OFF)
  }

  /** `handleOff`: a room move switches on only once the ignore timer has
      run down; a move at or near the entry means someone entered. A
      move-off clears the detector count. */
  function HandleOff(a: Activity, moveType: Value): (r: Activity)
    requires a.state == ACTIVITY_OFF
    ensures r.ignoreMoveTimer == a.ignoreMoveTimer
  {
    if moveType == MOVETYPE_OFF then a.(activeMoveDetectors := 0)
    else if moveType == MOVETYPE_ROOM_MOVE then
      if a.ignoreMoveTimer == 0 then a.(state := ACTIVITY_IN_ROOM2) else a
    else if moveType == MOVETYPE_NEAR_ENTRY_MOVE || moveType == MOVETYPE_ENTRY_MOVE then
      a.(state := ACTIVITY_ENTERED)
    else a
  }

  /** `handleEntered`: a room move confirms someone is in the room. */
  function HandleEntered(a: Activity, moveType: Value): (r: Activity)
    requires a.state == ACTIVITY_ENTERED
    ensures r == a || (moveType == MOVETYPE_ROOM_MOVE && r == a.(state := ACTIVITY_IN_ROOM))
  {
    if moveType == MOVETYPE_ROOM_MOVE then a.(state := ACTIVITY_IN_ROOM) else a
  }

  /** `handleInRoom`: room moves raise the certainty, a move near the
      entry sets it to the middle level, a move at the entry means someone
      is leaving. */
  function HandleInRoom(a: Activity, moveType: Value): (r: Activity)
    requires a.state == ACTIVITY_IN_ROOM || a.state == ACTIVITY_IN_ROOM2 || a.state == ACTIVITY_IN_ROOM3
    ensures r.activeMoveDetectors == a.activeMoveDetectors && r.ignoreMoveTimer == a.ignoreMoveTimer
  {
    if moveType == MOVETYPE_ROOM_MOVE then
      a.(state := if a.state == ACTIVITY_IN_ROOM then ACTIVITY_IN_ROOM2 else ACTIVITY_IN_ROOM3)
    else if moveType == MOVETYPE_NEAR_ENTRY_MOVE then a.(state := ACTIVITY_IN_ROOM2)
    else if moveType == MOVETYPE_ENTRY_MOVE then a.(state := ACTIVITY_LEAVING)
    else a
  }

  /** `handleLeaving`: the room goes off once every detector is quiet. */
  function HandleLeaving(a: Activity, moveType: Value): (r: Activity)
    requires a.state == ACTIVITY_LEAVING
    ensures r == a || r == a.(state := ACTIVITY_OFF)
  {
    if moveType == MOVETYPE_OFF && a.activeMoveDetectors == 0 then a.(state := ACTIVITY_OFF) else a
  }

  /** `handleMove`: dispatch on the state; an unknown state stays. */
  function HandleMove(a: Activity, moveType: Value): (r: Activity)
    ensures r.ignoreMoveTimer == a.ignoreMoveTimer
    ensures KnownState(a.state) ==> KnownState(r.state)
    ensures !KnownState(a.state) ==> r == a
  {
    if a.state == ACTIVITY_OFF then HandleOff(a, moveType)
    else if a.state == ACTIVITY_ENTERED then HandleEntered(a, moveType)
    else if a.state == ACTIVITY_IN_ROOM || a.state == ACTIVITY_IN_ROOM2 || a.state == ACTIVITY_IN_ROOM3 then
      HandleInRoom(a, moveType)
    else if a.state == ACTIVITY_LEAVING then HandleLeaving(a, moveType)
    else a
  }

  /** `moveDetected`: count the active detectors (a move report adds one,
      wrapping as a `uint8_t`; a move-off removes one but never below
      zero), move the state, and after a move-off that leaves the room on
      ignore room moves for a while. */
  function MoveDetected(a: Activity, moveType: Value): (r: Activity)
    ensures moveType != MOVETYPE_OFF ==> r.activeMoveDetectors == (a.activeMoveDetectors + 1) % 0x100
    ensures moveType == MOVETYPE_OFF && a.state != ACTIVITY_OFF ==>
              r.activeMoveDetectors == (if a.activeMoveDetectors > 0 then a.activeMoveDetectors - 1 else 0)
    ensures moveType == MOVETYPE_OFF && a.state == ACTIVITY_OFF ==> r.activeMoveDetectors == 0
    ensures moveType == MOVETYPE_OFF && r.state != ACTIVITY_OFF ==> r.ignoreMoveTimer == IGNORE_MOVE_CHECKS
    ensures !(moveType == MOVETYPE_OFF && r.state != ACTIVITY_OFF) ==> r.ignoreMoveTimer == a.ignoreMoveTimer
    ensures KnownState(a.state) ==> KnownState(r.state)
  {
    var count := if moveType != MOVETYPE_OFF then (a.activeMoveDetectors + 1) % 0x100
                 else if a.activeMoveDetectors > 0 then a.activeMoveDetectors - 1
                 else 0;
    var moved := HandleMove(a.(activeMoveDetectors := count), moveType);
    if moveType == MOVETYPE_OFF && moved.state != ACTIVITY_OFF then moved.(ignoreMoveTimer := IGNORE_MOVE_CHECKS)
    else moved
  }

  /** From off: a room move switches on (at the middle level) exactly when
      the ignore timer has run down; a move at or near the entry means
      someone entered. */
  lemma FromOff(a: Activity, moveType: Value)
    requires a.state == ACTIVITY_OFF
    ensures moveType == MOVETYPE_ROOM_MOVE ==>
              (MoveDetected(a, moveType).state == ACTIVITY_IN_ROOM2 <==> a.ignoreMoveTimer == 0)
    ensures moveType == MOVETYPE_ROOM_MOVE && a.ignoreMoveTimer != 0 ==> MoveDetected(a, moveType).state == ACTIVITY_OFF
    ensures moveType == MOVETYPE_NEAR_ENTRY_MOVE || moveType == MOVETYPE_ENTRY_MOVE ==>
              MoveDetected(a, moveType).state == ACTIVITY_ENTERED
    ensures moveType == MOVETYPE_OFF ==> MoveDetected(a, moveType) == a.(activeMoveDetectors := 0)
  {
  }

  /** Leaving: an entry move in the room means someone is leaving, and a
      move near the entry drops the certainty to the middle level; once
      leaving, only the last detector going quiet turns the room off, and
      any other report keeps it leaving. */
  lemma LeavingAndOff(a: Activity, m: Value)
    ensures a.state in {ACTIVITY_IN_ROOM, ACTIVITY_IN_ROOM2, ACTIVITY_IN_ROOM3} ==>
              MoveDetected(a, MOVETYPE_ENTRY_MOVE).state == ACTIVITY_LEAVING
    ensures a.state == ACTIVITY_LEAVING ==>
              (MoveDetected(a, MOVETYPE_OFF).state == ACTIVITY_OFF <==> a.activeMoveDetectors <= 1)
    ensures a.state == ACTIVITY_LEAVING && m != MOVETYPE_OFF ==> MoveDetected(a, m).state == ACTIVITY_LEAVING
    ensures a.state in {ACTIVITY_IN_ROOM, ACTIVITY_IN_ROOM2, ACTIVITY_IN_ROOM3} ==>
              MoveDetected(a, MOVETYPE_NEAR_ENTRY_MOVE).state == ACTIVITY_IN_ROOM2
  {
  }

  /** A room move raises the certainty step by step, up to the top. */
  lemma RoomMovesRaiseCertainty(a: Activity)
    ensures a.state == ACTIVITY_ENTERED ==> MoveDetected(a, MOVETYPE_ROOM_MOVE).state == ACTIVITY_IN_ROOM
    ensures a.state == ACTIVITY_IN_ROOM ==> MoveDetected(a, MOVETYPE_ROOM_MOVE).state == ACTIVITY_IN_ROOM2
    ensures a.state in {ACTIVITY_IN_ROOM2, ACTIVITY_IN_ROOM3} ==>
              MoveDetected(a, MOVETYPE_ROOM_MOVE).state == ACTIVITY_IN_ROOM3
    ensures KnownState(a.state) ==>
              ActivityWeight(MoveDetected(a, MOVETYPE_ROOM_MOVE)) >= ActivityWeight(a)
  {
  }

  /** `decreaseIgnoreMoveTimer`: count down to zero and stay there. */
  function DecreaseIgnoreMoveTimer(a: Activity): (r: Activity)
    ensures a.ignoreMoveTimer > 0 ==> r.ignoreMoveTimer == a.ignoreMoveTimer - 1
    ensures a.ignoreMoveTimer == 0 ==> r.ignoreMoveTimer == 0
    ensures r.state == a.state && r.activeMoveDetectors == a.activeMoveDetectors
  {
    if a.ignoreMoveTimer > 0 then a.(ignoreMoveTimer := a.ignoreMoveTimer - 1) else a
  }

  /** `n` state checks without move reports. */
  function DecreaseTimes(a: Activity, n: nat): (r: Activity)
    ensures r.state == a.state && r.activeMoveDetectors == a.activeMoveDetectors
    decreases n
  {
    if n == 0 then a else DecreaseTimes(DecreaseIgnoreMoveTimer(a), n - 1)
  }

  /** The timer has run down after as many checks as it held, and not a
      check earlier. */
  lemma {:induction false} TimerRunsDown(a: Activity, n: nat)
    ensures DecreaseTimes(a, n).ignoreMoveTimer == if n >= a.ignoreMoveTimer then 0 else a.ignoreMoveTimer - n
    decreases n
  {
    if n > 0 {
      TimerRunsDown(DecreaseIgnoreMoveTimer(a), n - 1);
    }
  }

  /** The late-detector guard: detectors going quiet in an occupied room
      arm the timer; if the light then times out, a late room move does
      not switch the room back on, but one after the timer ran down does.
      A room that goes off by someone leaving does not arm the timer. */
  lemma LateMoveIgnored(a: Activity)
    requires a.state in {ACTIVITY_IN_ROOM, ACTIVITY_IN_ROOM2, ACTIVITY_IN_ROOM3}
    ensures var quiet := MoveDetected(a, MOVETYPE_OFF);
      var off := LightTimeOut(quiet);
      && quiet.state == a.state && quiet.ignoreMoveTimer == IGNORE_MOVE_CHECKS == 84
      && MoveDetected(off, MOVETYPE_ROOM_MOVE).state == ACTIVITY_OFF
      && MoveDetected(DecreaseTimes(off, IGNORE_MOVE_CHECKS), MOVETYPE_ROOM_MOVE).state == ACTIVITY_IN_ROOM2
  {
    IgnoreWindow(LightTimeOut(MoveDetected(a, MOVETYPE_OFF)), 0);
    IgnoreWindow(LightTimeOut(MoveDetected(a, MOVETYPE_OFF)), IGNORE_MOVE_CHECKS);
  }

  lemma LeavingDoesNotArm(a: Activity)
    requires a.state == ACTIVITY_LEAVING && a.activeMoveDetectors <= 1
    ensures MoveDetected(a, MOVETYPE_OFF) == Activity(ACTIVITY_OFF, 0, a.ignoreMoveTimer)
  {
  }

  /** Room moves are ignored for the timer's run after any move-off that
      left the room on, and accepted once it ran down. */
  lemma IgnoreWindow(a: Activity, n: nat)
    requires a.state == ACTIVITY_OFF
    ensures n < a.ignoreMoveTimer ==> MoveDetected(DecreaseTimes(a, n), MOVETYPE_ROOM_MOVE).state == ACTIVITY_OFF
    ensures n >= a.ignoreMoveTimer ==> MoveDetected(DecreaseTimes(a, n), MOVETYPE_ROOM_MOVE).state == ACTIVITY_IN_ROOM2
  {
    TimerRunsDown(a, n);
  }

  /** `getActivityWeight`: how strongly the state indicates presence. */
  function ActivityWeight(a: Activity): (w: nat)
    ensures w <= 10
    ensures w > 0 ==> a.state in {ACTIVITY_ENTERED, ACTIVITY_IN_ROOM, ACTIVITY_IN_ROOM2, ACTIVITY_IN_ROOM3}
  {
    if a.state == ACTIVITY_IN_ROOM then 2
    else if a.state == ACTIVITY_IN_ROOM2 then 4
    else if a.state == ACTIVITY_IN_ROOM3 then 10
    else if a.state == ACTIVITY_ENTERED then 1
    else 0
  }

  /** The weights: off 0, entered 1, leaving 0, in the room 2, 4 and 10;
      more certainty weighs more. */
  lemma WeightTable(a: Activity)
    ensures a.state == ACTIVITY_OFF ==> ActivityWeight(a) == 0
    ensures a.state == ACTIVITY_ENTERED ==> ActivityWeight(a) == 1
    ensures a.state == ACTIVITY_LEAVING ==> ActivityWeight(a) == 0
    ensures a.state == ACTIVITY_IN_ROOM ==> ActivityWeight(a) == 2
    ensures a.state == ACTIVITY_IN_ROOM2 ==> ActivityWeight(a) == 4
    ensures a.state == ACTIVITY_IN_ROOM3 ==> ActivityWeight(a) == 10
  {
  }

  /** `isMoveActive`. */
  function IsMoveActive(a: Activity): (r: bool)
    ensures r <==> a.activeMoveDetectors > 0
  {
    a.activeMoveDetectors != 0
  }
}

=== FILE: arbitration.dfy ===
/** The token-ring arbitration state machine (`RS485State`). A node starts
    in `Unknown`, listens, and works its way to `Registered`, where it is
    handed the send token (`ENABLE_SEND`) by its left neighbour and passes
    it on to its right neighbour. Time advances in ticks: one tick per poll
    without data (`changeStateNoInfo`); token messages received from the
    bus drive `changeState`.

    The controller nodes and the host run the same machine with different
    periods; a `Timing` record carries them. */
module Arbitration {
  import opened Bits

  // Token request values carried in the value of a token message, and the
  // results of a transition (`value_t`).
  const NO_REQUEST: u16 := 0
  const ENABLE_SEND: u16 := 1
  const REGISTRATION_INFO: u16 := 2
  const REGISTRATION_REQUEST: u16 := 3
  const STATE_CHANGED: u16 := 4
  // Timer events that `changeStateNoInfo` feeds into `changeState`.
  const LOOP_TIMEOUT: u16 := 10
  const LOOP_START: u16 := 11
  const LOOP_SHORT_BREAK: u16 := 12
  const LOOP_LONG_BREAK: u16 := 13

  /** Bus addresses (`address_t`, one byte). */
  type Address = x: nat | x < 256

  const NEIGHBOUR_UNKNOWN: Address := 255
  const BROADCAST: Address := 0

  /** The states of the machine. `Stable` (`STATE_STABLE`) is declared by
      the node but no transition ever enters it. */
  datatype Phase = Unknown | Reboot | Single | Unregistered | Registered | Stable

  /** The periods of the machine, in ticks: the whole loop is
      `smallPeriod + largePeriod`, the token is lost after four loops
      without it, and `maxWait` ticks without any event end a state. On the
      node the tick counter is a 16-bit integer (`counter16`). */
  datatype Timing = Timing(maxWait: nat, smallPeriod: nat, largePeriod: nat, counter16: bool)

  function LoopLength(t: Timing): nat
  {
    t.smallPeriod + t.largePeriod
  }

  function TokenTimeout(t: Timing): nat
  {
    4 * LoopLength(t)
  }

  /** The controller node's periods (`RS485State.h`). */
  function NodeTiming(): (t: Timing)
    ensures t.maxWait == 1000 && LoopLength(t) == 100 && TokenTimeout(t) == 400
    ensures t.counter16
  {
    Timing(1000, 30, 70, true)
  }

  /** The host's periods (`RS485State.js`). */
  function HostTiming(): (t: Timing)
    ensures t.maxWait == 100 && LoopLength(t) == 10 && TokenTimeout(t) == 40
    ensures !t.counter16
  {
    Timing(100, 3, 7, false)
  }

  /** Timings for which the machine keeps its timer bounded: a nonzero
      `maxWait` that the counter can represent. */
  predicate ValidTiming(t: Timing)
  {
    0 < t.maxWait && (t.counter16 ==> t.maxWait < 0x1_0000)
  }

  datatype State = State(phase: Phase, timer: nat, lastEnableSend: nat, neighbour: Address,
                         leftmost: Address, maySend: bool)

  /** The state after a transition and the value it asks to send. */
  datatype Step = Step(state: State, out: u16)

  /** The node's constructor. `mLastEnableSend` is never initialised, so
      whatever the memory held is a parameter here. */
  function NodeInit(lastEnableSend: nat): (s: State)
    requires lastEnableSend < 0x1_0000
    ensures s.phase == Unknown && s.timer == 0 && !s.maySend
    ensures s.neighbour == NEIGHBOUR_UNKNOWN && s.leftmost == NEIGHBOUR_UNKNOWN
    ensures s.lastEnableSend == lastEnableSend
  {
    State(Unknown, 0, lastEnableSend, NEIGHBOUR_UNKNOWN, NEIGHBOUR_UNKNOWN, false)
  }

  /** The host's constructor: unlike the node, the leftmost sibling starts
      at 0, and since it only ever takes minima it stays 0 until a loop
      start in `Unknown` resets it. */
  function HostInit(): (s: State)
    ensures s.phase == Unknown && s.timer == 0 && !s.maySend && s.lastEnableSend == 0
    ensures s.neighbour == NEIGHBOUR_UNKNOWN && s.leftmost == 0
  {
    State(Unknown, 0, 0, NEIGHBOUR_UNKNOWN, 0, false)
  }

  /** The counter after one more tick; the node's counter wraps at 2^16. */
  function Inc(t: Timing, x: nat): (r: nat)
    ensures t.counter16 && x + 1 < 0x1_0000 ==> r == x + 1
    ensures !t.counter16 ==> r == x + 1
    ensures t.counter16 ==> r < 0x1_0000
  {
    if t.counter16 then (x + 1) % 0x1_0000 else x + 1
  }

  /** An address as the byte a message carries. */
  function AddressByte(a: Address): byte
  {
    a as byte
  }

  /** `getReceiverAddress`: the right neighbour if known, else the leftmost
      sibling (the ring wraps around) if known, else broadcast. */
  function ReceiverAddress(s: State): (r: Address)
    ensures r != NEIGHBOUR_UNKNOWN
    ensures s.neighbour != NEIGHBOUR_UNKNOWN ==> r == s.neighbour
    ensures s.neighbour == NEIGHBOUR_UNKNOWN && s.leftmost != NEIGHBOUR_UNKNOWN ==> r == s.leftmost
    ensures s.neighbour == NEIGHBOUR_UNKNOWN && s.leftmost == NEIGHBOUR_UNKNOWN ==> r == BROADCAST
  {
    if s.neighbour == NEIGHBOUR_UNKNOWN then
      if s.leftmost == NEIGHBOUR_UNKNOWN then BROADCAST else s.leftmost
    else
      s.neighbour
  }

  function Min(a: Address, b: Address): (m: Address)
    ensures m <= a && m <= b && (m == a || m == b)
  {
    if a < b then a else b
  }

  /** `storeSenderAddress`: a sender between this node and its current
      right neighbour becomes the new right neighbour; the leftmost sibling
      is the least sender seen. */
  function StoreSenderAddress(s: State, sender: Address, me: Address): (r: State)
    ensures r.neighbour == sender <== me < sender < s.neighbour
    ensures !(me < sender < s.neighbour) ==> r.neighbour == s.neighbour
    ensures r.leftmost <= s.leftmost && r.leftmost <= sender
    ensures r.leftmost == s.leftmost || r.leftmost == sender
    ensures r == s.(neighbour := r.neighbour, leftmost := r.leftmost)
  {
    var rightSibling := me < sender && s.neighbour > sender;
    s.(neighbour := if rightSibling then sender else s.neighbour,
       leftmost := Min(s.leftmost, sender))
  }

  /** `changeStateTo`: entering a state restarts the timer. */
  function SetPhase(s: State, p: Phase): (r: State)
    ensures r.phase == p && r.timer == 0
    ensures r == s.(phase := p, timer := 0)
  {
    s.(phase := p, timer := 0)
  }

  /** `activateEnableSend`: with nobody to pass the token to, ask for
      registrations instead. */
  function ActivateEnableSend(s: State): (r: u16)
    ensures r == REGISTRATION_REQUEST <==> ReceiverAddress(s) == BROADCAST
    ensures r == ENABLE_SEND <==> ReceiverAddress(s) != BROADCAST
  {
    if ReceiverAddress(s) == BROADCAST then REGISTRATION_REQUEST else ENABLE_SEND
  }

  /** `handleEnableSend`: a token seen while not registered. Addressed here,
      the node is registered and holds the token; addressed elsewhere, the
      node knows there are others and starts registering. */
  function HandleEnableSend(s: State, notForMe: bool): (r: Step)
    ensures r.out == STATE_CHANGED && r.state.timer == 0
    ensures notForMe ==> r.state == s.(phase := Unregistered, timer := 0)
    ensures !notForMe ==> r.state == s.(phase := Registered, timer := 0, maySend := true)
  {
    if notForMe then Step(SetPhase(s, Unregistered), STATE_CHANGED)
    else Step(SetPhase(s, Registered).(maySend := true), STATE_CHANGED)
  }

  /** `handleUnknown`. A loop start at timer 0 forgets the neighbours; the
      random delay the node sleeps there has no effect on the state. */
  function HandleUnknown(s: State, value: u16, notForMe: bool): (r: Step)
    requires s.phase == Unknown
    ensures r.state.maySend <==> value == ENABLE_SEND && !notForMe
    ensures value == REGISTRATION_REQUEST ==> r.state.phase == Unregistered && r.out == REGISTRATION_INFO
    ensures value == LOOP_TIMEOUT ==> r == Step(s.(phase := Reboot, timer := 0, maySend := false), STATE_CHANGED)
    ensures value == LOOP_START ==> r.out == NO_REQUEST && r.state.phase == Unknown
    ensures value == LOOP_START && s.timer == 0 ==>
              r.state.neighbour == NEIGHBOUR_UNKNOWN && r.state.leftmost == NEIGHBOUR_UNKNOWN
    ensures value == LOOP_START && s.timer != 0 ==> r.state == s.(maySend := false)
  {
    var s := s.(maySend := false);
    if value == ENABLE_SEND then HandleEnableSend(s, notForMe)
    else if value == REGISTRATION_REQUEST then Step(SetPhase(s, Unregistered), REGISTRATION_INFO)
    else if value == LOOP_START then
      Step(if s.timer == 0 then s.(neighbour := NEIGHBOUR_UNKNOWN, leftmost := NEIGHBOUR_UNKNOWN) else s,
           NO_REQUEST)
    else if value == LOOP_TIMEOUT then Step(SetPhase(s, Reboot), STATE_CHANGED)
    else Step(s, NO_REQUEST)
  }

  /** `handleReboot`: nobody was heard; at each loop start try to hand on
      the token or ask for registrations. */
  function HandleReboot(s: State, value: u16, notForMe: bool): (r: Step)
    requires s.phase == Reboot
    ensures r.state.maySend <==> value == ENABLE_SEND && !notForMe
    ensures value == ENABLE_SEND ==> r.out == STATE_CHANGED && r.state.phase != Reboot
    ensures value == REGISTRATION_REQUEST ==>
              r == Step(s.(phase := Unregistered, timer := 0, maySend := false), REGISTRATION_INFO)
    ensures value == LOOP_START ==> r.state == s.(maySend := false)
    ensures value == LOOP_START ==> (r.out == ENABLE_SEND <==> ReceiverAddress(s) != BROADCAST)
    ensures value == LOOP_START ==> (r.out == REGISTRATION_REQUEST <==> ReceiverAddress(s) == BROADCAST)
    ensures value == LOOP_TIMEOUT ==> r == Step(s.(phase := Single, timer := 0, maySend := false), STATE_CHANGED)
    ensures value !in {ENABLE_SEND, REGISTRATION_REQUEST, LOOP_START, LOOP_TIMEOUT} ==>
              r == Step(s.(maySend := false), NO_REQUEST)
  {
    var s := s.(maySend := false);
    if value == ENABLE_SEND then HandleEnableSend(s, notForMe)
    else if value == REGISTRATION_REQUEST then Step(SetPhase(s, Unregistered), REGISTRATION_INFO)
    else if value == LOOP_START then Step(s, ActivateEnableSend(s))
    else if value == LOOP_TIMEOUT then Step(SetPhase(s, Single), STATE_CHANGED)
    else Step(s, NO_REQUEST)
  }

  /** `handleSingle`: alone on the bus, send in the second part of every
      loop. Unlike the other unregistered states it does not clear the send
      permission first, so a token for another node moves it to
      `Unregistered` with the permission still set. */
  function HandleSingle(s: State, value: u16, notForMe: bool): (r: Step)
    requires s.phase == Single
    ensures value == LOOP_SHORT_BREAK ==> r == Step(s.(maySend := true), NO_REQUEST)
    ensures value == LOOP_START ==> r == Step(s.(maySend := false), REGISTRATION_REQUEST)
    ensures value == LOOP_TIMEOUT ==> r == Step(s.(timer := 0), NO_REQUEST)
    ensures value == ENABLE_SEND && notForMe ==> r.state == s.(phase := Unregistered, timer := 0)
    ensures r.state.phase != s.phase ==> r.state.timer == 0 && r.out in {STATE_CHANGED, REGISTRATION_INFO}
  {
    if value == ENABLE_SEND then HandleEnableSend(s, notForMe)
    else if value == REGISTRATION_INFO then Step(SetPhase(s.(maySend := false), Unknown), STATE_CHANGED)
    else if value == REGISTRATION_REQUEST then
      Step(SetPhase(s.(maySend := false), Unregistered), REGISTRATION_INFO)
    else if value == LOOP_START then Step(s.(maySend := false), REGISTRATION_REQUEST)
    else if value == LOOP_SHORT_BREAK then Step(s.(maySend := true), NO_REQUEST)
    else if value == LOOP_TIMEOUT then Step(s.(timer := 0), NO_REQUEST)
    else Step(s, NO_REQUEST)
  }

  /** `handleUnregistered`. A token for another node reports a change
      although the state stays the same. */
  function HandleUnregistered(s: State, value: u16, notForMe: bool): (r: Step)
    requires s.phase == Unregistered
    ensures r.state.maySend <==> value == ENABLE_SEND && !notForMe
    ensures r.state.maySend <==> r.state.phase == Registered
    ensures value == ENABLE_SEND ==> r.out == STATE_CHANGED
    ensures value == LOOP_TIMEOUT ==> r.state.phase == Unknown && r.state.timer == 0 && r.out == STATE_CHANGED
    ensures value != ENABLE_SEND && value != LOOP_TIMEOUT ==> r.state == s.(maySend := false)
  {
    var s := s.(maySend := false);
    if value == ENABLE_SEND then
      Step(if notForMe then s else SetPhase(s, Registered).(maySend := true), STATE_CHANGED)
    else if value == REGISTRATION_REQUEST then Step(s, REGISTRATION_INFO)
    else if value == LOOP_TIMEOUT then Step(SetPhase(s, Unknown), STATE_CHANGED)
    else Step(s, NO_REQUEST)
  }

  /** `registeredShortLoopBreak`: at the end of the small period, or as soon
      as no token has been seen for `TokenTimeout` ticks, the registered
      node gives up the token: to its neighbour, or by asking for
      registrations while it has none and the token is not lost. */
  function RegisteredShortLoopBreak(t: Timing, s: State): (r: Step)
    requires s.phase == Registered
    ensures r.out in {NO_REQUEST, ENABLE_SEND, REGISTRATION_REQUEST}
    ensures r.out != NO_REQUEST <==> s.timer == t.smallPeriod || s.lastEnableSend + TokenTimeout(t) <= s.timer
    ensures r.out == NO_REQUEST ==> r.state == s
    ensures r.out != NO_REQUEST ==> r.state == s.(lastEnableSend := s.timer, maySend := false)
    ensures r.out == REGISTRATION_REQUEST ==> s.neighbour == NEIGHBOUR_UNKNOWN
  {
    var tokenLost := s.lastEnableSend + TokenTimeout(t) <= s.timer;
    if s.timer == t.smallPeriod || tokenLost then
      Step(s.(lastEnableSend := s.timer, maySend := false),
           if s.neighbour == NEIGHBOUR_UNKNOWN && !tokenLost then REGISTRATION_REQUEST else ENABLE_SEND)
    else
      Step(s, NO_REQUEST)
  }

  /** `handleRegistered`. The token case falls through into the empty
      registration cases, so receiving the token sends nothing. */
  function HandleRegistered(t: Timing, s: State, value: u16, notForMe: bool): (r: Step)
    requires s.phase == Registered
    ensures value == ENABLE_SEND ==> r.out == NO_REQUEST && r.state.phase == Registered
                                     && (r.state.maySend <==> !notForMe)
    ensures value == LOOP_TIMEOUT ==> r.state.phase == Unregistered && r.state.timer == 0 && r.out == STATE_CHANGED
    ensures value != LOOP_TIMEOUT ==> r.state.phase == Registered
    ensures value == LOOP_LONG_BREAK ==> r.state == s && r.out in {NO_REQUEST, ENABLE_SEND}
  {
    if value == ENABLE_SEND then
      Step(if notForMe then s.(maySend := false, lastEnableSend := s.timer)
           else s.(maySend := true, timer := 0),
           NO_REQUEST)
    else if value == LOOP_SHORT_BREAK then RegisteredShortLoopBreak(t, s)
    else if value == LOOP_LONG_BREAK then
      Step(s, if s.timer == t.largePeriod && s.neighbour == NEIGHBOUR_UNKNOWN
                 && s.leftmost != NEIGHBOUR_UNKNOWN then ENABLE_SEND else NO_REQUEST)
    else if value == LOOP_TIMEOUT then Step(SetPhase(s, Unregistered), STATE_CHANGED)
    else Step(s, NO_REQUEST)
  }

  /** `changeState`: dispatch on the state; `Stable` has no handler. */
  function ChangeState(t: Timing, s: State, value: u16, notForMe: bool): (r: Step)
    ensures s.phase == Stable ==> r == Step(s, NO_REQUEST)
    ensures r.state.timer == s.timer || r.state.timer == 0
    ensures r.state.phase != s.phase ==> r.state.timer == 0
    ensures r.state.phase != s.phase ==> r.out == STATE_CHANGED || r.out == REGISTRATION_INFO
    ensures r.state.neighbour == s.neighbour || r.state.neighbour == NEIGHBOUR_UNKNOWN
  {
    match s.phase
    case Unknown => HandleUnknown(s, value, notForMe)
    case Reboot => HandleReboot(s, value, notForMe)
    case Single => HandleSingle(s, value, notForMe)
    case Unregistered => HandleUnregistered(s, value, notForMe)
    case Registered => HandleRegistered(t, s, value, notForMe)
    case Stable => Step(s, NO_REQUEST)
  }

  /** The timer event of a tick: a timeout once `maxWait` is reached, else
      the loop position decides (start, end of the small period, end of the
      large period), and other ticks carry no event. */
  function LoopEvent(t: Timing, timer: nat): (e: u16)
    ensures e == LOOP_TIMEOUT <==> timer >= t.maxWait
    ensures e == NO_REQUEST || e == LOOP_TIMEOUT || e == LOOP_START
            || e == LOOP_SHORT_BREAK || e == LOOP_LONG_BREAK
  {
    if timer >= t.maxWait then LOOP_TIMEOUT
    else if LoopLength(t) == 0 then NO_REQUEST
    else
      var loopState := timer % LoopLength(t);
      if loopState == 0 then LOOP_START
      else if loopState == t.smallPeriod then LOOP_SHORT_BREAK
      else if loopState == t.largePeriod then LOOP_LONG_BREAK
      else NO_REQUEST
  }

  /** `changeStateNoInfo`: one tick. The timer event, if any, is fed to
      `changeState` (as not addressed to this node), and the timer advances
      unless the state changed. */
  function ChangeStateNoInfo(t: Timing, s: State): (r: Step)
    ensures r.out == STATE_CHANGED <==> r.state.phase != s.phase
    ensures r.out == STATE_CHANGED ==> r.state.timer == 0
  {
    var e := LoopEvent(t, s.timer);
    if e == NO_REQUEST then Step(s.(timer := Inc(t, s.timer)), NO_REQUEST)
    else
      NoInfoChangesIff(t, s, e);
      var st := ChangeState(t, s, e, true);
      if st.out != STATE_CHANGED then Step(st.state.(timer := Inc(t, st.state.timer)), st.out)
      else st
  }

  /** `ignoreCommands`: commands are taken only in the `Stable` state. */
  function IgnoreCommands(s: State): (r: bool)
    ensures !r <==> s.phase == Stable
  {
    s.phase != Stable
  }

  // ---------------------------------------------------------------------
  // Properties

  /** Loop positions of the node: a tick below 1000 whose position in the
      100-tick loop is 0, 30 or 70 starts the loop or ends one of its two
      periods. */
  lemma NodeLoopEvents(timer: nat)
    ensures timer >= 1000 ==> LoopEvent(NodeTiming(), timer) == LOOP_TIMEOUT
    ensures timer < 1000 && timer % 100 == 0 ==> LoopEvent(NodeTiming(), timer) == LOOP_START
    ensures timer < 1000 && timer % 100 == 30 ==> LoopEvent(NodeTiming(), timer) == LOOP_SHORT_BREAK
    ensures timer < 1000 && timer % 100 == 70 ==> LoopEvent(NodeTiming(), timer) == LOOP_LONG_BREAK
    ensures timer < 1000 && timer % 100 !in {0, 30, 70} ==> LoopEvent(NodeTiming(), timer) == NO_REQUEST
  {
  }

  /** A tick changes the state exactly when it reports `STATE_CHANGED`;
      then the timer is 0, otherwise it advanced by one tick from its value
      before, or from 0 when `Single` timed out. */
  lemma NoInfoTimer(t: Timing, s: State)
    ensures var r := ChangeStateNoInfo(t, s);
      && (r.out == STATE_CHANGED <==> r.state.phase != s.phase)
      && (r.out == STATE_CHANGED ==> r.state.timer == 0)
      && (r.out != STATE_CHANGED ==>
            (r.state.timer == Inc(t, s.timer)
             || (s.phase == Single && s.timer >= t.maxWait && r.state.timer == Inc(t, 0))))
  {
    var e := LoopEvent(t, s.timer);
    if e != NO_REQUEST {
      NoInfoChangesIff(t, s, e);
    }
  }

  /** Timer events change the state exactly when they report it. */
  lemma NoInfoChangesIff(t: Timing, s: State, e: u16)
    requires e == LOOP_TIMEOUT || e == LOOP_START || e == LOOP_SHORT_BREAK || e == LOOP_LONG_BREAK
    ensures var r := ChangeState(t, s, e, true);
      && (r.out == STATE_CHANGED <==> r.state.phase != s.phase)
      && (r.out != STATE_CHANGED ==> r.state.timer == s.timer || (s.phase == Single && e == LOOP_TIMEOUT))
  {
  }

  /** The timeout transitions: `Unknown` reboots, `Reboot` concludes the
      node is alone, the unregistered and registered states fall back one
      step, and `Single` only restarts its timer. */
  lemma LoopTimeoutTable(t: Timing, s: State, notForMe: bool)
    ensures var r := ChangeState(t, s, LOOP_TIMEOUT, notForMe);
      && (s.phase == Unknown ==> r.state.phase == Reboot && r.out == STATE_CHANGED)
      && (s.phase == Reboot ==> r.state.phase == Single && r.out == STATE_CHANGED)
      && (s.phase == Unregistered ==> r.state.phase == Unknown && r.out == STATE_CHANGED)
      && (s.phase == Registered ==> r.state.phase == Unregistered && r.out == STATE_CHANGED)
      && (s.phase == Single ==> r.state == s.(timer := 0) && r.out == NO_REQUEST)
      && (s.phase != Stable ==> r.state.timer == 0)
  {
  }

  /** A token seen in any state short of `Registered`: addressed here, the
      node is registered and may send; addressed elsewhere, it is
      unregistered. Either way the change is reported. */
  lemma EnableSendWhenNotRegistered(t: Timing, s: State, notForMe: bool)
    requires s.phase in {Unknown, Reboot, Single, Unregistered}
    ensures var r := ChangeState(t, s, ENABLE_SEND, notForMe);
      && r.out == STATE_CHANGED
      && (!notForMe ==> r.state.phase == Registered && r.state.maySend && r.state.timer == 0)
      && (notForMe ==> r.state.phase == Unregistered)
      && (notForMe && s.phase != Single ==> !r.state.maySend)
  {
  }

  /** The quirk of `handleSingle`: a node that may send keeps that
      permission when a token for another node makes it unregistered. */
  lemma SingleKeepsMaySend(t: Timing, s: State)
    requires s.phase == Single && s.maySend
    ensures ChangeState(t, s, ENABLE_SEND, true).state.phase == Unregistered
    ensures ChangeState(t, s, ENABLE_SEND, true).state.maySend
  {
  }

  /** The small break of a registered node: the token counts as lost once
      `TokenTimeout` ticks passed since it was last seen passing; a
      registration request goes out only while no neighbour is known and
      the token is not lost; otherwise the token is passed on. */
  lemma ShortBreakDecision(t: Timing, s: State)
    requires s.phase == Registered
    ensures var lost := s.lastEnableSend + TokenTimeout(t) <= s.timer;
      var r := ChangeState(t, s, LOOP_SHORT_BREAK, true);
      && (r.out == REGISTRATION_REQUEST <==>
            (s.timer == t.smallPeriod && s.neighbour == NEIGHBOUR_UNKNOWN && !lost))
      && (r.out == ENABLE_SEND <==>
            ((s.timer == t.smallPeriod || lost) && (s.neighbour != NEIGHBOUR_UNKNOWN || lost)))
      && (r.out == NO_REQUEST <==> !(s.timer == t.smallPeriod || lost))
      && (r.out != NO_REQUEST ==> !r.state.maySend && r.state.lastEnableSend == s.timer)
      && r.state.phase == Registered
  {
  }

  /** A registered node that receives the token may send and restarts its
      timer; seeing the token pass to another node withdraws the permission
      and remembers when. Neither answers anything. */
  lemma RegisteredToken(t: Timing, s: State, notForMe: bool)
    requires s.phase == Registered
    ensures var r := ChangeState(t, s, ENABLE_SEND, notForMe);
      && r.out == NO_REQUEST && r.state.phase == Registered
      && (!notForMe ==> r.state.maySend && r.state.timer == 0)
      && (notForMe ==> !r.state.maySend && r.state.lastEnableSend == s.timer)
  {
  }

  // ---------------------------------------------------------------------
  // Reachable states

  /** What the bus stack feeds the machine: a tick without data, a token
      request addressed here or elsewhere, or a sender address seen by a
      node with the given own address. */
  datatype Event = Tick | Token(value: u16, notForMe: bool) | Sender(sender: Address, me: Address)

  function Apply(t: Timing, s: State, e: Event): (r: State)
  {
    match e
    case Tick => ChangeStateNoInfo(t, s).state
    case Token(value, notForMe) => ChangeState(t, s, value, notForMe).state
    case Sender(sender, me) => StoreSenderAddress(s, sender, me)
  }

  function Run(t: Timing, s: State, events: seq<Event>): (r: State)
    decreases |events|
  {
    if |events| == 0 then s else Run(t, Apply(t, s, events[0]), events[1..])
  }

  /** The invariant of every reachable state: never `Stable`, and the timer
      never beyond `maxWait`, so the node's 16-bit counter never wraps. */
  predicate Inv(t: Timing, s: State)
  {
    s.phase != Stable && s.timer <= t.maxWait
  }

  lemma TickPreservesInv(t: Timing, s: State)
    requires ValidTiming(t) && Inv(t, s)
    ensures Inv(t, ChangeStateNoInfo(t, s).state)
  {
    NoInfoTimer(t, s);
  }

  lemma ApplyPreservesInv(t: Timing, s: State, e: Event)
    requires ValidTiming(t) && Inv(t, s)
    ensures Inv(t, Apply(t, s, e))
  {
    if e.Tick? {
      TickPreservesInv(t, s);
    }
  }

  lemma {:induction false} RunPreservesInv(t: Timing, s: State, events: seq<Event>)
    requires ValidTiming(t) && Inv(t, s)
    ensures Inv(t, Run(t, s, events))
    decreases |events|
  {
    if |events| > 0 {
      ApplyPreservesInv(t, s, events[0]);
      RunPreservesInv(t, Apply(t, s, events[0]), events[1..]);
    }
  }

  /** `STATE_STABLE` is never entered, so `ignoreCommands` holds in every
      state the node reaches, and its timer stays within 1000 ticks. */
  lemma NodeIgnoresCommands(lastEnableSend: nat, events: seq<Event>)
    requires lastEnableSend < 0x1_0000
    ensures IgnoreCommands(Run(NodeTiming(), NodeInit(lastEnableSend), events))
    ensures Run(NodeTiming(), NodeInit(lastEnableSend), events).timer <= 1000
  {
    RunPreservesInv(NodeTiming(), NodeInit(lastEnableSend), events);
  }

  /** The host's machine has the same invariant. */
  lemma HostStaysBounded(events: seq<Event>)
    ensures Run(HostTiming(), HostInit(), events).phase != Stable
    ensures Run(HostTiming(), HostInit(), events).timer <= 100
  {
    RunPreservesInv(HostTiming(), HostInit(), events);
  }

  /** The least address in `senders` above `me` and below `bound`, or
      `bound` when there is none. */
  function ClosestAbove(senders: seq<Address>, me: Address, bound: Address): (r: Address)
    ensures r <= bound
    decreases |senders|
  {
    if |senders| == 0 then bound
    else
      var rest := ClosestAbove(senders[..|senders| - 1], me, bound);
      var x := senders[|senders| - 1];
      if me < x < rest then x else rest
  }

  function StoreAll(s: State, senders: seq<Address>, me: Address): (r: State)
    decreases |senders|
  {
    if |senders| == 0 then s
    else StoreSenderAddress(StoreAll(s, senders[..|senders| - 1], me), senders[|senders| - 1], me)
  }

  /** After a sequence of senders, the right neighbour is the closest sender
      above this node (if it is closer than the neighbour known before), and
      the leftmost sibling is at most every sender seen. */
  lemma {:induction false} StoreAllNeighbour(s: State, senders: seq<Address>, me: Address)
    ensures StoreAll(s, senders, me).neighbour == ClosestAbove(senders, me, s.neighbour)
    ensures forall k :: 0 <= k < |senders| ==> StoreAll(s, senders, me).leftmost <= senders[k]
    ensures StoreAll(s, senders, me).leftmost <= s.leftmost
    decreases |senders|
  {
    if |senders| > 0 {
      var n := |senders| - 1;
      StoreAllNeighbour(s, senders[..n], me);
      assert forall k :: 0 <= k < n ==> senders[..n][k] == senders[k];
    }
  }

  /** The closest sender above this node is one of the senders, above this
      node, and no sender strictly between this node and the bound is
      below it. */
  lemma {:induction false} ClosestAboveIsLeast(senders: seq<Address>, me: Address, bound: Address)
    ensures var r := ClosestAbove(senders, me, bound);
      && (r == bound || (me < r && r in senders))
      && (forall k :: 0 <= k < |senders| && me < senders[k] < bound ==> r <= senders[k])
    decreases |senders|
  {
    if |senders| > 0 {
      var n := |senders| - 1;
      ClosestAboveIsLeast(senders[..n], me, bound);
      assert forall k :: 0 <= k < n ==> senders[..n][k] == senders[k];
      assert senders == senders[..n] + [senders[n]];
    }
  }
}

=== FILE: bits.dfy ===
/** Fixed-width integer vocabulary shared by every module of the bus stack.
    Every byte and 16-bit quantity is a bit-vector, so that the source's
    wrap-around, shifts, masks and XORs are exact; counters and timers that
    the source never lets overflow are plain naturals. */
module Bits {

  /** One byte (`uint8_t`). */
  type byte = bv8

  /** A 16-bit unsigned integer (`uint16_t`, `value_t`). */
  type u16 = bv16

  /** The low byte of a 16-bit value. */
  function LowByte(v: u16): byte
  {
    (v & 0xFF) as byte
  }

  /** The high byte of a 16-bit value. */
  function HighByte(v: u16): byte
  {
    (v >> 8) as byte
  }

  /** The 16-bit value whose high byte is `hi` and low byte is `lo`. */
  function Join(hi: byte, lo: byte): (v: u16)
    ensures HighByte(v) == hi && LowByte(v) == lo
  {
    ((hi as u16) << 8) | (lo as u16)
  }

  lemma SplitJoin(v: u16)
    ensures Join(HighByte(v), LowByte(v)) == v
  {
  }

  /** XOR of all bytes of `s` (a left fold starting at 0). */
  function XorAll(s: seq<byte>): byte
  {
    if |s| == 0 then 0 else XorAll(s[..|s| - 1]) ^ s[|s| - 1]
  }

  lemma {:induction false} XorAllAppend(s: seq<byte>, t: seq<byte>)
    ensures XorAll(s + t) == XorAll(s) ^ XorAll(t)
    decreases |t|
  {
    if |t| == 0 {
      assert s + t == s;
    } else {
      var t' := t[..|t| - 1];
      assert (s + t)[..|s + t| - 1] == s + t';
      XorAllAppend(s, t');
    }
  }

  lemma XorAllSnoc(s: seq<byte>, x: byte)
    ensures XorAll(s + [x]) == XorAll(s) ^ x
  {
    assert (s + [x])[..|s|] == s;
  }

  /** `t` lists the running XOR of `s`: `t[k]` is the XOR of the first `k`
      bytes. */
  predicate IsXorTrace(s: seq<byte>, t: seq<byte>)
  {
    |t| == |s| + 1 && t[0] == 0 && forall k :: 0 <= k < |s| ==> t[k + 1] == t[k] ^ s[k]
  }

  /** The last entry of a running-XOR trace is the XOR of the sequence. */
  lemma {:induction false} XorAllTrace(s: seq<byte>, t: seq<byte>)
    requires IsXorTrace(s, t)
    ensures XorAll(s) == t[|s|]
    decreases |s|
  {
    if |s| > 0 {
      var n := |s|;
      assert IsXorTrace(s[..n - 1], t[..n]);
      XorAllTrace(s[..n - 1], t[..n]);
    }
  }

  /** Changing one byte of a sequence changes its XOR by exactly the
      difference of the old and the new byte. */
  lemma {:induction false} XorAllUpdate(s: seq<byte>, i: nat, b: byte)
    requires i < |s|
    ensures XorAll(s[i := b]) == XorAll(s) ^ s[i] ^ b
  {
    var pre, post, a := s[..i], s[i + 1..], s[i];
    XorAllSplit(s, pre, a, post);
    XorAllSplit(s[i := b], pre, b, post);
    XorSwap(XorAll(pre), XorAll(post), a, b);
  }

  /** Flipping bits of one byte of a sequence whose XOR is 0 leaves exactly
      the flipped bits as its XOR. */
  lemma XorAllFlip(s: seq<byte>, i: nat, flip: byte)
    requires i < |s| && XorAll(s) == 0
    ensures XorAll(s[i := s[i] ^ flip]) == flip
  {
    XorAllUpdate(s, i, s[i] ^ flip);
    XorFlipCancel(XorAll(s[i := s[i] ^ flip]), XorAll(s), s[i], flip);
  }

  lemma XorFlipCancel(r: byte, z: byte, x: byte, flip: byte)
    requires z == 0 && r == z ^ x ^ (x ^ flip)
    ensures r == flip
  {
  }

  lemma XorSelf(x: byte)
    ensures x ^ x == 0
  {
  }

  lemma XorAllSplit(s: seq<byte>, pre: seq<byte>, a: byte, post: seq<byte>)
    requires s == pre + [a] + post
    ensures XorAll(s) == XorAll(pre) ^ a ^ XorAll(post)
  {
    XorAllAppend(pre + [a], post);
    XorAllSnoc(pre, a);
  }

  lemma XorSwap(x: byte, y: byte, a: byte, b: byte)
    ensures x ^ b ^ y == x ^ a ^ y ^ a ^ b
  {
  }
}

=== FILE: crc16.dfy ===
/** The integrity checksums of the bus frames: CRC-16/CCITT (polynomial
    0x1021, start value 0xFFFF, most significant bit first, no final XOR) as
    computed by the controller nodes and by the host, and the bit-reflected
    variant that is kept next to it.

    The conditional "shift, then XOR the polynomial if the bit shifted out
    was set" is written branch-free with a mask; the `...Cases` lemmas state
    the two branches exactly as the source writes them. */
module Crc {
  import opened Bits

  const START_VALUE: u16 := 0xFFFF
  const POLYNOMIAL: u16 := 0x1021
  const POLYNOMIAL_REVERSED: u16 := 0x8408

  /** Exchanges the two bytes of a 16-bit value. */
  function SwapBytes(crc: u16): (r: u16)
    ensures HighByte(r) == LowByte(crc) && LowByte(r) == HighByte(crc)
  {
    (crc << 8) | (crc >> 8)
  }

  lemma SwapBytesInvolutive(v: u16)
    ensures SwapBytes(SwapBytes(v)) == v
  {
  }

  /** Moves the low byte into the high byte (the low byte becomes 0). */
  function LsByteToMsByte(data: u16): (r: u16)
    ensures HighByte(r) == LowByte(data) && LowByte(r) == 0
  {
    data << 8
  }

  /** The most significant bit: the word read as a number is at least
      0x8000. */
  function IsMsbSet(data: u16): (r: bool)
    ensures r <==> data >= 0x8000
  {
    data & 0x8000 != 0
  }

  /** All ones when the most significant bit of `v` is set, otherwise 0. */
  function MsbMask(v: u16): u16
  {
    0 - (v >> 15)
  }

  /** One shift of the CRC register. */
  function Shift(crc: u16): u16
  {
    (crc << 1) ^ (POLYNOMIAL & MsbMask(crc))
  }

  lemma ShiftCases(crc: u16)
    ensures IsMsbSet(crc) ==> Shift(crc) == (crc << 1) ^ POLYNOMIAL
    ensures !IsMsbSet(crc) ==> Shift(crc) == crc << 1
  {
  }

  function ShiftN(crc: u16, n: nat): u16
    decreases n
  {
    if n == 0 then crc else ShiftN(Shift(crc), n - 1)
  }

  /** The per-byte update of the source: XOR the byte into the high half,
      then shift eight times. */
  function UpdateByte(crc: u16, b: byte): u16
  {
    ShiftN(crc ^ LsByteToMsByte(b as u16), 8)
  }

  /** The CRC register after processing `s`, starting from `crc`. */
  function Fold(crc: u16, s: seq<byte>): u16
    decreases |s|
  {
    if |s| == 0 then crc else Fold(UpdateByte(crc, s[0]), s[1..])
  }

  /** `crc16(buffer, length)` of the controller nodes on `buffer[..length]`. */
  function Crc16(s: seq<byte>): (r: u16)
    ensures r == BitSerialFold(START_VALUE, s)
  {
    Crc16IsBitSerial(START_VALUE, s);
    Fold(START_VALUE, s)
  }

  /** An empty buffer leaves the start value. */
  lemma Crc16Empty()
    ensures Crc16([]) == 0xFFFF
  {
  }

  /** The checksum is a left fold: a buffer split in two can be checksummed
      by continuing from the checksum of the first part. */
  lemma {:induction false} FoldAppend(crc: u16, a: seq<byte>, b: seq<byte>)
    ensures Fold(crc, a + b) == Fold(Fold(crc, a), b)
    decreases |a|
  {
    if |a| == 0 {
      assert a + b == b;
    } else {
      assert (a + b)[1..] == a[1..] + b;
      FoldAppend(UpdateByte(crc, a[0]), a[1..], b);
    }
  }

  lemma FoldSnoc(crc: u16, a: seq<byte>, b: byte)
    ensures Fold(crc, a + [b]) == UpdateByte(Fold(crc, a), b)
  {
    FoldAppend(crc, a, [b]);
  }

  /** Extending the checksummed prefix by one byte is one byte update. */
  lemma Crc16Prefix(buffer: seq<byte>, i: nat)
    requires i < |buffer|
    ensures Crc16(buffer[..i + 1]) == UpdateByte(Crc16(buffer[..i]), buffer[i])
  {
    assert buffer[..i + 1] == buffer[..i] + [buffer[i]];
    FoldSnoc(START_VALUE, buffer[..i], buffer[i]);
  }

  /** `t` lists the register before and after each byte of `s`. */
  predicate IsTrace(crc: u16, s: seq<byte>, t: seq<u16>)
  {
    |t| == |s| + 1 && t[0] == crc
    && forall i :: 0 <= i < |s| ==> UpdateByte(t[i], s[i]) == t[i + 1]
  }

  lemma {:induction false} FoldTrace(crc: u16, s: seq<byte>, t: seq<u16>)
    requires IsTrace(crc, s, t)
    ensures Fold(crc, s) == t[|s|]
    decreases |s|
  {
    if |s| > 0 {
      assert IsTrace(t[1], s[1..], t[1..]);
      FoldTrace(t[1], s[1..], t[1..]);
    }
  }

  /** The published check value of CRC-16/CCITT-FALSE: the checksum of the
      ASCII digits "123456789" is 0x29B1. */
  lemma Crc16CheckValue()
    ensures Crc16([0x31, 0x32, 0x33, 0x34, 0x35, 0x36, 0x37, 0x38, 0x39]) == 0x29B1
  {
    FoldTrace(START_VALUE, [0x31, 0x32, 0x33, 0x34, 0x35, 0x36, 0x37, 0x38, 0x39],
      [0xFFFF, 0xC782, 0x3DBA, 0x5BCE, 0x5349, 0x4560, 0x2EF4, 0x7718, 0xA12B, 0x29B1]);
  }

  /** The eight shifts of the source's inner loop, with its two branches. */
  method ShiftByte(c: u16) returns (crc: u16)
    ensures crc == ShiftN(c, 8)
  {
    crc := c;
    var shiftLoop := 0;
    while shiftLoop < 8
      invariant shiftLoop <= 8
      invariant ShiftN(crc, 8 - shiftLoop) == ShiftN(c, 8)
    {
      ShiftCases(crc);
      if IsMsbSet(crc) {
        crc := (crc << 1) ^ POLYNOMIAL;
      } else {
        crc := crc << 1;
      }
      shiftLoop := shiftLoop + 1;
    }
  }

  /** The outer loop of the source, over the first `length` bytes (an 8-bit
      count, as in the source). */
  method Crc16Loop(buffer: seq<byte>, length: byte) returns (crc: u16)
    requires length as int <= |buffer|
    ensures crc == Crc16(buffer[..length])
  {
    crc := START_VALUE;
    var bufferIndex: nat := 0;
    while bufferIndex < length as int
      invariant bufferIndex <= length as int
      invariant crc == Crc16(buffer[..bufferIndex])
    {
      var b := buffer[bufferIndex];
      crc := ShiftByte(crc ^ LsByteToMsByte(b as u16));
      Crc16Prefix(buffer, bufferIndex);
      bufferIndex := bufferIndex + 1;
    }
  }

  // ---------------------------------------------------------------------
  // Reference: the textbook bit-serial CRC register, fed one message bit
  // at a time, most significant bit first. The message bits still to be
  // fed sit at the top of a 16-bit word `m`.

  /** Feeds the most significant bit of `m` into the register: shift, and
      apply the polynomial when the bit shifted out differs from the
      message bit. */
  function BitStep(crc: u16, m: u16): u16
  {
    (crc << 1) ^ (POLYNOMIAL & MsbMask(crc ^ m))
  }

  /** The message word once its top bit has been fed. */
  function NextBit(m: u16): u16
  {
    m << 1
  }

  /** Feeds the top `n` bits of `m`, most significant first. */
  function FeedBits(crc: u16, m: u16, n: nat): u16
    decreases n
  {
    if n == 0 then crc else FeedBits(BitStep(crc, m), NextBit(m), n - 1)
  }

  /** Feeds the eight bits of one byte, most significant first. */
  function FeedByte(crc: u16, b: byte): u16
  {
    FeedBits(crc, LsByteToMsByte(b as u16), 8)
  }

  function BitSerialFold(crc: u16, s: seq<byte>): u16
    decreases |s|
  {
    if |s| == 0 then crc else BitSerialFold(FeedByte(crc, s[0]), s[1..])
  }

  /** `m` shifted left `n` times. */
  function ShiftLeftN(m: u16, n: nat): u16
    decreases n
  {
    if n == 0 then m else ShiftLeftN(NextBit(m), n - 1)
  }

  /** One shift of the byte-wise register, holding the message bits not
      yet fed in its high half, is one bit-serial step. */
  lemma ShiftIsBitStep(r: u16, m: u16)
    ensures Shift(r ^ m) == BitStep(r, m) ^ NextBit(m)
  {
  }

  lemma ShiftNStep(r: u16, m: u16, n: nat)
    requires n > 0
    ensures ShiftN(r ^ m, n) == ShiftN(BitStep(r, m) ^ NextBit(m), n - 1)
  {
    ShiftIsBitStep(r, m);
  }

  lemma FeedBitsStep(r: u16, m: u16, n: nat)
    requires n > 0
    ensures FeedBits(r, m, n) == FeedBits(BitStep(r, m), NextBit(m), n - 1)
    ensures ShiftLeftN(m, n) == ShiftLeftN(NextBit(m), n - 1)
  {
  }

  /** The induction of `ShiftNIsFeedBits`, split in a base case and a step
      that receives the induction hypothesis as a precondition. */
  lemma {:induction false} ShiftNIsFeedBits(r: u16, m: u16, n: nat)
    ensures ShiftN(r ^ m, n) == FeedBits(r, m, n) ^ ShiftLeftN(m, n)
    decreases n, 1
  {
    if n == 0 {
      ShiftNIsFeedBitsBase(r, m);
    } else {
      ShiftNIsFeedBitsStep(r, m, n);
    }
  }

  lemma ShiftNIsFeedBitsBase(r: u16, m: u16)
    ensures ShiftN(r ^ m, 0) == FeedBits(r, m, 0) ^ ShiftLeftN(m, 0)
  {
  }

  lemma {:induction false} ShiftNIsFeedBitsStep(r: u16, m: u16, n: nat)
    requires n > 0
    ensures ShiftN(r ^ m, n) == FeedBits(r, m, n) ^ ShiftLeftN(m, n)
    decreases n, 0
  {
    ShiftNIsFeedBits(BitStep(r, m), NextBit(m), n - 1);
    ShiftNIsFeedBitsCombine(r, m, n);
  }

  lemma ShiftNIsFeedBitsCombine(r: u16, m: u16, n: nat)
    requires n > 0
    requires ShiftN(BitStep(r, m) ^ NextBit(m), n - 1)
             == FeedBits(BitStep(r, m), NextBit(m), n - 1) ^ ShiftLeftN(NextBit(m), n - 1)
    ensures ShiftN(r ^ m, n) == FeedBits(r, m, n) ^ ShiftLeftN(m, n)
  {
    ShiftNStep(r, m, n);
    FeedBitsStep(r, m, n);
  }

  lemma ShiftOutByte(m: u16)
    requires LowByte(m) == 0
    ensures ShiftLeftN(m, 8) == 0
  {
    var m1 := NextBit(m);
    var m2 := NextBit(m1);
    var m3 := NextBit(m2);
    var m4 := NextBit(m3);
    var m5 := NextBit(m4);
    var m6 := NextBit(m5);
    var m7 := NextBit(m6);
    var m8 := NextBit(m7);
    assert ShiftLeftN(m, 8) == ShiftLeftN(m1, 7) == ShiftLeftN(m2, 6) == ShiftLeftN(m3, 5);
    assert ShiftLeftN(m3, 5) == ShiftLeftN(m4, 4) == ShiftLeftN(m5, 3) == ShiftLeftN(m6, 2);
    assert ShiftLeftN(m6, 2) == ShiftLeftN(m7, 1) == ShiftLeftN(m8, 0) == m8;
  }

  /** The byte-wise update of the source is the bit-serial CRC-CCITT
      register fed with the byte's bits most significant first. */
  lemma UpdateByteIsBitSerial(crc: u16, b: byte)
    ensures UpdateByte(crc, b) == FeedByte(crc, b)
  {
    var m := LsByteToMsByte(b as u16);
    ShiftNIsFeedBits(crc, m, 8);
    ShiftOutByte(m);
    UpdateByteIsBitSerialCombine(crc, b, m);
  }

  lemma UpdateByteIsBitSerialCombine(crc: u16, b: byte, m: u16)
    requires m == LsByteToMsByte(b as u16)
    requires ShiftN(crc ^ m, 8) == FeedBits(crc, m, 8) ^ ShiftLeftN(m, 8)
    requires ShiftLeftN(m, 8) == 0
    ensures UpdateByte(crc, b) == FeedByte(crc, b)
  {
  }

  lemma {:induction false} Crc16IsBitSerial(crc: u16, s: seq<byte>)
    ensures Fold(crc, s) == BitSerialFold(crc, s)
    decreases |s|
  {
    if |s| > 0 {
      UpdateByteIsBitSerial(crc, s[0]);
      Crc16IsBitSerial(UpdateByte(crc, s[0]), s[1..]);
    }
  }

  // ---------------------------------------------------------------------
  // The host's copy of the checksum works on JavaScript numbers: the
  // register is a 32-bit integer, shifted without masking, and only the
  // final result is masked to 16 bits.

  function JsLsByteToMsByte(data: bv32): bv32
  {
    (data << 8) & 0xFF00
  }

  function JsMsbMask(v: bv32): bv32
  {
    0 - ((v >> 15) & 1)
  }

  function JsShift(crc: bv32): bv32
  {
    (crc << 1) ^ ((POLYNOMIAL as bv32) & JsMsbMask(crc))
  }

  lemma JsShiftCases(crc: bv32)
    ensures crc & 0x8000 != 0 ==> JsShift(crc) == (crc << 1) ^ 0x1021
    ensures crc & 0x8000 == 0 ==> JsShift(crc) == crc << 1
  {
  }

  function JsShiftN(crc: bv32, n: nat): bv32
    decreases n
  {
    if n == 0 then crc else JsShiftN(JsShift(crc), n - 1)
  }

  function JsFold(crc: bv32, s: seq<byte>): bv32
    decreases |s|
  {
    if |s| == 0 then crc
    else JsFold(JsShiftN(crc ^ JsLsByteToMsByte(s[0] as bv32), 8), s[1..])
  }

  function Low16(x: bv32): u16
  {
    (x & 0xFFFF) as u16
  }

  /** `calcCRC16(byteArray, startIndex, length)` of the host. */
  function JsCalcCrc16(bytes: seq<byte>, startIndex: nat, length: nat): (r: u16)
    requires startIndex + length <= |bytes|
    ensures r == Crc16(bytes[startIndex..startIndex + length])
  {
    JsCrcAgrees(START_VALUE as bv32, bytes[startIndex..startIndex + length]);
    Low16(JsFold(START_VALUE as bv32, bytes[startIndex..startIndex + length]))
  }

  /** One shift of the 32-bit register agrees, on its low 16 bits, with one
      shift of the 16-bit register: the polynomial is applied on bit 15 of
      both, and bits above 15 never move down. */
  lemma JsShiftAgrees(x: bv32)
    ensures Low16(JsShift(x)) == Shift(Low16(x))
  {
    JsShiftUnfold(x);
    Low16Unfold(JsShift(x));
    Low16Unfold(x);
    ShiftUnfold(Low16(x));
    var y := (x & 0xFFFF) as u16;
    assert MsbMask(y) == 0 - (y >> 15);
    ShiftLow16(x);
  }

  lemma JsShiftUnfold(x: bv32)
    ensures JsShift(x) == (x << 1) ^ (0x1021 & (0 - ((x >> 15) & 1)))
  {
  }

  lemma Low16Unfold(x: bv32)
    ensures Low16(x) == (x & 0xFFFF) as u16
  {
  }

  lemma ShiftUnfold(x: u16)
    ensures Shift(x) == (x << 1) ^ (POLYNOMIAL & MsbMask(x))
  {
  }

  lemma ShiftLow16(x: bv32)
    ensures (((x << 1) ^ (0x1021 & (0 - ((x >> 15) & 1)))) & 0xFFFF) as u16
            == (((x & 0xFFFF) as u16) << 1) ^ (0x1021 & (0 - (((x & 0xFFFF) as u16) >> 15)))
  {
  }

  lemma JsShiftNStep(x: bv32, n: nat)
    requires n > 0
    requires Low16(JsShiftN(JsShift(x), n - 1)) == ShiftN(Low16(JsShift(x)), n - 1)
    ensures Low16(JsShiftN(x, n)) == ShiftN(Low16(x), n)
  {
    JsShiftAgrees(x);
  }

  lemma {:induction false} JsShiftNAgrees(x: bv32, n: nat)
    ensures Low16(JsShiftN(x, n)) == ShiftN(Low16(x), n)
    decreases n
  {
    if n > 0 {
      JsShiftNAgrees(JsShift(x), n - 1);
      JsShiftNStep(x, n);
    }
  }

  lemma JsXorByteAgrees(x: bv32, b: byte)
    ensures Low16(x ^ JsLsByteToMsByte(b as bv32)) == Low16(x) ^ LsByteToMsByte(b as u16)
  {
  }

  lemma JsUpdateByteAgrees(x: bv32, b: byte)
    ensures Low16(JsShiftN(x ^ JsLsByteToMsByte(b as bv32), 8)) == UpdateByte(Low16(x), b)
  {
    JsShiftNAgrees(x ^ JsLsByteToMsByte(b as bv32), 8);
    JsXorByteAgrees(x, b);
  }

  /** The high bits the host's register accumulates never reach the low 16
      bits, so the masked result equals the nodes' 16-bit checksum. */
  lemma {:induction false} JsCrcAgrees(x: bv32, s: seq<byte>)
    ensures Low16(JsFold(x, s)) == Fold(Low16(x), s)
    decreases |s|
  {
    if |s| > 0 {
      var y := JsShiftN(x ^ JsLsByteToMsByte(s[0] as bv32), 8);
      JsUpdateByteAgrees(x, s[0]);
      JsCrcAgrees(y, s[1..]);
    }
  }

  // ---------------------------------------------------------------------
  // The bit-reflected variant (`crc16_reverse`), least significant bit
  // first with the reversed polynomial; the result is complemented and
  // byte-swapped. No frame uses it.

  /** All ones when the least significant bit of `v` is set, otherwise 0. */
  function LsbMask(v: u16): u16
  {
    0 - (v & 1)
  }

  function ReverseShift(crc: u16, data: u16): u16
  {
    (crc >> 1) ^ (POLYNOMIAL_REVERSED & LsbMask(crc ^ data))
  }

  lemma ReverseShiftCases(crc: u16, data: u16)
    ensures (crc ^ data) & 1 == 1 ==> ReverseShift(crc, data) == (crc >> 1) ^ POLYNOMIAL_REVERSED
    ensures (crc ^ data) & 1 == 0 ==> ReverseShift(crc, data) == crc >> 1
  {
  }

  /** The data word once its lowest bit has been consumed. */
  function NextDataBit(data: u16): u16
  {
    data >> 1
  }

  function ReverseShiftN(crc: u16, data: u16, n: nat): u16
    decreases n
  {
    if n == 0 then crc else ReverseShiftN(ReverseShift(crc, data), NextDataBit(data), n - 1)
  }

  /** The per-byte update: eight shifts, consuming the byte from its least
      significant bit. */
  function ReverseUpdateByte(crc: u16, b: byte): u16
  {
    ReverseShiftN(crc, b as u16, 8)
  }

  function ReverseFold(crc: u16, s: seq<byte>): u16
    decreases |s|
  {
    if |s| == 0 then crc else ReverseFold(ReverseUpdateByte(crc, s[0]), s[1..])
  }

  /** `crc16_reverse(buffer, length)` on `buffer[..length]`: the empty
      buffer gives the complement of the start value, 0. */
  function Crc16Reverse(s: seq<byte>): (r: u16)
    ensures |s| == 0 ==> r == 0
    ensures |s| > 0 ==> SwapBytes(r) == !ReverseFold(START_VALUE, s)
  {
    if |s| == 0 then !START_VALUE else SwapBytes(!ReverseFold(START_VALUE, s))
  }

  predicate IsReverseTrace(crc: u16, s: seq<byte>, t: seq<u16>)
  {
    |t| == |s| + 1 && t[0] == crc
    && forall i :: 0 <= i < |s| ==> ReverseUpdateByte(t[i], s[i]) == t[i + 1]
  }

  lemma {:induction false} ReverseFoldTrace(crc: u16, s: seq<byte>, t: seq<u16>)
    requires IsReverseTrace(crc, s, t)
    ensures ReverseFold(crc, s) == t[|s|]
    decreases |s|
  {
    if |s| > 0 {
      assert IsReverseTrace(t[1], s[1..], t[1..]);
      ReverseFoldTrace(t[1], s[1..], t[1..]);
    }
  }

  /** The reflected register with start value 0xFFFF and a final complement
      is CRC-16/X-25, whose published check value for "123456789" is
      0x906E; `crc16_reverse` returns it byte-swapped. */
  lemma Crc16ReverseCheckValue()
    ensures Crc16Reverse([0x31, 0x32, 0x33, 0x34, 0x35, 0x36, 0x37, 0x38, 0x39]) == 0x6E90
  {
    ReverseFoldTrace(START_VALUE, [0x31, 0x32, 0x33, 0x34, 0x35, 0x36, 0x37, 0x38, 0x39],
      [0xFFFF, 0x2F8D, 0x4D53, 0x634B, 0x8B13, 0x44BF, 0x198D, 0x1AC8, 0xF795, 0x6F91]);
  }
}

=== FILE: eeprom.dfy ===
/** The key/value store a node keeps in its 1024-byte EEPROM
    (`EEPROMManager`). Each manager owns a region: one header cell holding
    the number of entries, then entries of one key byte and a two-byte
    value, low byte first. Keys are not sorted; a lookup scans the stored
    entries and takes the first match. Key 0 marks a defect entry.

    The EEPROM is an abstract byte array. A cell may be defect (`stuck`): a
    write to it does not take, and the read-back check of `writeData`
    reports the failure. */
module EepromStore {
  import opened Wrappers

  const EEPROM_SIZE: nat := 1024
  const NOT_FOUND: int := -1
  /** Key written over the key of an entry whose cells could not be
      written. */
  const INVALID_CELL: Cell := 0
  /** `sizeof(pos_t)` and `HEADER_SIZE`: the region starts with these
      three bytes, the entry amount in the first of them. */
  const POS_SIZE: nat := 2
  const HEADER_SIZE: nat := 1
  const ID_SIZE: nat := 1
  const ENTRY_SIZE: nat := 3
  const DEFAULT_MAX_ENTRIES: nat := 26

  type Cell = x: int | 0 <= x < 256
  type Value = x: int | 0 <= x < 0x1_0000
  /** The entry amount lives in one cell, so a manager holds at most 255
      entries. */
  type EntryCount = x: int | 0 <= x < 256

  datatype Eeprom = Eeprom(cells: seq<Cell>, stuck: set<nat>)
  type Memory = m: Eeprom | |m.cells| == EEPROM_SIZE witness Eeprom(seq(EEPROM_SIZE, i => 0), {})

  /** The cell an address selects: the EEPROM decodes the low ten address
      bits. */
  function Addr(pos: int): (a: nat)
    ensures a < EEPROM_SIZE
    ensures 0 <= pos < EEPROM_SIZE ==> a == pos
  {
    pos % EEPROM_SIZE
  }

  function ReadData(m: Memory, pos: int): Cell
  {
    m.cells[Addr(pos)]
  }

  /** `writeData`: the cell is written only when it differs, and the
      result is the read-back check. */
  function WriteData(m: Memory, pos: int, b: Cell): (r: (Memory, bool))
    ensures r.1 <==> ReadData(r.0, pos) == b
    ensures Addr(pos) !in m.stuck ==> r.1
    ensures r.0.stuck == m.stuck
    ensures forall q :: Addr(q) != Addr(pos) ==> ReadData(r.0, q) == ReadData(m, q)
  {
    if ReadData(m, pos) == b then (m, true)
    else if Addr(pos) in m.stuck then (m, false)
    else (m.(cells := m.cells[Addr(pos) := b]), true)
  }

  /** `setValueByPos`: low byte at `pos`, high byte at `pos + 1`; the high
      byte is written only when the low one took. */
  function SetValueByPos(m: Memory, pos: int, v: Value): (r: (Memory, bool))
    ensures Addr(pos) !in m.stuck && Addr(pos + 1) !in m.stuck ==> r.1
    ensures r.0.stuck == m.stuck
  {
    var (m1, lowOk) := WriteData(m, pos, v % 256);
    if lowOk then WriteData(m1, pos + 1, v / 256) else (m1, false)
  }

  /** `getValueByPos`. */
  function GetValueByPos(m: Memory, pos: int): (r: Value)
  {
    ReadData(m, pos + 1) * 256 + ReadData(m, pos)
  }

  /** The value read at `pos` has the cell at `pos` as its low byte and
      the cell after it as its high byte. */
  lemma ValueBytes(m: Memory, pos: int)
    ensures GetValueByPos(m, pos) % 256 == ReadData(m, pos)
    ensures GetValueByPos(m, pos) / 256 == ReadData(m, pos + 1)
  {
  }

  /** Writing a value on two healthy cells succeeds, reading it back gives
      the value, and no other cell changes. */
  lemma ValueRoundTrip(m: Memory, pos: int, v: Value)
    requires Addr(pos) !in m.stuck && Addr(pos + 1) !in m.stuck
    ensures var (m1, ok) := SetValueByPos(m, pos, v);
      && ok && GetValueByPos(m1, pos) == v
      && forall q :: Addr(q) != Addr(pos) && Addr(q) != Addr(pos + 1) ==> ReadData(m1, q) == ReadData(m, q)
  {
    NextAddr(pos);
  }

  lemma NextAddr(pos: int)
    ensures Addr(pos + 1) != Addr(pos)
  {
  }

  /** The value cells of a failed write: when the value write reports
      failure, one of the two cells is defect. */
  lemma ValueWriteFails(m: Memory, pos: int, v: Value)
    requires !SetValueByPos(m, pos, v).1
    ensures Addr(pos) in m.stuck || Addr(pos + 1) in m.stuck
  {
  }

  /** One manager: where its region starts, how many entries it may hold,
      and how many entries were added since start-up (`mAddedEntries`, a
      `key_t`, so it counts modulo 256). */
  datatype Manager = Manager(start: nat, maxEntries: EntryCount, added: Cell)

  datatype Store = Store(mgr: Manager, mem: Memory)

  /** The constructor: the region starts at the first free position, and
      the next manager starts behind its `maxEntries + 2` entry slots (the
      header slot and one spare entry). */
  function Create(freePos: nat, maxEntries: EntryCount): (r: (Manager, nat))
    ensures r.0.start == freePos && r.0.added == 0 && r.0.maxEntries == maxEntries
    ensures r.1 == freePos + (maxEntries + 2) * ENTRY_SIZE
  {
    (Manager(freePos, maxEntries, 0), freePos + (maxEntries + 2) * ENTRY_SIZE)
  }

  /** `calcPosByIndex`: entry `index` starts three cells per entry after
      the header; index -1 gives the region's first cell, the amount. */
  function CalcPosByIndex(mgr: Manager, index: int): int
  {
    mgr.start + POS_SIZE + HEADER_SIZE + ENTRY_SIZE * index
  }

  /** Index -1 is the region's first cell, the amount; the entries follow
      the three header cells, one every three cells. */
  lemma PosLayout(mgr: Manager, index: int)
    ensures CalcPosByIndex(mgr, -1) == mgr.start
    ensures index >= 0 ==> CalcPosByIndex(mgr, index) >= mgr.start + POS_SIZE + HEADER_SIZE
    ensures CalcPosByIndex(mgr, index + 1) == CalcPosByIndex(mgr, index) + ENTRY_SIZE
  {
  }

  /** Regions of managers created one after the other do not overlap: the
      last cell a manager can write lies before the next region. */
  lemma RegionsDisjoint(freePos: nat, maxEntries: EntryCount)
    ensures var (mgr, next) := Create(freePos, maxEntries);
      CalcPosByIndex(mgr, mgr.maxEntries) + ENTRY_SIZE - 1 < next
      && mgr.start < CalcPosByIndex(mgr, 0)
  {
  }

  /** `getEntryAmount`: the header cell. */
  function Amount(s: Store): Cell
  {
    ReadData(s.mem, s.mgr.start)
  }

  /** `getKeyByPos` of entry `i` (`ID_SIZE` is one byte). */
  function KeyAt(s: Store, i: int): Cell
  {
    ReadData(s.mem, CalcPosByIndex(s.mgr, i))
  }

  /** The value of entry `i`. */
  function ValueAt(s: Store, i: int): Value
  {
    GetValueByPos(s.mem, CalcPosByIndex(s.mgr, i) + ID_SIZE)
  }

  /** The loop of `findPos` from entry `i` on. */
  function FindFrom(s: Store, key: Cell, i: nat): (r: Option<nat>)
    ensures r.Some? ==> i <= r.value < Amount(s) && KeyAt(s, r.value) == key
    ensures r.Some? ==> forall j :: i <= j < r.value ==> KeyAt(s, j) != key
    ensures r.None? <==> forall j :: i <= j < Amount(s) ==> KeyAt(s, j) != key
    decreases Amount(s) - i
  {
    if i >= Amount(s) then None
    else if KeyAt(s, i) == key then Some(i)
    else FindFrom(s, key, i + 1)
  }

  /** The index of the first of the stored entries holding `key`. */
  function FindIndex(s: Store, key: Cell): (r: Option<nat>)
    ensures r.Some? ==> r.value < Amount(s) && KeyAt(s, r.value) == key
    ensures r.Some? ==> forall j :: 0 <= j < r.value ==> KeyAt(s, j) != key
    ensures r.None? <==> forall j :: 0 <= j < Amount(s) ==> KeyAt(s, j) != key
  {
    FindFrom(s, key, 0)
  }

  /** `findPos`: the position of the first stored entry holding `key`, or
      `NOT_FOUND`. */
  function FindPos(s: Store, key: Cell): (r: int)
    ensures r == NOT_FOUND <==> forall j :: 0 <= j < Amount(s) ==> KeyAt(s, j) != key
    ensures r != NOT_FOUND ==> exists i :: 0 <= i < Amount(s) && r == CalcPosByIndex(s.mgr, i) && KeyAt(s, i) == key
    ensures FindIndex(s, key).Some? ==> r == CalcPosByIndex(s.mgr, FindIndex(s, key).value)
  {
    match FindIndex(s, key)
    case None => NOT_FOUND
    case Some(i) => CalcPosByIndex(s.mgr, i)
  }

  /** `hasValue`. */
  function HasValue(s: Store, key: Cell): (r: bool)
    ensures r <==> exists i :: 0 <= i < Amount(s) && KeyAt(s, i) == key
  {
    FindPos(s, key) != NOT_FOUND
  }

  /** `getValue`: the value of the first entry holding `key`, and 0 when
      there is none. */
  function GetValue(s: Store, key: Cell): (r: Value)
    ensures (forall j :: 0 <= j < Amount(s) ==> KeyAt(s, j) != key) ==> r == 0
    ensures FindIndex(s, key).Some? ==> r == ValueAt(s, FindIndex(s, key).value)
  {
    var pos := FindPos(s, key);
    if pos != NOT_FOUND then GetValueByPos(s.mem, pos + ID_SIZE) else 0
  }

  /** `getValueByIndex`: 0 past the stored entries. The index is signed
      and only bounded above, so index -1 reads the two cells from the
      header cell on. */
  function GetValueByIndex(s: Store, index: int): (r: Value)
    ensures index < Amount(s) ==> r == ValueAt(s, index)
    ensures index >= Amount(s) ==> r == 0
    ensures index == -1 ==> r == ReadData(s.mem, s.mgr.start + 2) * 256 + ReadData(s.mem, s.mgr.start + 1)
  {
    if index < Amount(s) then GetValueByPos(s.mem, CalcPosByIndex(s.mgr, index) + ID_SIZE) else 0
  }

  /** `getKeyByIndex`: 0 past the stored entries; index -1 reads the
      header cell, so it gives the entry amount. */
  function GetKeyByIndex(s: Store, index: int): (r: Cell)
    ensures index < Amount(s) ==> r == KeyAt(s, index)
    ensures index >= Amount(s) ==> r == 0
    ensures index == -1 ==> r == Amount(s)
  {
    if index < Amount(s) then ReadData(s.mem, CalcPosByIndex(s.mgr, index)) else 0
  }

  /** `setEntryAmount`: the amount is cut to the header cell's byte. */
  function SetEntryAmount(s: Store, amount: int): (r: Store)
    ensures r.mgr == s.mgr
    ensures Addr(s.mgr.start) !in s.mem.stuck ==> Amount(r) == amount % 256
  {
    Store(s.mgr, WriteData(s.mem, s.mgr.start, amount % 256).0)
  }

  /** `clear`: no stored entry, and the insert position back at the
      first entry. */
  function Clear(s: Store): (r: Store)
    ensures r.mgr == s.mgr.(added := 0)
    ensures Addr(s.mgr.start) !in s.mem.stuck ==> Amount(r) == 0
  {
    var t := SetEntryAmount(s, 0);
    t.(mgr := t.mgr.(added := 0))
  }

  /** After `clear` no key is found and every lookup gives 0. */
  lemma ClearForgetsAll(s: Store, key: Cell)
    requires Addr(s.mgr.start) !in s.mem.stuck
    ensures FindPos(Clear(s), key) == NOT_FOUND && !HasValue(Clear(s), key) && GetValue(Clear(s), key) == 0
  {
  }

  /** `shrink`: the stored entries are cut to those added since start-up. */
  function Shrink(s: Store): (r: Store)
    ensures r.mgr == s.mgr
    ensures Addr(s.mgr.start) !in s.mem.stuck ==> Amount(r) == s.mgr.added
  {
    SetEntryAmount(s, s.mgr.added)
  }

  /** The last position `append` and `insertEntryByPos` may use. */
  function MaxPos(mgr: Manager): int
  {
    CalcPosByIndex(mgr, mgr.maxEntries - 1)
  }

  /** `setEntryByPos`: key, then value; a failed write marks the entry
      with `INVALID_CELL`. Positions beyond the spare entry are refused. */
  function SetEntryByPos(mgr: Manager, m: Memory, pos: int, key: Cell, v: Value): (r: (Memory, bool))
    ensures r.0.stuck == m.stuck
    ensures pos > CalcPosByIndex(mgr, mgr.maxEntries) ==> r == (m, false)
    ensures forall q :: Addr(q) != Addr(pos) && Addr(q) != Addr(pos + 1) && Addr(q) != Addr(pos + 2) ==> ReadData(r.0, q) == ReadData(m, q)
  {
    if pos <= CalcPosByIndex(mgr, mgr.maxEntries) then
      var (m1, keyOk) := WriteData(m, pos, key);
      var (m2, ok) := if keyOk then SetValueByPos(m1, pos + ID_SIZE, v) else (m1, false);
      if ok then (m2, true) else (WriteData(m2, pos, INVALID_CELL).0, false)
    else (m, false)
  }

  /** On three healthy cells within reach the entry is written and reads
      back as given. */
  lemma EntryRoundTrip(mgr: Manager, m: Memory, pos: int, key: Cell, v: Value)
    requires pos <= CalcPosByIndex(mgr, mgr.maxEntries)
    requires Addr(pos) !in m.stuck && Addr(pos + 1) !in m.stuck && Addr(pos + 2) !in m.stuck
    ensures var (m1, ok) := SetEntryByPos(mgr, m, pos, key, v);
      ok && ReadData(m1, pos) == key && GetValueByPos(m1, pos + 1) == v
  {
    var (m1, keyOk) := WriteData(m, pos, key);
    NextAddr(pos);
    NextAddr(pos + 1);
    assert Addr(pos + 2) != Addr(pos);
    ValueRoundTrip(m1, pos + 1, v);
  }

  /** A failed entry write leaves the memory in a state where the same
      write fails again with the same result. */
  lemma FailedEntryRepeats(mgr: Manager, m: Memory, pos: int, key: Cell, v: Value)
    requires !SetEntryByPos(mgr, m, pos, key, v).1
    ensures var m1 := SetEntryByPos(mgr, m, pos, key, v).0;
      SetEntryByPos(mgr, m1, pos, key, v) == (m1, false)
  {
    NextAddr(pos);
    NextAddr(pos + 1);
    assert Addr(pos + 2) != Addr(pos);
    if pos <= CalcPosByIndex(mgr, mgr.maxEntries) {
      var (k1, keyOk) := WriteData(m, pos, key);
      if !keyOk {
        KeyStuckRepeats(m, pos, key);
      } else {
        var (l1, lowOk) := WriteData(k1, pos + 1, v % 256);
        if !lowOk {
          RewriteRestores(k1, pos, INVALID_CELL, key);
        } else {
          RewriteRestores(WriteData(l1, pos + 2, v / 256).0, pos, INVALID_CELL, key);
        }
      }
    }
  }

  /** Overwriting a cell and writing its old content back restores the
      memory. */
  lemma RewriteRestores(m: Memory, pos: int, a: Cell, b: Cell)
    requires ReadData(m, pos) == b
    ensures WriteData(WriteData(m, pos, a).0, pos, b) == (m, true)
  {
    if a != b && Addr(pos) !in m.stuck {
      assert m.cells[Addr(pos) := a][Addr(pos) := b] == m.cells;
    }
  }

  lemma KeyStuckRepeats(m: Memory, pos: int, key: Cell)
    requires !WriteData(m, pos, key).1
    ensures WriteData(m, pos, key).0 == m
    ensures var m1 := WriteData(m, pos, INVALID_CELL).0;
      !WriteData(m1, pos, key).1 && WriteData(m1, pos, key).0 == m1 && WriteData(m1, pos, INVALID_CELL).0 == m1
  {
  }

  /** A run of a loop that may not end: `Hangs` when it never does. */
  datatype Outcome = Done(store: Store, ok: bool) | Hangs

  /** Whether the next entry `append` would claim lies past `MaxPos`. */
  predicate Full(s: Store)
  {
    CalcPosByIndex(s.mgr, Amount(s)) > MaxPos(s.mgr)
  }

  /** One turn of the `append` loop: claim the next entry by raising the
      amount, then write the entry there. */
  function AppendTurn(s: Store, key: Cell, v: Value): (r: (Store, bool))
    requires !Full(s)
    ensures r.0.mgr == s.mgr && r.0.mem.stuck == s.mem.stuck
    ensures Amount(r.0) == Amount(s) || Amount(r.0) == Amount(s) + 1
    ensures Addr(s.mgr.start) !in s.mem.stuck ==> Amount(r.0) == Amount(s) + 1
  {
    var amount := Amount(s);
    var pos := CalcPosByIndex(s.mgr, amount);
    var (m1, _) := WriteData(s.mem, s.mgr.start, amount + 1);
    var (m2, ok) := SetEntryByPos(s.mgr, m1, pos, key, v);
    HeaderOutsideEntry(s.mgr.start, amount);
    HeaderKept(s.mgr, m1, pos, key, v);
    (Store(s.mgr, m2), ok)
  }

  lemma HeaderKept(mgr: Manager, m: Memory, pos: int, key: Cell, v: Value)
    requires Addr(pos) != Addr(mgr.start) && Addr(pos + 1) != Addr(mgr.start) && Addr(pos + 2) != Addr(mgr.start)
    ensures ReadData(SetEntryByPos(mgr, m, pos, key, v).0, mgr.start) == ReadData(m, mgr.start)
  {
  }

  /** The loop of `append`, entered with a failed (or no) write so far:
      it stops on a written entry or when the next entry lies past
      `MaxPos`. When the header cell is defect the amount does not grow,
      every turn repeats the previous one (`FailedEntryRepeats`), and the
      loop never ends. */
  function AppendLoop(s: Store, key: Cell, v: Value): (r: Outcome)
    ensures r.Done? ==> r.store.mgr == s.mgr && r.store.mem.stuck == s.mem.stuck
    ensures r.Hangs? ==> Addr(s.mgr.start) in s.mem.stuck
    decreases 256 - Amount(s)
  {
    if Full(s) then Done(s, false)
    else
      var (s2, ok) := AppendTurn(s, key, v);
      if ok then Done(s2, true)
      else if Amount(s2) == Amount(s) + 1 then AppendLoop(s2, key, v)
      else Hangs
  }

  /** The entry cells of the first 255 entries never alias the header. */
  lemma HeaderOutsideEntry(start: nat, index: nat)
    requires index < 255
    ensures var pos := start + POS_SIZE + HEADER_SIZE + ENTRY_SIZE * index;
      Addr(pos) != Addr(start) && Addr(pos + 1) != Addr(start) && Addr(pos + 2) != Addr(start)
  {
    var pos := start + POS_SIZE + HEADER_SIZE + ENTRY_SIZE * index;
    AddrApart(start, pos - start);
    AddrApart(start, pos + 1 - start);
    AddrApart(start, pos + 2 - start);
  }

  /** Two addresses less than the EEPROM size apart select different
      cells. */
  lemma AddrApart(x: int, k: int)
    requires 0 < k < EEPROM_SIZE
    ensures Addr(x + k) != Addr(x)
  {
  }

  /** `append`: the flag is that of the last entry write, and false when
      the store is full. */
  function Append(s: Store, key: Cell, v: Value): (r: Outcome)
    ensures Full(s) ==> r == Done(s, false)
    ensures r.Done? ==> r.store.mgr == s.mgr && r.store.mem.stuck == s.mem.stuck
    ensures r.Hangs? ==> Addr(s.mgr.start) in s.mem.stuck
  {
    AppendLoop(s, key, v)
  }

  /** `append` as written returns its flag uninitialised when the store
      is already full. */
  datatype Flagged = Flagged(outcome: Outcome) | Uninitialised(store: Store)

  function AppendAsWritten(s: Store, key: Cell, v: Value): (r: Flagged)
    ensures Full(s) <==> r.Uninitialised?
  {
    if Full(s) then Uninitialised(s)
    else Flagged(AppendLoop(s, key, v))
  }

  /** The two agree whenever there is room; on a full store the written
      version leaves the result undefined where the corrected one reports
      failure. */
  lemma AppendFlagDefined(s: Store, key: Cell, v: Value)
    ensures !Full(s) ==> AppendAsWritten(s, key, v) == Flagged(Append(s, key, v))
    ensures Full(s) ==>
      AppendAsWritten(s, key, v) == Uninitialised(s) && Append(s, key, v) == Done(s, false)
  {
  }

  /** On healthy cells one turn writes the entry at the old amount. */
  lemma TurnHealthy(s: Store, key: Cell, v: Value)
    requires s.mem.stuck == {} && !Full(s)
    ensures var (s2, ok) := AppendTurn(s, key, v);
      ok && KeyAt(s2, Amount(s)) == key && ValueAt(s2, Amount(s)) == v
  {
    var amount := Amount(s);
    var pos := CalcPosByIndex(s.mgr, amount);
    var m1 := WriteData(s.mem, s.mgr.start, amount + 1).0;
    var e := SetEntryByPos(s.mgr, m1, pos, key, v);
    EntryRoundTrip(s.mgr, m1, pos, key, v);
    assert AppendTurn(s, key, v) == (Store(s.mgr, e.0), e.1);
    assert KeyAt(Store(s.mgr, e.0), amount) == ReadData(e.0, pos);
    assert ValueAt(Store(s.mgr, e.0), amount) == GetValueByPos(e.0, pos + 1);
  }

  /** On healthy cells with room, `append` writes the entry at the old
      amount and raises the amount by one. */
  lemma AppendHealthy(s: Store, key: Cell, v: Value)
    requires s.mem.stuck == {} && !Full(s)
    ensures var r := Append(s, key, v);
      && r.Done? && r.ok
      && Amount(r.store) == Amount(s) + 1
      && KeyAt(r.store, Amount(s)) == key && ValueAt(r.store, Amount(s)) == v
  {
    TurnHealthy(s, key, v);
  }

  /** `setValue`: a missing key changes nothing and fails; otherwise the
      value cells are written, and when that fails the entry is marked
      invalid and appended anew. */
  function SetValue(s: Store, key: Cell, v: Value): (r: Outcome)
    ensures FindIndex(s, key).None? ==> r == Done(s, false)
  {
    var pos := FindPos(s, key);
    if pos == NOT_FOUND then Done(s, false)
    else
      var (m1, ok) := SetValueByPos(s.mem, pos + ID_SIZE, v);
      if ok then Done(Store(s.mgr, m1), true)
      else Append(Store(s.mgr, WriteData(m1, pos, INVALID_CELL).0), key, v)
  }

  /** The stored entries lie inside the EEPROM, so no address wraps. */
  predicate InRange(s: Store)
  {
    CalcPosByIndex(s.mgr, Amount(s)) <= EEPROM_SIZE
  }

  /** A lookup sees only the amount and the stored keys: the first match
      is the same in both stores. */
  lemma FindFromSame(s: Store, t: Store, key: Cell, i: nat)
    requires Amount(s) == Amount(t)
    requires forall j :: i <= j < Amount(s) ==> KeyAt(s, j) == KeyAt(t, j)
    ensures FindFrom(s, key, i) == FindFrom(t, key, i)
  {
  }

  /** Setting the value of a stored key on healthy cells succeeds, the key
      then reads back the new value, and the other entries keep their keys
      and values. */
  lemma SetThenGet(s: Store, key: Cell, v: Value)
    requires InRange(s) && FindIndex(s, key).Some?
    requires var p := CalcPosByIndex(s.mgr, FindIndex(s, key).value);
      Addr(p + 1) !in s.mem.stuck && Addr(p + 2) !in s.mem.stuck
    ensures var r := SetValue(s, key, v);
      && r.Done? && r.ok && r.store.mgr == s.mgr
      && Amount(r.store) == Amount(s)
      && GetValue(r.store, key) == v
      && (forall j :: 0 <= j < Amount(s) ==> KeyAt(r.store, j) == KeyAt(s, j))
      && (forall j :: 0 <= j < Amount(s) && j != FindIndex(s, key).value ==> ValueAt(r.store, j) == ValueAt(s, j))
  {
    var i := FindIndex(s, key).value;
    var p := CalcPosByIndex(s.mgr, i);
    ValueRoundTrip(s.mem, p + 1, v);
    var t := SetValue(s, key, v).store;
    CellsUntouched(s, t, i);
    FindFromSame(s, t, key, 0);
  }

  /** Writing the value cells of entry `i` keeps the header, every key and
      the other values. */
  lemma CellsUntouched(s: Store, t: Store, i: nat)
    requires InRange(s) && i < Amount(s) && t.mgr == s.mgr
    requires var p := CalcPosByIndex(s.mgr, i);
      forall q :: Addr(q) != Addr(p + 1) && Addr(q) != Addr(p + 2) ==> ReadData(t.mem, q) == ReadData(s.mem, q)
    ensures Amount(t) == Amount(s)
    ensures forall j :: 0 <= j < Amount(s) ==> KeyAt(t, j) == KeyAt(s, j)
    ensures forall j :: 0 <= j < Amount(s) && j != i ==> ValueAt(t, j) == ValueAt(s, j)
  {
    var p := CalcPosByIndex(s.mgr, i);
    assert Addr(s.mgr.start) != Addr(p + 1) && Addr(s.mgr.start) != Addr(p + 2);
    forall j | 0 <= j < Amount(s)
      ensures KeyAt(t, j) == KeyAt(s, j)
    {
      var c := CalcPosByIndex(s.mgr, j);
      assert Addr(c) == c && Addr(p + 1) == p + 1 && Addr(p + 2) == p + 2;
    }
    forall j | 0 <= j < Amount(s) && j != i
      ensures ValueAt(t, j) == ValueAt(s, j)
    {
      var c := CalcPosByIndex(s.mgr, j);
      assert Addr(c + 1) == c + 1 && Addr(c + 2) == c + 2 && Addr(p + 1) == p + 1 && Addr(p + 2) == p + 2;
    }
  }

  /** `moveEntryByPos`: copies the entry at `from` over the one at `to`,
      appending it when that write fails. Its flag is always true, so the
      move never counts as failed. */
  function MoveEntryByPos(s: Store, from: int, to: int): (r: Outcome)
    ensures r.Done? ==> r.ok && r.store.mgr == s.mgr && r.store.mem.stuck == s.mem.stuck
    ensures from == to ==> r == Done(s, true)
  {
    if from != to then
      var key := ReadData(s.mem, from);
      var value := GetValueByPos(s.mem, from + ID_SIZE);
      var (m1, ok) := SetEntryByPos(s.mgr, s.mem, to, key, value);
      if ok then Done(Store(s.mgr, m1), true)
      else match Append(Store(s.mgr, m1), key, value)
        case Hangs => Hangs
        case Done(s2, _) => Done(s2, true)
    else Done(s, true)
  }

  /** The loop of `insertEntryByPos` from `pos` on: move the entry there
      to the end when asked, then go on with `InsertAfterMove`. `Done`'s
      flag tells whether the entry was written. */
  function InsertLoop(s: Store, pos: int, key: Cell, v: Value, moveCurrent: bool): (r: Outcome)
    ensures r.Done? ==> r.store.mgr.start == s.mgr.start && r.store.mgr.maxEntries == s.mgr.maxEntries
    ensures r.Done? ==> r.store.mem.stuck == s.mem.stuck
    ensures pos > MaxPos(s.mgr) ==> r == Done(s, false)
    decreases MaxPos(s.mgr) - pos, 1
  {
    if pos > MaxPos(s.mgr) then Done(s, false)
    else if moveCurrent then
      match Append(s, ReadData(s.mem, pos), GetValueByPos(s.mem, pos + ID_SIZE))
      case Hangs => Hangs
      case Done(s1, _) => InsertAfterMove(s1, pos, key, v)
    else InsertAfterMove(s, pos, key, v)
  }

  /** The rest of a turn of the insert loop: write the new entry, count it
      as added (modulo 256), and on a failed write go on with the next
      position, this time always moving. */
  function InsertAfterMove(s: Store, pos: int, key: Cell, v: Value): (r: Outcome)
    requires pos <= MaxPos(s.mgr)
    ensures r.Done? ==> r.store.mgr.start == s.mgr.start && r.store.mgr.maxEntries == s.mgr.maxEntries
    ensures r.Done? ==> r.store.mem.stuck == s.mem.stuck
    decreases MaxPos(s.mgr) - pos, 0
  {
    var (m2, entrySet) := SetEntryByPos(s.mgr, s.mem, pos, key, v);
    var s3 := Store(s.mgr.(added := (s.mgr.added + 1) % 256), m2);
    if entrySet then Done(s3, true)
    else InsertLoop(s3, pos + ENTRY_SIZE, key, v, true)
  }

  /** `insertEntryByPos`. */
  function InsertEntryByPos(s: Store, pos: int, key: Cell, v: Value, moveCurrent: bool): (r: Outcome)
    ensures r.Done? ==> r.store.mgr.start == s.mgr.start && r.store.mgr.maxEntries == s.mgr.maxEntries
  {
    InsertLoop(s, pos, key, v, moveCurrent)
  }

  /** `addValue`: the result of the store and the value reported. A stored
      key keeps its value: it is moved to the insert position (the entry
      there swapped to its old place) when it lies behind it, and counted
      as added when it lies exactly there. A missing key is inserted with
      the given value. */
  function AddValue(s: Store, key: Cell, v: Value): (r: (Outcome, Value))
    ensures FindIndex(s, key).Some? ==> r.1 == GetValue(s, key)
    ensures FindIndex(s, key).None? ==> r.1 == v
    ensures FindIndex(s, key).Some? && FindPos(s, key) == CalcPosByIndex(s.mgr, s.mgr.added) ==>
      r.0 == Done(s.(mgr := s.mgr.(added := (s.mgr.added + 1) % 256)), true)
    ensures FindIndex(s, key).Some? && FindPos(s, key) < CalcPosByIndex(s.mgr, s.mgr.added) ==> r.0 == Done(s, true)
  {
    var curPos := FindPos(s, key);
    var newPos := CalcPosByIndex(s.mgr, s.mgr.added);
    if curPos != NOT_FOUND then
      var newValue := GetValueByPos(s.mem, curPos + ID_SIZE);
      if curPos == newPos then (Done(s.(mgr := s.mgr.(added := (s.mgr.added + 1) % 256)), true), newValue)
      else if curPos > newPos then
        match MoveEntryByPos(s, newPos, curPos)
        case Hangs => (Hangs, newValue)
        case Done(s1, moved) => (InsertEntryByPos(s1, newPos, key, newValue, !moved), newValue)
      else (Done(s, true), newValue)
    else (InsertEntryByPos(s, newPos, key, v, true), v)
  }

  /** The region the constructor reserves (header slot, `maxEntries`
      entries and the spare one) lies inside the EEPROM. */
  predicate RegionInEeprom(mgr: Manager)
  {
    CalcPosByIndex(mgr, mgr.maxEntries + 1) <= EEPROM_SIZE
  }

  /** No defect cell, the region inside the EEPROM, and the header
      consistent with it: the entries added since start-up are stored
      ones, and no more entries are stored than the region holds. */
  predicate Healthy(s: Store)
  {
    s.mem.stuck == {} && RegionInEeprom(s.mgr) && s.mgr.added <= Amount(s) <= s.mgr.maxEntries
  }

  /** Writing entry `i` of a healthy region succeeds; it then holds the
      new key and value, and the header and every other key keep their
      contents. */
  lemma WriteEntryHealthy(mgr: Manager, m: Memory, i: nat, key: Cell, v: Value)
    requires m.stuck == {} && RegionInEeprom(mgr) && i <= mgr.maxEntries
    ensures var (m1, ok) := SetEntryByPos(mgr, m, CalcPosByIndex(mgr, i), key, v);
      var s1 := Store(mgr, m1);
      && ok && KeyAt(s1, i) == key && ValueAt(s1, i) == v
      && Amount(s1) == Amount(Store(mgr, m))
      && (forall j :: 0 <= j <= mgr.maxEntries && j != i ==> KeyAt(s1, j) == KeyAt(Store(mgr, m), j))
  {
    var p := CalcPosByIndex(mgr, i);
    EntryRoundTrip(mgr, m, p, key, v);
    var m1 := SetEntryByPos(mgr, m, p, key, v).0;
    assert Addr(mgr.start) == mgr.start && Addr(p) == p && Addr(p + 1) == p + 1 && Addr(p + 2) == p + 2;
    forall j | 0 <= j <= mgr.maxEntries && j != i
      ensures KeyAt(Store(mgr, m1), j) == KeyAt(Store(mgr, m), j)
    {
      var c := CalcPosByIndex(mgr, j);
      assert Addr(c) == c;
    }
  }

  /** A key written at entry `i`, with no earlier entry holding it, is
      found there. */
  lemma FoundAt(s: Store, key: Cell, i: nat)
    requires i < Amount(s) && KeyAt(s, i) == key
    requires forall j :: 0 <= j < i ==> KeyAt(s, j) != key
    ensures FindIndex(s, key) == Some(i)
  {
  }

  /** One turn of the insert loop that moves nothing and writes the entry. */
  lemma InsertWrites(s: Store, pos: int, key: Cell, v: Value)
    requires pos <= MaxPos(s.mgr) && s.mgr.added < 255
    requires SetEntryByPos(s.mgr, s.mem, pos, key, v).1
    ensures InsertLoop(s, pos, key, v, false)
         == Done(Store(s.mgr.(added := s.mgr.added + 1), SetEntryByPos(s.mgr, s.mem, pos, key, v).0), true)
  {
  }

  /** The move of `addValue` on a healthy store: the entry at the insert
      position is copied over the key's entry. */
  lemma SwapMove(s: Store, i: nat)
    requires Healthy(s) && s.mgr.added < i < Amount(s)
    ensures var s1 := Store(s.mgr, SetEntryByPos(s.mgr, s.mem, CalcPosByIndex(s.mgr, i), KeyAt(s, s.mgr.added), ValueAt(s, s.mgr.added)).0);
      && MoveEntryByPos(s, CalcPosByIndex(s.mgr, s.mgr.added), CalcPosByIndex(s.mgr, i)) == Done(s1, true)
      && Amount(s1) == Amount(s) && s1.mem.stuck == {}
      && (forall j :: 0 <= j < i ==> KeyAt(s1, j) == KeyAt(s, j))
  {
    WriteEntryHealthy(s.mgr, s.mem, i, KeyAt(s, s.mgr.added), ValueAt(s, s.mgr.added));
  }

  /** The insert of `addValue` on a healthy store: the key lands at the
      insert position with its old value. */
  lemma SwapInsert(s1: Store, a: nat, key: Cell, newValue: Value)
    requires s1.mem.stuck == {} && RegionInEeprom(s1.mgr) && a == s1.mgr.added < s1.mgr.maxEntries && a < Amount(s1)
    requires forall j :: 0 <= j < a ==> KeyAt(s1, j) != key
    ensures var o := InsertEntryByPos(s1, CalcPosByIndex(s1.mgr, a), key, newValue, false);
      && o.Done? && o.store.mgr == s1.mgr.(added := a + 1) && Amount(o.store) == Amount(s1)
      && FindIndex(o.store, key) == Some(a) && ValueAt(o.store, a) == newValue
  {
    var mgr := s1.mgr;
    WriteEntryHealthy(mgr, s1.mem, a, key, newValue);
    var m3 := SetEntryByPos(mgr, s1.mem, CalcPosByIndex(mgr, a), key, newValue).0;
    InsertWrites(s1, CalcPosByIndex(mgr, a), key, newValue);
    var s3 := Store(mgr.(added := a + 1), m3);
    SameStart(Store(mgr, m3), s3, key, a);
  }

  /** The count of added entries does not take part in reading. */
  lemma SameStart(s: Store, t: Store, key: Cell, a: nat)
    requires s.mem == t.mem && s.mgr.start == t.mgr.start
    requires a < Amount(s) && KeyAt(s, a) == key && forall j :: 0 <= j < a ==> KeyAt(s, j) != key
    ensures Amount(t) == Amount(s) && FindIndex(t, key) == Some(a) && ValueAt(t, a) == ValueAt(s, a)
  {
    forall j | 0 <= j < a
      ensures KeyAt(t, j) != key
    {
      assert KeyAt(t, j) == KeyAt(s, j);
    }
    FoundAt(t, key, a);
  }

  /** `addValue` of a stored key behind the insert position: the entry
      at the insert position and the key's entry swap places, the key is
      counted as added, and it keeps its value. */
  lemma AddSwapsStoredKey(s: Store, key: Cell, v: Value)
    requires Healthy(s) && FindIndex(s, key).Some? && FindIndex(s, key).value > s.mgr.added
    ensures var o := AddValue(s, key, v).0;
      o.Done? && Amount(o.store) == Amount(s) && GetValue(o.store, key) == GetValue(s, key)
  {
    var i := FindIndex(s, key).value;
    SwapMove(s, i);
    var s1 := Store(s.mgr, SetEntryByPos(s.mgr, s.mem, CalcPosByIndex(s.mgr, i), KeyAt(s, s.mgr.added), ValueAt(s, s.mgr.added)).0);
    SwapInsert(s1, s.mgr.added, key, ValueAt(s, i));
    assert AddValue(s, key, v).0 == InsertEntryByPos(s1, CalcPosByIndex(s.mgr, s.mgr.added), key, ValueAt(s, i), false);
  }

  /** `append` on a healthy region with room: the entry lands at the old
      amount, the amount grows by one, and every other key of the region
      stays. */
  lemma AppendKeepsKeys(s: Store, key: Cell, v: Value)
    requires s.mem.stuck == {} && RegionInEeprom(s.mgr) && Amount(s) < s.mgr.maxEntries
    ensures var r := Append(s, key, v);
      && r.Done? && r.store.mgr == s.mgr && r.store.mem.stuck == {}
      && Amount(r.store) == Amount(s) + 1 && KeyAt(r.store, Amount(s)) == key
      && (forall j :: 0 <= j <= s.mgr.maxEntries && j != Amount(s) ==> KeyAt(r.store, j) == KeyAt(s, j))
  {
    var mgr := s.mgr;
    var amount := Amount(s);
    var m1 := WriteData(s.mem, mgr.start, amount + 1).0;
    forall j | 0 <= j <= mgr.maxEntries
      ensures KeyAt(Store(mgr, m1), j) == KeyAt(s, j)
    {
      var c := CalcPosByIndex(mgr, j);
      assert Addr(c) == c && Addr(mgr.start) == mgr.start;
    }
    WriteEntryHealthy(mgr, m1, amount, key, v);
    var e := SetEntryByPos(mgr, m1, CalcPosByIndex(mgr, amount), key, v);
    assert AppendTurn(s, key, v) == (Store(mgr, e.0), e.1);
  }

  /** A turn of the insert loop that moves the current entry to the end
      continues from the store `append` leaves. */
  lemma LoopMoves(s: Store, pos: int, key: Cell, v: Value, s1: Store)
    requires pos <= MaxPos(s.mgr)
    requires Append(s, ReadData(s.mem, pos), GetValueByPos(s.mem, pos + ID_SIZE)).Done?
    requires s1 == Append(s, ReadData(s.mem, pos), GetValueByPos(s.mem, pos + ID_SIZE)).store
    ensures InsertLoop(s, pos, key, v, true) == InsertAfterMove(s1, pos, key, v)
  {
  }

  /** A written entry ends the insert loop. */
  lemma AfterMoveWrites(s: Store, pos: int, key: Cell, v: Value)
    requires pos <= MaxPos(s.mgr) && s.mgr.added < 255
    requires SetEntryByPos(s.mgr, s.mem, pos, key, v).1
    ensures InsertAfterMove(s, pos, key, v)
         == Done(Store(s.mgr.(added := s.mgr.added + 1), SetEntryByPos(s.mgr, s.mem, pos, key, v).0), true)
  {
  }

  /** `addValue` of a missing key on a healthy region with room: the entry
      at the insert position moves to the end, the key is written there,
      and it is then found with the given value. */
  lemma AddInsertsMissingKey(s: Store, key: Cell, v: Value)
    requires Healthy(s) && Amount(s) < s.mgr.maxEntries && FindIndex(s, key).None?
    ensures var o := AddValue(s, key, v).0;
      o.Done? && Amount(o.store) == Amount(s) + 1 && GetValue(o.store, key) == v
  {
    var mgr := s.mgr;
    var a := mgr.added;
    var pos := CalcPosByIndex(mgr, a);
    AppendKeepsKeys(s, ReadData(s.mem, pos), GetValueByPos(s.mem, pos + ID_SIZE));
    var s1 := Append(s, ReadData(s.mem, pos), GetValueByPos(s.mem, pos + ID_SIZE)).store;
    WriteEntryHealthy(mgr, s1.mem, a, key, v);
    LoopMoves(s, pos, key, v, s1);
    AfterMoveWrites(s1, pos, key, v);
    var m3 := SetEntryByPos(mgr, s1.mem, pos, key, v).0;
    forall j | 0 <= j < a
      ensures KeyAt(Store(mgr, m3), j) != key
    {
      assert KeyAt(Store(mgr, m3), j) == KeyAt(s1, j) == KeyAt(s, j);
    }
    SameStart(Store(mgr, m3), Store(mgr.(added := a + 1), m3), key, a);
    assert AddValue(s, key, v).0 == InsertLoop(s, pos, key, v, true);
  }
}

=== FILE: js_io.dfy ===
/** The host's send side (`RS485IO.js`): a queue of commands waiting for
    the token, the retry count of the command at its head, and the message
    version the host sends with. Serial port, tracing and the message tree
    are left out; a send is the message handed to the port. */
module HostIo {
  import opened Bits
  import opened Wrappers
  import opened HostMessage
  import Arbitration
  import HostState

  /** A command is sent at most this many times more while no answer
      arrives. */
  const MAX_RETRIES: nat := 10

  datatype Io = Io(queue: seq<Message>, retryCount: nat, maxMessageVersion: byte,
                   curMessageVersion: byte, enableChangeMessageVersion: bool)

  /** The constructor: both versions start at the configured one, and
      version changes are disabled until the host passed the token on. */
  function Create(messageVersion: byte): (io: Io)
    ensures io.queue == [] && io.retryCount == 0 && !io.enableChangeMessageVersion
    ensures io.curMessageVersion == io.maxMessageVersion == messageVersion
  {
    Io([], 0, messageVersion, messageVersion, false)
  }

  /** The index of the first queued message with the same command as `m`
      from index `from` on, or -1. */
  function FindSameCommand(queue: seq<Message>, m: Message, from: nat): (r: int)
    requires from <= |queue|
    ensures r == -1 || from <= r < |queue|
    ensures r >= 0 ==> IsSameCommand(m, Some(queue[r]))
                       && forall k :: from <= k < r ==> !IsSameCommand(m, Some(queue[k]))
    ensures r == -1 <==> forall k :: from <= k < |queue| ==> !IsSameCommand(m, Some(queue[k]))
    decreases |queue| - from
  {
    if from == |queue| then -1
    else if IsSameCommand(m, Some(queue[from])) then from
    else FindSameCommand(queue, m, from + 1)
  }

  /** `addMessageToSendQueue`: a newer message for the same command takes
      the older one's place; any other is appended. */
  function AddMessageToSendQueue(queue: seq<Message>, m: Message): (r: seq<Message>)
    ensures |r| == |queue| || r == queue + [m]
    ensures (forall k :: 0 <= k < |queue| ==> !IsSameCommand(m, Some(queue[k]))) ==> r == queue + [m]
    ensures forall i :: 0 <= i < |queue| && IsSameCommand(m, Some(queue[i]))
                        && (forall k :: 0 <= k < i ==> !IsSameCommand(m, Some(queue[k])))
                        ==> r == queue[i := m]
  {
    var i := FindSameCommand(queue, m, 0);
    if i == -1 then queue + [m] else queue[i := m]
  }

  /** Commands for key `'X'` are never merged, so each one is queued. */
  lemma KeyXAlwaysAppended(queue: seq<Message>, m: Message)
    requires m.key == KEY_X
    ensures AddMessageToSendQueue(queue, m) == queue + [m]
  {
    forall k | 0 <= k < |queue|
      ensures !IsSameCommand(m, Some(queue[k]))
    {
      SameCommandNeverX(m, Some(queue[k]));
    }
  }

  /** Merging keeps one entry per command: a queue free of two entries
      with the same command stays so. */
  predicate NoDuplicateCommands(queue: seq<Message>)
  {
    forall i, j :: 0 <= i < j < |queue| ==> !IsSameCommand(queue[j], Some(queue[i]))
  }

  lemma AddKeepsNoDuplicates(queue: seq<Message>, m: Message)
    requires NoDuplicateCommands(queue)
    ensures NoDuplicateCommands(AddMessageToSendQueue(queue, m))
  {
    var r := AddMessageToSendQueue(queue, m);
    var i := FindSameCommand(queue, m, 0);
    if i != -1 {
      forall a, b | 0 <= a < b < |r|
        ensures !IsSameCommand(r[b], Some(r[a]))
      {
        if a == i {
          SameCommandTransfer(queue[i], m, queue[b]);
        } else if b == i {
          SameCommandTransfer(queue[i], m, queue[a]);
          SameCommandSymmetric(queue[a], queue[i]);
        }
      }
    } else {
      forall a, b | 0 <= a < b < |r|
        ensures !IsSameCommand(r[b], Some(r[a]))
      {
        if b == |queue| {
          SameCommandSymmetric(queue[a], m);
        }
      }
    }
  }

  /** Two messages have the same command when they agree in sender,
      receiver and key (not `'X'`); so `m` replacing `prev` shares its
      commands. */
  lemma SameCommandTransfer(prev: Message, m: Message, other: Message)
    requires IsSameCommand(m, Some(prev))
    ensures IsSameCommand(other, Some(m)) <==> IsSameCommand(other, Some(prev))
  {
  }

  lemma SameCommandSymmetric(a: Message, b: Message)
    ensures IsSameCommand(a, Some(b)) <==> IsSameCommand(b, Some(a))
  {
  }

  /** `dequeue`: drop the head; an empty queue stays empty. */
  function Dequeue(queue: seq<Message>): (r: seq<Message>)
    ensures |queue| > 0 ==> r == queue[1..]
    ensures |queue| == 0 ==> r == []
  {
    if |queue| == 0 then queue else queue[1..]
  }

  /** A message whose version is not set yet (length 0, see
      `setVersionAndLength`) is sent with the host's current version;
      `sendMessage` stores that version in the message object itself. */
  function Prepare(m: Message, version: byte): (r: Message)
    ensures m.length == 0 ==> r == SetVersionAndLength(m, version)
    ensures m.length != 0 ==> r == m
  {
    if m.length == 0 then SetVersionAndLength(m, version) else m
  }

  /** `sendMessageFromQueue`: send the head of the queue, if any. The head
      is dropped once sent without a reply request, or after more than ten
      sends; then the retry count restarts. */
  function SendMessageFromQueue(io: Io): (r: (Io, Option<Message>))
    ensures |io.queue| == 0 <==> r.1.None?
    ensures |io.queue| == 0 ==> r.0 == io
    ensures |io.queue| > 0 ==> r.1 == Some(Prepare(io.queue[0], io.curMessageVersion))
    ensures |io.queue| > 0 && (io.retryCount + 1 > MAX_RETRIES || io.queue[0].reply == 0) ==>
              r.0.queue == io.queue[1..] && r.0.retryCount == 0
    ensures |io.queue| > 0 && !(io.retryCount + 1 > MAX_RETRIES || io.queue[0].reply == 0) ==>
              |r.0.queue| == |io.queue| && r.0.queue[1..] == io.queue[1..]
              && r.0.retryCount == io.retryCount + 1
    ensures r.0.curMessageVersion == io.curMessageVersion
  {
    if |io.queue| == 0 then (io, None)
    else
      var sent := Prepare(io.queue[0], io.curMessageVersion);
      var retries := io.retryCount + 1;
      if retries > MAX_RETRIES || sent.reply == 0 then
        (io.(queue := Dequeue(io.queue), retryCount := 0), Some(sent))
      else
        (io.(queue := io.queue[0 := sent], retryCount := retries), Some(sent))
  }

  /** A command that asks for a reply is sent at most eleven times in a
      row while nobody answers. */
  lemma RetriesBounded(io: Io)
    requires |io.queue| > 0 && io.retryCount <= MAX_RETRIES
    ensures SendMessageFromQueue(io).0.retryCount <= MAX_RETRIES
  {
  }

  /** `setCurMessageVersion`: only once enabled, and only to a version the
      host supports. */
  function SetCurMessageVersion(io: Io, version: byte): (r: Io)
    ensures r.curMessageVersion != io.curMessageVersion ==>
              io.enableChangeMessageVersion && version <= io.maxMessageVersion && r.curMessageVersion == version
    ensures r == io.(curMessageVersion := r.curMessageVersion)
  {
    if io.enableChangeMessageVersion && version <= io.maxMessageVersion then io.(curMessageVersion := version)
    else io
  }

  /** The version sent with never exceeds the host's maximum once it was
      within it. */
  lemma VersionStaysSupported(io: Io, version: byte)
    requires io.curMessageVersion <= io.maxMessageVersion
    ensures SetCurMessageVersion(io, version).curMessageVersion <= io.maxMessageVersion
  {
  }

  /** The host's connection: its send side and its token machine. */
  datatype Host = Host(io: Io, state: HostState.Host)

  /** `processTick`: one tick of the token machine, whose message is sent
      (passing the token on enables version changes); then, if the host may
      send, one queued command, after which the permission is withdrawn so
      that no second command goes out in the same tick. */
  function ProcessTick(h: Host): (r: (Host, seq<Message>))
    ensures !r.0.state.node.maySend
    ensures |r.1| <= 2
    ensures r.0.state.me == h.state.me && r.0.state.chain == h.state.chain
  {
    var tick := HostState.UpdateStateNoMessage(h.state);
    var first := if tick.send.Some? then [Prepare(tick.send.value, h.io.curMessageVersion)] else [];
    var io1 := if tick.send.Some? && tick.send.value.value == Arbitration.ENABLE_SEND
               then h.io.(enableChangeMessageVersion := true) else h.io;
    if tick.host.node.maySend then
      var (io2, queued) := SendMessageFromQueue(io1);
      var state := tick.host.(node := tick.host.node.(maySend := false));
      (Host(io2, state), first + (if queued.Some? then [queued.value] else []))
    else
      (Host(io1, tick.host), first)
  }

  /** At most one queued command is sent per tick, and only when the token
      machine allows it. */
  lemma OneQueuedPerTick(h: Host)
    ensures var tick := HostState.UpdateStateNoMessage(h.state);
      var r := ProcessTick(h);
      && (!tick.host.node.maySend ==> r.0.io.queue == h.io.queue)
      && (tick.host.node.maySend && |h.io.queue| > 0 ==>
            r.1[|r.1| - 1] == Prepare(h.io.queue[0], h.io.curMessageVersion))
  {
  }

  /** `processTokenMessage`: the token machine handles the message, its
      answer is sent, and a token passed on the bus may change the version
      the host sends with. */
  function ProcessTokenMessage(h: Host, m: Message): (r: (Host, seq<Message>))
    requires |h.state.chain| > 0
    ensures |r.1| <= 1
    ensures r.0.io.queue == h.io.queue
  {
    var response := HostState.ProcessIncomingStateMessage(h.state, m);
    var sent := if response.send.Some? then [Prepare(response.send.value, h.io.curMessageVersion)] else [];
    var io := if !HasError(m) && m.value == Arbitration.ENABLE_SEND then SetCurMessageVersion(h.io, m.version)
              else h.io;
    (Host(io, response.host), sent)
  }

  /** `processMessageRead`: an error-free answer to the head of the queue
      removes it; token messages go to the token machine. */
  function ProcessMessageRead(h: Host, m: Message): (r: (Host, seq<Message>))
    requires |h.state.chain| > 0
    ensures HasError(m) ==> r == (h, [])
    ensures !HasError(m) && IsResponseMessage(m, if |h.io.queue| > 0 then Some(h.io.queue[0]) else None)
            ==> r.0.io.queue == h.io.queue[1..]
    ensures !HasError(m) && !IsResponseMessage(m, if |h.io.queue| > 0 then Some(h.io.queue[0]) else None)
            ==> r.0.io.queue == h.io.queue
  {
    if HasError(m) then (h, [])
    else
      var head := if |h.io.queue| > 0 then Some(h.io.queue[0]) else None;
      var h1 := if IsResponseMessage(m, head) then h.(io := h.io.(queue := Dequeue(h.io.queue))) else h;
      if IsTokenMessage(m) then ProcessTokenMessage(h1, m) else (h1, [])
  }
}

=== FILE: js_message.dfy ===
/** The host's binary message (`RS485BinaryMessage`): parsing messages out of
    the received byte stream, and the byte arrays the host sends. The frame
    layouts are those of the nodes; the host reports errors as text, modelled
    here as an enumeration of their kinds. */
module HostMessage {
  import opened Bits
  import opened Wrappers
  import Crc
  import NotifyV2
  import Legacy
  import Values

  const MESSAGE_SIZE_V0: nat := 7
  const MESSAGE_SIZE_V1: nat := 9
  const BROADCAST_ADDRESS: byte := 0
  /** The key `'!'` of token handling messages. */
  const TOKEN: byte := 0x21
  /** The key `'X'`, whose commands add up instead of replacing each other. */
  const KEY_X: byte := 0x58

  datatype Error =
    | NoError
    | InsufficientData
    | CrcMismatch
    | IllegalLength
    | IllegalSender
    | ParityMismatch
    | UnsupportedVersion

  /** The fields of a message. `value` holds `valueHigh * 256 + valueLow`;
      `complete` is the receive state `COMLETELY_RECEIVED`. */
  datatype Message = Message(sender: byte, receiver: byte, reply: byte, version: byte, length: nat,
                             key: byte, value: u16, error: Error, complete: bool)

  /** A freshly constructed message. */
  const EMPTY: Message := Message(0, 0, 0, 0, 0, 0, 0, NoError, false)

  /** A message parsed from a stream, and the index where the next one starts. */
  datatype Parsed = Parsed(msg: Message, next: nat)

  /** `hasError`. */
  function HasError(m: Message): (r: bool)
    ensures r <==> m.error != NoError
  {
    m.error != NoError
  }

  /** Bytes the bus adapter produces while nobody sends. */
  predicate IsNoise(b: byte)
  {
    b == 0 || b > 127
  }

  /** `skipNoise`: the first index from `start` on whose byte is not noise, or
      the end of the stream. */
  function SkipNoise(bytes: seq<byte>, start: nat): (r: nat)
    ensures start <= r
    ensures r > start ==> r <= |bytes|
    ensures forall k :: start <= k < r ==> IsNoise(bytes[k])
    ensures r < |bytes| ==> !IsNoise(bytes[r])
    decreases |bytes| - start
  {
    if start < |bytes| && IsNoise(bytes[start]) then SkipNoise(bytes, start + 1) else start
  }

  /** The loop of `skipNoise` as written: `len > i && b[i] === 0 || b[i] > 127`,
      where reading past the end yields `undefined`, which is not above 127. */
  method SkipNoiseLoop(bytes: seq<byte>, start: nat) returns (index: nat)
    ensures index == SkipNoise(bytes, start)
  {
    index := start;
    while (|bytes| > index && bytes[index] == 0) || (index < |bytes| && bytes[index] > 127)
      invariant start <= index
      invariant SkipNoise(bytes, index) == SkipNoise(bytes, start)
      decreases |bytes| - index
    {
      index := index + 1;
    }
  }

  /** A stream that starts with noise and continues with a non-noise byte
      is skipped exactly up to that byte. */
  lemma SkipNoisePrefix(noise: seq<byte>, bytes: seq<byte>)
    requires forall k :: 0 <= k < |noise| ==> IsNoise(noise[k])
    requires |bytes| > 0 && !IsNoise(bytes[0])
    ensures SkipNoise(noise + bytes, 0) == |noise|
  {
    var s := noise + bytes;
    assert s[|noise|] == bytes[0];
    assert forall k :: 0 <= k < |noise| ==> s[k] == noise[k];
  }

  /** The sender, receiver, reply flag and version of `setMessage`. */
  function Header(bytes: seq<byte>, i: nat): (m: Message)
    requires i + MESSAGE_SIZE_V0 <= |bytes|
    ensures HeaderOf(m, bytes, i)
  {
    EMPTY.(sender := bytes[i], receiver := bytes[i + 1],
           reply := NotifyV2.AckOf(bytes[i + 2]), version := NotifyV2.VersionOf(bytes[i + 2]))
  }

  /** Addresses, reply flag and version come from the first three bytes. */
  predicate HeaderOf(m: Message, bytes: seq<byte>, i: nat)
    requires i + 3 <= |bytes|
  {
    m.sender == bytes[i] && m.receiver == bytes[i + 1]
    && m.reply == NotifyV2.AckOf(bytes[i + 2]) && m.version == NotifyV2.VersionOf(bytes[i + 2])
  }

  /** The error `setV0Message` leaves: a parity mismatch replaces an illegal
      sender. */
  function V0Error(sender: byte, calculated: byte, received: byte): (e: Error)
    ensures e == ParityMismatch <==> calculated != received
    ensures e == IllegalSender <==> calculated == received && sender > 127
    ensures e == NoError <==> calculated == received && sender <= 127
  {
    if calculated != received then ParityMismatch
    else if sender > 127 then IllegalSender
    else NoError
  }

  /** `setV0Message` as written: the received parity is taken from byte 5,
      the low value byte, instead of byte 6. */
  function SetV0MessageAsWritten(bytes: seq<byte>, i: nat): (m: Message)
    requires i + MESSAGE_SIZE_V0 <= |bytes|
    ensures HeaderOf(m, bytes, i)
    ensures m.key == bytes[i + 3] && m.value == Join(bytes[i + 4], bytes[i + 5])
    ensures m.length == MESSAGE_SIZE_V0
    ensures m.error == NoError <==> XorAll(bytes[i..i + 6]) == bytes[i + 5] && bytes[i] <= 127
  {
    var calculated := XorAll(bytes[i..i + 6]);
    Header(bytes, i).(key := bytes[i + 3], value := Join(bytes[i + 4], bytes[i + 5]),
                      length := MESSAGE_SIZE_V0,
                      error := V0Error(bytes[i], calculated, bytes[i + 5]))
  }

  /** `setV0Message` with the parity read from byte 6, where the nodes and
      the host's own encoder put it. */
  function SetV0Message(bytes: seq<byte>, i: nat): (m: Message)
    requires i + MESSAGE_SIZE_V0 <= |bytes|
    ensures HeaderOf(m, bytes, i)
    ensures m.key == bytes[i + 3] && m.value == Join(bytes[i + 4], bytes[i + 5])
    ensures m.length == MESSAGE_SIZE_V0
    ensures m.error == NoError <==> XorAll(bytes[i..i + 7]) == 0 && bytes[i] <= 127
  {
    var calculated := XorAll(bytes[i..i + 6]);
    XorLastByte(bytes, i);
    Header(bytes, i).(key := bytes[i + 3], value := Join(bytes[i + 4], bytes[i + 5]),
                      length := MESSAGE_SIZE_V0,
                      error := V0Error(bytes[i], calculated, bytes[i + 6]))
  }

  lemma XorLastByte(bytes: seq<byte>, i: nat)
    requires i + MESSAGE_SIZE_V0 <= |bytes|
    ensures XorAll(bytes[i..i + 7]) == 0 <==> XorAll(bytes[i..i + 6]) == bytes[i + 6]
  {
    var s := bytes[i..i + 7];
    assert s[..|s| - 1] == bytes[i..i + 6];
    assert s[|s| - 1] == bytes[i + 6];
  }

  /** The error `setV1Message` leaves. Later checks replace earlier ones: a
      wrong sender wins over a wrong length, which wins over missing data and
      a CRC mismatch. With a length byte other than 9 the CRC bytes are not
      where the source reads them, but that error is replaced anyway. */
  function V1Error(sender: byte, length: nat, insufficient: bool, crcMatches: bool): (e: Error)
    ensures e == IllegalSender <==> sender > 127
    ensures e == IllegalLength <==> sender <= 127 && length != MESSAGE_SIZE_V1
    ensures e == InsufficientData <==> sender <= 127 && length == MESSAGE_SIZE_V1 && insufficient
    ensures e == CrcMismatch <==> sender <= 127 && length == MESSAGE_SIZE_V1 && !insufficient && !crcMatches
    ensures e == NoError <==> sender <= 127 && length == MESSAGE_SIZE_V1 && !insufficient && crcMatches
  {
    if sender > 127 then IllegalSender
    else if length != MESSAGE_SIZE_V1 then IllegalLength
    else if insufficient then InsufficientData
    else if !crcMatches then CrcMismatch
    else NoError
  }

  /** `setV1Message`: the length is taken from byte 3; key and value are
      only read when that many bytes are present. */
  function SetV1Message(bytes: seq<byte>, i: nat): (m: Message)
    requires i + MESSAGE_SIZE_V0 <= |bytes|
    ensures HeaderOf(m, bytes, i)
    ensures m.length == bytes[i + 3] as nat
    ensures m.error == NoError <==>
      bytes[i] <= 127 && m.length == MESSAGE_SIZE_V1 && i + MESSAGE_SIZE_V1 <= |bytes|
      && Crc.Crc16(bytes[i..i + 7]) == Join(bytes[i + 8], bytes[i + 7])
    ensures m.error == NoError ==> m.key == bytes[i + 4] && m.value == Join(bytes[i + 5], bytes[i + 6])
  {
    var crc16 := Crc.JsCalcCrc16(bytes, i, MESSAGE_SIZE_V1 - 2);
    var length := bytes[i + 3] as nat;
    var insufficient := |bytes| < i + length;
    var crcMatches := length == MESSAGE_SIZE_V1 && !insufficient && Join(bytes[i + 8], bytes[i + 7]) == crc16;
    var h := Header(bytes, i).(length := length, error := V1Error(bytes[i], length, insufficient, crcMatches));
    if insufficient then h
    else h.(key := bytes[i + 4], value := Join(bytes[i + 5], bytes[i + 6]))
  }

  /** `setMessage`: dispatch on the version in bits 1..7 of byte 2; a
      version 0 frame is parsed by `setV0Message` as written. */
  function SetMessage(bytes: seq<byte>, i: nat): (m: Message)
    requires i + MESSAGE_SIZE_V0 <= |bytes|
    ensures m.sender == bytes[i] && m.receiver == bytes[i + 1]
    ensures m.reply == NotifyV2.AckOf(bytes[i + 2]) && m.version == NotifyV2.VersionOf(bytes[i + 2])
    ensures m.version == 0 ==> (m.error == NoError <==> XorAll(bytes[i..i + 6]) == bytes[i + 5] && bytes[i] <= 127)
    ensures m.version == 1 ==> m == SetV1Message(bytes, i)
    ensures m.version > 1 ==> m.error == UnsupportedVersion && m.length == bytes[i + 3] as nat
  {
    var version := NotifyV2.VersionOf(bytes[i + 2]);
    if version == 0 then SetV0MessageAsWritten(bytes, i)
    else if version == 1 then SetV1Message(bytes, i)
    else Header(bytes, i).(length := bytes[i + 3] as nat, error := UnsupportedVersion)
  }

  /** The same with the parity of a version 0 frame read from byte 6. */
  function SetMessageFixed(bytes: seq<byte>, i: nat): (m: Message)
    requires i + MESSAGE_SIZE_V0 <= |bytes|
    ensures m.sender == bytes[i] && m.receiver == bytes[i + 1]
    ensures m.reply == NotifyV2.AckOf(bytes[i + 2]) && m.version == NotifyV2.VersionOf(bytes[i + 2])
    ensures m.version == 0 ==> (m.error == NoError <==> XorAll(bytes[i..i + 7]) == 0 && bytes[i] <= 127)
    ensures m.version == 1 ==> m == SetV1Message(bytes, i)
    ensures m.version > 1 ==> m.error == UnsupportedVersion && m.length == bytes[i + 3] as nat
  {
    var version := NotifyV2.VersionOf(bytes[i + 2]);
    if version == 0 then SetV0Message(bytes, i)
    else if version == 1 then SetV1Message(bytes, i)
    else Header(bytes, i).(length := bytes[i + 3] as nat, error := UnsupportedVersion)
  }

  /** `setFromByteArray` on a fresh message: skip noise; with at least 7
      bytes left, parse a message and continue after its length; with fewer,
      report missing data (if any byte is left) and stay at the message
      start. */
  function SetFromByteArray(bytes: seq<byte>, start: nat): (p: Parsed)
    ensures var i := SkipNoise(bytes, start);
      && (p.msg.complete <==> i + MESSAGE_SIZE_V0 <= |bytes|)
      && (p.msg.complete ==> p.msg == SetMessage(bytes, i).(complete := true) && p.next == i + p.msg.length)
      && (!p.msg.complete ==> p.next == i)
      && (!p.msg.complete ==> (p.msg.error == InsufficientData <==> i < |bytes|))
  {
    var i := SkipNoise(bytes, start);
    if |bytes| >= MESSAGE_SIZE_V0 + i then
      var m := SetMessage(bytes, i).(complete := true);
      Parsed(m, i + m.length)
    else
      Incomplete(bytes, i)
  }

  /** The same over the corrected `setMessage`. */
  function SetFromByteArrayFixed(bytes: seq<byte>, start: nat): (p: Parsed)
    ensures var i := SkipNoise(bytes, start);
      && (p.msg.complete <==> i + MESSAGE_SIZE_V0 <= |bytes|)
      && (p.msg.complete ==> p.msg == SetMessageFixed(bytes, i).(complete := true) && p.next == i + p.msg.length)
      && (!p.msg.complete ==> p.next == i)
      && (!p.msg.complete ==> (p.msg.error == InsufficientData <==> i < |bytes|))
  {
    var i := SkipNoise(bytes, start);
    if |bytes| >= MESSAGE_SIZE_V0 + i then
      var m := SetMessageFixed(bytes, i).(complete := true);
      Parsed(m, i + m.length)
    else
      Incomplete(bytes, i)
  }

  /** Fewer than 7 bytes from `i` on. */
  function Incomplete(bytes: seq<byte>, i: nat): Parsed
  {
    if |bytes| > i then Parsed(EMPTY.(error := InsufficientData), i) else Parsed(EMPTY, i)
  }

  // ---------------------------------------------------------------------
  // Encoding

  /** `fillByteArrayV0`. */
  function FillByteArrayV0(m: Message): (frame: seq<byte>)
    ensures |frame| == MESSAGE_SIZE_V0
    ensures frame[6] == XorAll(frame[..6])
  {
    var s := [m.sender, m.receiver, NotifyV2.AckVersion(m.reply, m.version), m.key,
              HighByte(m.value), LowByte(m.value)];
    var frame := s + [XorAll(s)];
    assert frame[..6] == s;
    frame
  }

  /** `fillByteArrayV1`: the length byte is always 9, the CRC of the first
      seven bytes follows low byte first. */
  function FillByteArrayV1(m: Message): (frame: seq<byte>)
    ensures |frame| == MESSAGE_SIZE_V1
    ensures frame[3] as nat == MESSAGE_SIZE_V1
    ensures Join(frame[8], frame[7]) == Crc.Crc16(frame[..7])
  {
    var s := [m.sender, m.receiver, NotifyV2.AckVersion(m.reply, m.version), MESSAGE_SIZE_V1 as byte, m.key,
              HighByte(m.value), LowByte(m.value)];
    var crc := Crc.JsCalcCrc16(s, 0, 7);
    assert s[0..7] == s;
    SplitJoin(crc);
    var frame := s + [LowByte(crc), HighByte(crc)];
    assert frame[..7] == s;
    frame
  }

  /** `setVersionAndLength`: the length follows the version; for any other
      version it is left undefined, modelled as 0 (no frame is that short). */
  function SetVersionAndLength(m: Message, version: byte): (r: Message)
    ensures r.version == version
    ensures r.length == MESSAGE_SIZE_V0 <==> version == 0
    ensures r.length == MESSAGE_SIZE_V1 <==> version == 1
    ensures r.length == 0 <==> version > 1
    ensures r == m.(version := r.version, length := r.length)
  {
    m.(version := version,
       length := if version == 0 then MESSAGE_SIZE_V0 else if version == 1 then MESSAGE_SIZE_V1 else 0)
  }

  /** `getByteArray`: throws for versions other than 0 and 1. */
  function GetByteArray(m: Message): (r: Option<seq<byte>>)
    ensures r.None? <==> m.version > 1
    ensures m.version == 0 ==> r == Some(FillByteArrayV0(m))
    ensures m.version == 1 ==> r == Some(FillByteArrayV1(m))
  {
    if m.version == 0 then Some(FillByteArrayV0(m))
    else if m.version == 1 then Some(FillByteArrayV1(m))
    else None
  }

  // ---------------------------------------------------------------------
  // Comparing messages

  /** `isSameCommand(message)`: same addresses and key, and never for
      `'X'` commands. */
  function IsSameCommand(m: Message, other: Option<Message>): (r: bool)
    ensures r <==> other.Some? && other.value.key != KEY_X
                   && (other.value.sender, other.value.receiver, other.value.key) == (m.sender, m.receiver, m.key)
  {
    other.Some? && other.value.sender == m.sender && other.value.receiver == m.receiver
    && other.value.key == m.key && other.value.key != KEY_X
  }

  /** `isResponseMessage(message)`: `m` answers `original` when the addresses
      are swapped, key and value agree and the original asked for a reply. */
  function IsResponseMessage(m: Message, original: Option<Message>): (r: bool)
    ensures r <==> original.Some? && original.value.reply == 1
                   && (m.sender, m.receiver) == (original.value.receiver, original.value.sender)
                   && (m.key, m.value) == (original.value.key, original.value.value)
  {
    original.Some? && original.value.sender == m.receiver && original.value.receiver == m.sender
    && original.value.key == m.key && original.value.value == m.value && original.value.reply == 1
  }

  predicate IsForMe(m: Message, myAddress: byte)
  {
    m.receiver == BROADCAST_ADDRESS || m.receiver == myAddress
  }

  predicate IsTokenMessage(m: Message)
  {
    m.key == TOKEN
  }

  lemma SameCommandNeverX(m: Message, other: Option<Message>)
    requires m.key == KEY_X
    ensures !IsSameCommand(m, other)
  {
  }

  // ---------------------------------------------------------------------
  // Round trips and agreement with the nodes

  /** A version 1 message from a sender in 1..127 with a reply flag of 0 or
      1, sent after any noise, is parsed back with all its fields and no
      error, and parsing continues right after it. */
  lemma RoundTripV1(m: Message, noise: seq<byte>, rest: seq<byte>)
    requires m.version == 1 && m.reply <= 1 && 1 <= m.sender <= 127
    requires forall k :: 0 <= k < |noise| ==> IsNoise(noise[k])
    ensures SetFromByteArray(noise + FillByteArrayV1(m) + rest, 0)
            == Parsed(Message(m.sender, m.receiver, m.reply, 1, MESSAGE_SIZE_V1, m.key, m.value, NoError, true),
                      |noise| + MESSAGE_SIZE_V1)
  {
    var frame := FillByteArrayV1(m);
    var stream := noise + (frame + rest);
    assert noise + frame + rest == stream;
    SkipNoisePrefix(noise, frame + rest);
    var i := |noise|;
    assert stream[i..i + 9] == frame;
    assert stream[i..i + 7] == frame[..7];
    NotifyV2.AckVersionJoin(m.reply, m.version);
    SplitJoin(m.value);
  }

  /** The same for a version 0 message, parsed with the parity at byte 6. */
  lemma RoundTripV0(m: Message, noise: seq<byte>, rest: seq<byte>)
    requires m.version == 0 && m.reply <= 1 && 1 <= m.sender <= 127
    requires forall k :: 0 <= k < |noise| ==> IsNoise(noise[k])
    ensures SetFromByteArrayFixed(noise + FillByteArrayV0(m) + rest, 0)
            == Parsed(Message(m.sender, m.receiver, m.reply, 0, MESSAGE_SIZE_V0, m.key, m.value, NoError, true),
                      |noise| + MESSAGE_SIZE_V0)
  {
    var frame := FillByteArrayV0(m);
    var stream := noise + (frame + rest);
    assert noise + frame + rest == stream;
    SkipNoisePrefix(noise, frame + rest);
    var i := |noise|;
    assert stream[i..i + 7] == frame;
    assert frame[..6] + [frame[6]] == frame;
    XorAllSnoc(frame[..6], frame[6]);
    XorSelf(frame[6]);
    NotifyV2.AckVersionJoin(m.reply, m.version);
    SplitJoin(m.value);
  }

  /** As written, a correct version 0 frame is reported as a parity
      mismatch exactly when its parity byte differs from its low value
      byte. */
  lemma V0ParityFromValueByte(m: Message)
    requires m.version == 0 && m.reply <= 1 && m.sender <= 127
    ensures SetV0MessageAsWritten(FillByteArrayV0(m), 0).error == ParityMismatch
            <==> FillByteArrayV0(m)[5] != FillByteArrayV0(m)[6]
  {
    var frame := FillByteArrayV0(m);
    assert frame[0..6] == frame[..6];
  }

  /** Sender 5 broadcasting the token value 1 without reply request: the
      parity is 5 ^ 0x21 ^ 1 = 0x25, the low value byte is 1, so the host
      rejects the frame. */
  lemma V0ParityCounterexample()
    ensures var m := Message(5, 0, 0, 0, MESSAGE_SIZE_V0, TOKEN, 1, NoError, false);
      && FillByteArrayV0(m) == [5, 0, 0, 0x21, 0, 1, 0x25]
      && SetV0MessageAsWritten(FillByteArrayV0(m), 0).error == ParityMismatch
    ensures SetFromByteArray([5, 0, 0, 0x21, 0, 1, 0x25], 0).msg.error == ParityMismatch
    ensures SetFromByteArrayFixed([5, 0, 0, 0x21, 0, 1, 0x25], 0).msg.error == NoError
  {
    var m := Message(5, 0, 0, 0, MESSAGE_SIZE_V0, TOKEN, 1, NoError, false);
    var frame := FillByteArrayV0(m);
    XorAllTrace([5, 0, 0, 0x21, 0, 1], [0, 5, 5, 5, 0x24, 0x24, 0x25]);
    assert frame[..6] == [5, 0, 0, 0x21, 0, 1];
    V0ParityFromValueByte(m);
    assert frame == [5, 0, 0, 0x21, 0, 1, 0x25];
    assert frame[0..6] == frame[..6];
    assert !IsNoise(frame[0]);
    assert frame[0..7] == frame;
    XorAllSnoc(frame[..6], frame[6]);
    assert frame[..6] + [frame[6]] == frame;
    XorSelf(frame[6]);
  }

  /** The host's version 1 frame is byte for byte the frame a node writes
      for the same fields. */
  lemma V1FrameMatchesNode(m: Message)
    ensures FillByteArrayV1(m)
            == NotifyV2.WriteToSerial(NotifyV2.Fields(m.sender, m.receiver, m.reply, m.version,
                                                      MESSAGE_SIZE_V1 as byte, m.key, Values.FromWord(m.value)))
  {
  }

  /** The host's version 0 frame is byte for byte the legacy frame of a node
      for the same fields. */
  lemma V0FrameMatchesNode(m: Message)
    ensures FillByteArrayV0(m)
            == Legacy.Encode(Legacy.Fields(m.sender, m.receiver, NotifyV2.AckVersion(m.reply, m.version),
                                           m.key, Values.FromWord(m.value)))
  {
  }
}

=== FILE: js_state.dfy ===
/** The host's side of the token ring (`RS485State.js`): the node's
    arbitration machine with the host's periods, plus the host's own
    address, the ascending chain of every address heard on the bus, and
    the token messages the host answers with. */
module HostState {
  import opened Bits
  import opened Wrappers
  import opened Arbitration
  import HostMessage

  /** `chainInstalled` records the self-redefinition of
      `updateSenderAddressChain`: its first call only replaces the method
      by the real one and does nothing else. In the source the replacement
      is on the shared prototype, so it happens once per process; here it
      is per host. */
  datatype Host = Host(node: State, me: Address, chain: seq<Address>, chainInstalled: bool)

  /** The state and the message to send after handling one event. */
  datatype Response = Response(host: Host, send: Option<HostMessage.Message>)

  /** The constructor: the chain holds only the host's own address. */
  function Create(me: Address): (h: Host)
    ensures h.node == HostInit() && h.me == me && h.chain == [me] && !h.chainInstalled
    ensures ChainInv(h)
  {
    Host(HostInit(), me, [me], false)
  }

  predicate StrictlyAscending(s: seq<Address>)
  {
    forall i, j :: 0 <= i < j < |s| ==> s[i] < s[j]
  }

  /** The chain is never empty, holds the host's address, and ascends. */
  predicate ChainInv(h: Host)
  {
    |h.chain| > 0 && h.me in h.chain && StrictlyAscending(h.chain)
  }

  /** The scan of `updateSenderAddressChain` from position `pos`: stop at
      an equal address, insert before the first greater one. */
  function InsertFrom(chain: seq<Address>, sender: Address, pos: nat): (r: seq<Address>)
    requires pos <= |chain|
    ensures |chain| <= |r| <= |chain| + 1
    ensures forall x :: x in chain ==> x in r
    ensures forall x :: x in r ==> x in chain || x == sender
    ensures sender in r || forall k :: pos <= k < |chain| ==> chain[k] < sender
    decreases |chain| - pos
  {
    if pos == |chain| then chain
    else if chain[pos] == sender then chain
    else if chain[pos] > sender then chain[..pos] + [sender] + chain[pos..]
    else InsertFrom(chain, sender, pos + 1)
  }

  /** A sender above the last address is appended; any other is inserted
      in place unless present. */
  function InsertAddress(chain: seq<Address>, sender: Address): (r: seq<Address>)
    requires |chain| > 0
    ensures forall x :: x in chain ==> x in r
    ensures forall x :: x in r ==> x in chain || x == sender
    ensures sender in r
  {
    if chain[|chain| - 1] < sender then chain + [sender] else InsertFrom(chain, sender, 0)
  }

  /** Inserting keeps the chain ascending, and the sender ends up in it. */
  lemma InsertAddressAscending(chain: seq<Address>, sender: Address)
    requires |chain| > 0 && StrictlyAscending(chain)
    ensures StrictlyAscending(InsertAddress(chain, sender))
    ensures sender in InsertAddress(chain, sender)
  {
    if chain[|chain| - 1] >= sender {
      InsertFromAscending(chain, sender, 0);
    }
  }

  lemma {:induction false} InsertFromAscending(chain: seq<Address>, sender: Address, pos: nat)
    requires StrictlyAscending(chain) && pos < |chain| && sender <= chain[|chain| - 1]
    requires forall k :: 0 <= k < pos ==> chain[k] < sender
    ensures StrictlyAscending(InsertFrom(chain, sender, pos))
    ensures sender in InsertFrom(chain, sender, pos)
    decreases |chain| - pos
  {
    if chain[pos] == sender {
    } else if chain[pos] > sender {
      InsertBeforeGreater(chain, sender, pos);
    } else {
      assert pos + 1 < |chain|;
      InsertFromAscending(chain, sender, pos + 1);
    }
  }

  lemma InsertBeforeGreater(chain: seq<Address>, sender: Address, pos: nat)
    requires StrictlyAscending(chain) && pos < |chain| && sender < chain[pos]
    requires forall k :: 0 <= k < pos ==> chain[k] < sender
    ensures StrictlyAscending(chain[..pos] + [sender] + chain[pos..])
  {
    var r := chain[..pos] + [sender] + chain[pos..];
    assert forall k :: 0 <= k < pos ==> r[k] == chain[k];
    assert forall k :: pos < k < |r| ==> r[k] == chain[k - 1];
  }

  /** `updateSenderAddressChain`. The first call only installs the real
      method; later calls insert the sender into the chain and update the
      neighbours exactly as the node's `storeSenderAddress` does. */
  function UpdateSenderAddressChain(h: Host, sender: Address): (r: Host)
    requires |h.chain| > 0
    ensures r.chainInstalled && r.me == h.me
    ensures !h.chainInstalled ==> r == h.(chainInstalled := true)
    ensures h.chainInstalled ==> r.node == StoreSenderAddress(h.node, sender, h.me)
    ensures h.chainInstalled ==> forall x :: x in r.chain <==> x in h.chain || x == sender
  {
    if !h.chainInstalled then h.(chainInstalled := true)
    else h.(chain := InsertAddress(h.chain, sender), node := StoreSenderAddress(h.node, sender, h.me))
  }

  lemma UpdateKeepsChainInv(h: Host, sender: Address)
    requires ChainInv(h)
    ensures ChainInv(UpdateSenderAddressChain(h, sender))
    ensures h.chainInstalled ==> sender in UpdateSenderAddressChain(h, sender).chain
  {
    InsertAddressAscending(h.chain, sender);
  }

  /** `createStateSignalingMessage`: no message for "unchanged" and for
      `STATE_CHANGED`; otherwise a token message from the host with that
      value, the token to the next receiver and everything else broadcast.
      Version and length stay unset (0). */
  function CreateStateSignalingMessage(h: Host, stateValue: u16): (r: Option<HostMessage.Message>)
    ensures r.None? <==> stateValue == NO_REQUEST || stateValue == STATE_CHANGED
    ensures r.Some? ==> var m := r.value;
      && m.key == HostMessage.TOKEN && m.value == stateValue && m.reply == 0
      && m.sender == AddressByte(h.me)
      && (stateValue == ENABLE_SEND ==> m.receiver == AddressByte(ReceiverAddress(h.node)))
      && (stateValue != ENABLE_SEND ==> m.receiver == AddressByte(BROADCAST))
  {
    if stateValue == NO_REQUEST || stateValue == STATE_CHANGED then None
    else
      var receiver := if stateValue == ENABLE_SEND then ReceiverAddress(h.node) else BROADCAST;
      Some(HostMessage.EMPTY.(key := HostMessage.TOKEN, value := stateValue,
                              sender := AddressByte(h.me), receiver := AddressByte(receiver), reply := 0))
  }

  /** `processIncomingStateMessage`: only an error-free token message is
      handled. It counts as addressed here when it is broadcast or sent to
      the host (unlike on the node, where broadcast counts as addressed
      elsewhere); the sender enters the chain, the machine takes the value,
      and the answer, if any, uses the incoming message's version. */
  function ProcessIncomingStateMessage(h: Host, m: HostMessage.Message): (r: Response)
    requires |h.chain| > 0
    ensures !(m.key == HostMessage.TOKEN && !HostMessage.HasError(m)) ==> r == Response(h, None)
    ensures r.send.Some? ==> r.send.value.version == m.version
                             && r.send.value.key == HostMessage.TOKEN
    ensures r.host.me == h.me
  {
    if m.key == HostMessage.TOKEN && !HostMessage.HasError(m) then
      var isForMe := HostMessage.IsForMe(m, AddressByte(h.me));
      var h1 := UpdateSenderAddressChain(h, m.sender as nat);
      var step := ChangeState(HostTiming(), h1.node, m.value, !isForMe);
      var h2 := h1.(node := step.state);
      var reply := CreateStateSignalingMessage(h2, step.out);
      Response(h2, if reply.Some? then Some(HostMessage.SetVersionAndLength(reply.value, m.version)) else None)
    else
      Response(h, None)
  }

  /** `updateStateNoMessage`: one tick of the host's machine and the token
      message it asks for. */
  function UpdateStateNoMessage(h: Host): (r: Response)
    ensures r.host == h.(node := ChangeStateNoInfo(HostTiming(), h.node).state)
    ensures r.send.None? <==> ChangeStateNoInfo(HostTiming(), h.node).out in {NO_REQUEST, STATE_CHANGED}
  {
    var step := ChangeStateNoInfo(HostTiming(), h.node);
    var h1 := h.(node := step.state);
    Response(h1, CreateStateSignalingMessage(h1, step.out))
  }

  lemma ProcessKeepsChainInv(h: Host, m: HostMessage.Message)
    requires ChainInv(h)
    ensures ChainInv(ProcessIncomingStateMessage(h, m).host)
    ensures h.chainInstalled && m.key == HostMessage.TOKEN && !HostMessage.HasError(m)
            ==> m.sender as nat in ProcessIncomingStateMessage(h, m).host.chain
  {
    UpdateKeepsChainInv(h, m.sender as nat);
  }

  /** The first token message a host handles leaves its chain and its
      neighbours as they were, whoever sent it. */
  lemma FirstCallOnlyInstalls(me: Address, m: HostMessage.Message)
    requires m.key == HostMessage.TOKEN && !HostMessage.HasError(m)
    ensures var r := ProcessIncomingStateMessage(Create(me), m).host;
      r.chain == [me] && r.chainInstalled
      && r.node.neighbour == NEIGHBOUR_UNKNOWN
  {
  }

  /** A host that handles a sequence of token messages keeps its chain
      ascending and containing its own address. */
  function ProcessAll(h: Host, ms: seq<HostMessage.Message>): (r: Host)
    requires ChainInv(h)
    ensures ChainInv(r)
    decreases |ms|
  {
    if |ms| == 0 then h
    else
      ProcessKeepsChainInv(h, ms[0]);
      ProcessAll(ProcessIncomingStateMessage(h, ms[0]).host, ms[1..])
  }
}

=== FILE: json_input.dfy ===
/** The node's JSON input (`NotificationV2::getJsonFromSerial` and
    `setValueFromSerialReader`): an object such as
    `{"S": 1, "R": 2, "A": 0, "K": "a", "V": 17}` sets the notification's
    fields by their one-letter names. */
module JsonInput {
  import opened SerialReader

  type Byte = x: nat | x < 0x100
  type Word = x: nat | x < 0x1_0000

  /** The fields an object can set. Those it does not name keep their
      previous values; only the key is reset before reading. */
  datatype Fields = Fields(sender: Byte, receiver: Byte, ack: Byte, key: Byte, value: Word)

  /** The casts of the 32-bit value read to the 8- and 16-bit fields keep
      its low bits; a C++ wrap-around of the 32-bit value itself would not
      change them. */
  function Low8(v: int): (b: Byte)
    ensures 0 <= v < 0x100 ==> b == v
    ensures (b - v) % 0x100 == 0
  {
    v % 0x100
  }

  function Low16(v: int): (w: Word)
    ensures 0 <= v < 0x1_0000 ==> w == v
    ensures (w - v) % 0x1_0000 == 0
  {
    v % 0x1_0000
  }

  /** `toupper` on the field name. */
  function Upper(c: char): (u: char)
    ensures 'a' <= c <= 'z' ==> u as int == c as int - 32
    ensures !('a' <= c <= 'z') ==> u == c
  {
    if 'a' <= c <= 'z' then (c as int - 32) as char else c
  }

  datatype FieldRead = FieldRead(pos: nat, ok: bool, fields: Fields)

  /** Whether `g` differs from `f` in at most one field. */
  predicate OneFieldSet(f: Fields, g: Fields)
  {
    g == f.(sender := g.sender) || g == f.(receiver := g.receiver) || g == f.(ack := g.ack)
    || g == f.(key := g.key) || g == f.(value := g.value)
  }

  /** The name of a pair and where the reader stands after its colon;
      `ok` is false, and `pos` where the reader stopped, when the pair is
      malformed before its value. */
  datatype Named = Named(pos: nat, ok: bool, name: char)

  /** The head of `setValueFromSerialReader`: `"`, one char, `"`, `:`, each
      but the name char after optional white space. A NUL name counts as
      none. */
  function PairName(s: seq<char>, pos: nat): (r: Named)
    requires pos <= |s|
    ensures pos <= r.pos <= |s|
    ensures r.ok ==> pos < r.pos && r.name != '\0'
  {
    var open := CheckNext(s, pos, '"');
    var name := if open.ok then ReadNext(s, open.pos) else Read(open.pos, false);
    var t := if name.ok then Upper(Cur(s, name.pos)) else '\0';
    if t == '\0' then Named(name.pos, false, t)
    else
      var close := CheckNext(s, name.pos, '"');
      if !close.ok then Named(close.pos, false, t)
      else
        var colon := CheckNext(s, close.pos, ':');
        Named(colon.pos, colon.ok, t)
  }

  /** The value of a pair named `t`, read from `pos` on. */
  function PairValue(s: seq<char>, pos: nat, t: char, f: Fields): (r: FieldRead)
    requires pos <= |s|
    ensures pos <= r.pos <= |s|
    ensures r.ok ==> OneFieldSet(f, r.fields)
    ensures !r.ok ==> r.fields == f
  {
    var quote := if t == 'K' then CheckNext(s, pos, '"') else Read(pos, false);
    if quote.ok then
      var c := ReadNext(s, quote.pos);
      if !c.ok then FieldRead(c.pos, false, f)
      else
        var end := CheckNext(s, c.pos, '"');
        if end.ok then FieldRead(end.pos, true, f.(key := Low8(Cur(s, c.pos) as int)))
        else FieldRead(end.pos, false, f)
    else
      var n := ReadValueFromCharStream(s, quote.pos);
      if !n.ok then FieldRead(n.pos, false, f)
      else if t == 'K' then FieldRead(n.pos, true, f.(key := Low8(n.value)))
      else if t == 'S' then FieldRead(n.pos, true, f.(sender := Low8(n.value)))
      else if t == 'R' then FieldRead(n.pos, true, f.(receiver := Low8(n.value)))
      else if t == 'A' then FieldRead(n.pos, true, f.(ack := Low8(n.value)))
      else if t == 'V' then FieldRead(n.pos, true, f.(value := Low16(n.value)))
      else FieldRead(n.pos, false, f)
  }

  /** `setValueFromSerialReader`: one `"name": value` pair. The name is one
      char, case-insensitive. A key may be a quoted char or a number; the
      other fields, `S`, `R`, `A` and `V`, are numbers. Any other name, or a
      malformed pair, fails; a pair that fails sets nothing. */
  function SetValue(s: seq<char>, pos: nat, f: Fields): (r: FieldRead)
    requires pos <= |s|
    ensures pos <= r.pos <= |s|
    ensures r.ok ==> pos < r.pos && OneFieldSet(f, r.fields)
    ensures !r.ok ==> r.fields == f
  {
    var head := PairName(s, pos);
    if !head.ok then FieldRead(head.pos, false, f) else PairValue(s, head.pos, head.name, f)
  }

  /** The pair loop of `getJsonFromSerial`: after each pair a comma must
      follow (it may already be the current char); the loop ends on the
      first pair that fails or the first missing comma. */
  function ReadPairs(s: seq<char>, pos: nat, f: Fields): (r: FieldRead)
    requires pos <= |s|
    ensures pos <= r.pos <= |s|
    ensures r.ok ==> pos < r.pos
    decreases |s| - pos
  {
    var pair := SetValue(s, pos, f);
    if !pair.ok then pair
    else if Cur(s, pair.pos) == ',' then ReadPairs(s, pair.pos, pair.fields)
    else
      var comma := CheckNext(s, pair.pos, ',');
      if comma.ok then ReadPairs(s, comma.pos, pair.fields) else FieldRead(comma.pos, true, pair.fields)
  }

  /** Reading up to and including the first `{`, or to the end. */
  function SkipToBrace(s: seq<char>, pos: nat): (r: nat)
    requires pos <= |s|
    ensures pos <= r <= |s|
    ensures forall k :: pos <= k < r - 1 ==> s[k] != '{'
    ensures r < |s| ==> pos < r && s[r - 1] == '{'
    ensures r == pos ==> pos == |s|
    decreases |s| - pos
  {
    var n := ReadNext(s, pos);
    if n.ok && Cur(s, n.pos) != '{' then SkipToBrace(s, n.pos) else n.pos
  }

  /** Skipping stops on the first `{` when there is one, the last char included. */
  lemma BraceFound(s: seq<char>)
    ensures '{' in s ==> Cur(s, SkipToBrace(s, 0)) == '{'
  {
    var r := SkipToBrace(s, 0);
    if '{' in s && r == |s| {
      var k :| 0 <= k < |s| && s[k] == '{';
      assert k == |s| - 1;
    }
  }

  /** An object that opens the stream: the pairs start right after the `{`. */
  lemma LeadingBrace(s: seq<char>)
    requires |s| > 0 && s[0] == '{'
    ensures SkipToBrace(s, 0) == 1
  {
  }

  datatype JsonResult = JsonResult(ok: bool, fields: Fields)

  /** A stream that opens with `{`: the result is the pair loop's fields,
      and the read succeeds iff the loop stops on `}` with a nonzero key. */
  lemma ObjectRead(s: seq<char>, f: Fields, pairs: FieldRead)
    requires |s| > 0 && s[0] == '{'
    requires ReadPairs(s, 1, f.(key := 0)) == pairs
    ensures GetJson(s, f) == JsonResult(Cur(s, pairs.pos) == '}' && pairs.fields.key != 0, pairs.fields)
  {
    LeadingBrace(s);
    assert s[0] in s;
  }

  /** `getJsonFromSerial`: skip to `{`, read the pairs, and succeed iff the
      reader then stands on `}` and a nonzero key was set. The fields set
      before a failure keep their new values. */
  function GetJson(s: seq<char>, f: Fields): (r: JsonResult)
    ensures r.ok ==> r.fields.key != 0 && '{' in s
    ensures '{' !in s ==> r == JsonResult(false, f.(key := 0))
    ensures '{' in s ==>
              var pairs := ReadPairs(s, SkipToBrace(s, 0), f.(key := 0));
              r.fields == pairs.fields && (r.ok <==> Cur(s, pairs.pos) == '}' && pairs.fields.key != 0)
  {
    BraceFound(s);
    var start := SkipToBrace(s, 0);
    if Cur(s, start) == '{' then
      var pairs := ReadPairs(s, start, f.(key := 0));
      JsonResult(Cur(s, pairs.pos) == '}' && pairs.fields.key != 0, pairs.fields)
    else
      JsonResult(false, f.(key := 0))
  }

  // ---------------------------------------------------------------------
  // Round trip
  // ---------------------------------------------------------------------

  /** `"t": n` as `printJsonToSerial` writes a numeric field, with `ds`
      the decimal digits of `n`. */
  function NumberPair(t: char, ds: seq<char>): seq<char>
  {
    ['"', t, '"', ':', ' '] + ds
  }

  /** `"K": "c"`. */
  function KeyPair(key: Byte): seq<char>
  {
    ['"', 'K', '"', ':', ' ', '"', key as char, '"']
  }

  predicate NumberName(t: char)
  {
    t == 'S' || t == 'R' || t == 'A' || t == 'V'
  }

  /** The field a numeric pair named `t` sets. */
  function SetNumber(f: Fields, t: char, n: nat): (g: Fields)
    requires NumberName(t) && (t == 'V' ==> n < 0x1_0000) && (t != 'V' ==> n < 0x100)
  {
    if t == 'S' then f.(sender := n) else if t == 'R' then f.(receiver := n)
    else if t == 'A' then f.(ack := n) else f.(value := n)
  }

  /** The head `"t":` after white space, with `t` an upper-case letter. */
  lemma PairNameRead(s: seq<char>, pos: nat, q: nat, t: char)
    requires 'A' <= t <= 'Z'
    requires pos <= q && q + 4 <= |s|
    requires forall k :: pos <= k < q ==> IsSpace(s[k])
    requires s[q] == '"' && s[q + 1] == t && s[q + 2] == '"' && s[q + 3] == ':'
    ensures PairName(s, pos) == Named(q + 4, true, t)
  {
    CheckNextAt(s, pos, q, '"');
    CheckNextAt(s, q + 2, q + 2, '"');
    CheckNextAt(s, q + 3, q + 3, ':');
  }

  /** A numeric pair, after white space and followed by a char that is not
      a digit, sets its field and leaves the reader on that char. */
  lemma NumberPairRead(s: seq<char>, pos: nat, sp: nat, t: char, ds: seq<char>, f: Fields)
    requires |ds| > 0 && AllDigits(ds)
    requires NumberName(t) && (t == 'V' ==> DigitsValue(ds) < 0x1_0000) && (t != 'V' ==> DigitsValue(ds) < 0x100)
    requires pos + sp + 5 + |ds| < |s|
    requires forall k :: pos <= k < pos + sp ==> IsSpace(s[k])
    requires s[pos + sp..pos + sp + 5 + |ds|] == NumberPair(t, ds)
    requires !IsDigit(s[pos + sp + 5 + |ds|])
    ensures SetValue(s, pos, f) == FieldRead(pos + sp + 5 + |ds| + 1, true, SetNumber(f, t, DigitsValue(ds)))
  {
    var q := pos + sp;
    NumberPairLayout(s, q, t, ds);
    PairNameRead(s, pos, q, t);
    NumberValueRead(s, q, t, ds, f);
  }

  lemma NumberValueRead(s: seq<char>, q: nat, t: char, ds: seq<char>, f: Fields)
    requires |ds| > 0 && AllDigits(ds)
    requires NumberName(t) && (t == 'V' ==> DigitsValue(ds) < 0x1_0000) && (t != 'V' ==> DigitsValue(ds) < 0x100)
    requires q + 5 + |ds| < |s|
    requires s[q + 3] == ':' && s[q + 4] == ' ' && s[q + 5..q + 5 + |ds|] == ds
    requires !IsDigit(s[q + 5 + |ds|])
    ensures PairValue(s, q + 4, t, f) == FieldRead(q + 5 + |ds| + 1, true, SetNumber(f, t, DigitsValue(ds)))
  {
    ColonNumber(s, q, ds);
    NumberValueSets(s, q + 4, t, q + 5 + |ds| + 1, DigitsValue(ds), f);
  }

  /** The digits after `: ` are read as one number, ending one past the
      char that stops them. */
  lemma ColonNumber(s: seq<char>, q: nat, ds: seq<char>)
    requires |ds| > 0 && AllDigits(ds)
    requires q + 5 + |ds| < |s|
    requires s[q + 3] == ':' && s[q + 4] == ' ' && s[q + 5..q + 5 + |ds|] == ds
    requires !IsDigit(s[q + 5 + |ds|])
    ensures ReadValueFromCharStream(s, q + 4) == Number(q + 5 + |ds| + 1, true, DigitsValue(ds))
  {
    ColonSpace(s, q);
    ReadValueDigits(s, q + 4, q + 5, ds);
  }

  lemma NumberValueSets(s: seq<char>, pos: nat, t: char, end: nat, v: int, f: Fields)
    requires pos <= |s| && ReadValueFromCharStream(s, pos) == Number(end, true, v)
    requires NumberName(t) && 0 <= v && (t == 'V' ==> v < 0x1_0000) && (t != 'V' ==> v < 0x100)
    ensures PairValue(s, pos, t, f) == FieldRead(end, true, SetNumber(f, t, v))
  {
  }

  /** After `: ` the reader stands on the colon, with one space ahead. */
  lemma ColonSpace(s: seq<char>, q: nat)
    requires q + 5 <= |s| && s[q + 3] == ':' && s[q + 4] == ' '
    ensures !IsSign(Cur(s, q + 4)) && !IsDigit(Cur(s, q + 4))
    ensures forall k :: q + 4 <= k < q + 5 ==> IsSpace(s[k])
  {
  }

  /** Where the chars of a numeric pair sit. */
  lemma NumberPairLayout(s: seq<char>, q: nat, t: char, ds: seq<char>)
    requires q + 5 + |ds| <= |s|
    requires s[q..q + 5 + |ds|] == NumberPair(t, ds)
    ensures s[q] == '"' && s[q + 1] == t && s[q + 2] == '"' && s[q + 3] == ':' && s[q + 4] == ' '
    ensures s[q + 5..q + 5 + |ds|] == ds
  {
    var head := ['"', t, '"', ':', ' '];
    Split(s, q, head, ds);
    assert s[q..q + 5] == head;
    assert s[q] == head[0] && s[q + 1] == head[1] && s[q + 2] == head[2] && s[q + 3] == head[3];
    assert s[q + 4] == head[4];
  }

  /** The quoted key pair sets the key to its char. */
  lemma KeyPairRead(s: seq<char>, pos: nat, sp: nat, key: Byte, f: Fields)
    requires pos + sp + 8 <= |s|
    requires forall k :: pos <= k < pos + sp ==> IsSpace(s[k])
    requires s[pos + sp..pos + sp + 8] == KeyPair(key)
    ensures SetValue(s, pos, f) == FieldRead(pos + sp + 8, true, f.(key := key))
  {
    var q := pos + sp;
    var p := KeyPair(key);
    assert s[q] == p[0] && s[q + 1] == p[1] && s[q + 2] == p[2] && s[q + 3] == p[3] && s[q + 4] == p[4];
    assert s[q + 5] == p[5] && s[q + 6] == p[6] && s[q + 7] == p[7];
    PairNameRead(s, pos, q, 'K');
    CheckNextAt(s, q + 4, q + 5, '"');
    CheckNextAt(s, q + 7, q + 7, '"');
  }

  /** Where the first `{` is, the skip stops right after it. */
  lemma SkipToBraceAt(s: seq<char>, pos: nat, q: nat)
    requires pos <= q < |s| && s[q] == '{'
    requires forall k :: pos <= k < q ==> s[k] != '{'
    ensures SkipToBrace(s, pos) == q + 1
  {
  }

  /** A slice that holds `a + p` holds `a` and then `p`. */
  lemma Split(s: seq<char>, x: nat, a: seq<char>, p: seq<char>)
    requires x + |a| + |p| <= |s| && s[x..x + |a| + |p|] == a + p
    ensures s[x..x + |a|] == a && s[x + |a|..x + |a| + |p|] == p
  {
    forall k | 0 <= k < |p|
      ensures s[x + |a| + k] == p[k]
    {
      assert s[x + |a| + k] == (a + p)[|a| + k];
    }
    forall k | 0 <= k < |a|
      ensures s[x + k] == a[k]
    {
      assert s[x + k] == (a + p)[k];
    }
  }

  /** One turn of the pair loop when the pair is followed by a comma
      the reader already stands on. */
  lemma PairsAfterComma(s: seq<char>, pos: nat, f: Fields, r: FieldRead)
    requires pos <= |s| && SetValue(s, pos, f) == r && r.ok && r.pos <= |s| && Cur(s, r.pos) == ','
    ensures ReadPairs(s, pos, f) == ReadPairs(s, r.pos, r.fields)
  {
  }

  /** One turn of the pair loop when a comma follows after white space. */
  lemma PairsAfterCheck(s: seq<char>, pos: nat, f: Fields, r: FieldRead, c: nat)
    requires pos <= |s| && SetValue(s, pos, f) == r && r.ok && r.pos <= |s| && Cur(s, r.pos) != ','
    requires CheckNext(s, r.pos, ',') == Read(c, true)
    ensures ReadPairs(s, pos, f) == ReadPairs(s, c, r.fields)
  {
  }

  /** The pair loop ends when no comma follows. */
  lemma PairsEnd(s: seq<char>, pos: nat, f: Fields, r: FieldRead)
    requires pos <= |s| && SetValue(s, pos, f) == r && r.ok && r.pos == |s| && Cur(s, r.pos) != ','
    ensures ReadPairs(s, pos, f) == r
  {
  }

  /** The pair loop over five pairs: three followed directly by a comma,
      one whose comma comes after white space, and a last one that ends
      the stream. */
  lemma FivePairs(s: seq<char>, p0: nat, p1: nat, p2: nat, p3: nat, p4: nat, c: nat,
                  f0: Fields, f1: Fields, f2: Fields, f3: Fields, f4: Fields, f5: Fields)
    requires p0 <= |s| && p1 <= |s| && p2 <= |s| && p3 <= |s| && p4 <= |s| && c <= |s|
    requires SetValue(s, p0, f0) == FieldRead(p1, true, f1) && Cur(s, p1) == ','
    requires SetValue(s, p1, f1) == FieldRead(p2, true, f2) && Cur(s, p2) == ','
    requires SetValue(s, p2, f2) == FieldRead(p3, true, f3) && Cur(s, p3) == ','
    requires SetValue(s, p3, f3) == FieldRead(p4, true, f4) && Cur(s, p4) != ','
    requires CheckNext(s, p4, ',') == Read(c, true)
    requires SetValue(s, c, f4) == FieldRead(|s|, true, f5) && Cur(s, |s|) != ','
    ensures ReadPairs(s, p0, f0) == FieldRead(|s|, true, f5)
  {
    PairsAfterComma(s, p0, f0, FieldRead(p1, true, f1));
    PairsAfterComma(s, p1, f1, FieldRead(p2, true, f2));
    PairsAfterComma(s, p2, f2, FieldRead(p3, true, f3));
    PairsAfterCheck(s, p3, f3, FieldRead(p4, true, f4), c);
    PairsEnd(s, c, f4, FieldRead(|s|, true, f5));
  }

  /** The object `{"K": "c"}`: its key pair is read, the reader stops on
      the `}`, and the read succeeds iff the key is nonzero. */
  lemma KeyObject(key: Byte, f: Fields)
    ensures GetJson(['{'] + KeyPair(key) + ['}'], f) == JsonResult(key != 0, f.(key := key))
  {
    var s := ['{'] + KeyPair(key) + ['}'];
    assert s[1..9] == KeyPair(key);
    KeyPairRead(s, 1, 0, key, f.(key := 0));
    assert Cur(s, 9) == '"' && Cur(s, 10) == '}';
    assert !IsSpace('}');
    assert ReadNextSkipSpaces(s, 9) == Read(10, true);
    assert CheckNext(s, 9, ',') == Read(10, false);
    assert ReadPairs(s, 1, f.(key := 0)) == FieldRead(10, true, f.(key := key));
    ObjectRead(s, f, FieldRead(10, true, f.(key := key)));
  }

  /** A stream that is `{`, five pairs laid out as in FivePairs, and a
      closing `}` on which the last value read stops: the whole object is
      read, and the read succeeds iff the key it set is nonzero. */
  lemma FivePairObject(s: seq<char>, p1: nat, p2: nat, p3: nat, p4: nat, c: nat,
                       f: Fields, f1: Fields, f2: Fields, f3: Fields, f4: Fields, f5: Fields)
    requires |s| > 0 && s[0] == '{' && Cur(s, |s|) == '}'
    requires p1 <= |s| && p2 <= |s| && p3 <= |s| && p4 <= |s| && c <= |s|
    requires SetValue(s, 1, f.(key := 0)) == FieldRead(p1, true, f1) && Cur(s, p1) == ','
    requires SetValue(s, p1, f1) == FieldRead(p2, true, f2) && Cur(s, p2) == ','
    requires SetValue(s, p2, f2) == FieldRead(p3, true, f3) && Cur(s, p3) == ','
    requires SetValue(s, p3, f3) == FieldRead(p4, true, f4) && Cur(s, p4) != ','
    requires CheckNext(s, p4, ',') == Read(c, true)
    requires SetValue(s, c, f4) == FieldRead(|s|, true, f5)
    ensures GetJson(s, f) == JsonResult(f5.key != 0, f5)
  {
    FivePairs(s, 1, p1, p2, p3, p4, c, f.(key := 0), f1, f2, f3, f4, f5);
    ObjectRead(s, f, FieldRead(|s|, true, f5));
  }
}

=== FILE: light_state.dfy ===
/** The dimming state machine of a light (`LightState`): whether the light
    is on, whether it is dark enough that it is actually lit, and whether
    the PWM output is being raised, lowered or held at the target
    brightness. A separate adjust program measures the light's range. */
module LightState {

  const LIGHT_OFF: nat := 0
  const LIGHT_ON_BRIGHT: nat := 1
  const LIGHT_KEEP_BRIGHTNESS: nat := 2
  const LIGHT_INC_BRIGHTNESS: nat := 3
  const LIGHT_DEC_BRIGHTNESS: nat := 4
  const LIGHT_MEASURE_MAX_BRIGHTNESS: nat := 16
  const LIGHT_MEASURE_MIN_VOLTAGE: nat := 17
  const LIGHT_MEASURE_MAX_VOLTAGE: nat := 18

  /** Beyond this difference (in percent) the brightness is chased at once. */
  const LARGE_BRIGHTNESS_DIFFERENCE: int := 40
  const SMALL_BRIGHTNESS_DIFFERENCE: int := 15
  /** Steps outside the small band before a single correction. */
  const MAX_WAIT: int := 20
  const WAIT_FOR_RELIABLE_BRIGHTNESS_MEASUREMENT: int := 100

  /** The `uint8_t` state and the `int8_t` wait counter. */
  type State = x: nat | x < 0x100
  type Int8 = x: int | -0x80 <= x < 0x80

  datatype Light = Light(state: State, wait: Int8)

  /** Storing an `int` into the `int8_t` counter keeps its low eight bits,
      read as two's complement. */
  function ToInt8(x: int): (r: Int8)
    ensures -0x80 <= x < 0x80 ==> r == x
    ensures (r - x) % 0x100 == 0
  {
    (x + 0x80) % 0x100 - 0x80
  }

  /** The constructor: off, nothing waited for. */
  function Init(): (l: Light)
    ensures !IsOn(l) && l.wait == 0
  {
    Light(LIGHT_OFF, 0)
  }

  predicate IsOn(l: Light)
  {
    l.state != LIGHT_OFF
  }

  /** The light is lit: on, and not held off because it is bright enough. */
  function IsUsingLight(l: Light): (r: bool)
    ensures r <==> l.state != LIGHT_OFF && l.state != LIGHT_ON_BRIGHT
  {
    IsOn(l) && l.state != LIGHT_ON_BRIGHT
  }

  lemma UsingLightStates(l: Light)
    ensures IsUsingLight(l) <==> l.state != LIGHT_OFF && l.state != LIGHT_ON_BRIGHT
    ensures IsUsingLight(l) ==> IsOn(l)
  {
  }

  predicate IsAdjustProgramRunning(l: Light)
  {
    LIGHT_MEASURE_MAX_BRIGHTNESS <= l.state <= LIGHT_MEASURE_MAX_VOLTAGE
  }

  predicate IsBrightnessReliable(l: Light)
  {
    l.wait >= WAIT_FOR_RELIABLE_BRIGHTNESS_MEASUREMENT
  }

  /** `setLight`: switching off always turns the light off; switching on
      from off (or from on-but-bright) raises the brightness when it is
      dark, and otherwise leaves the light on but unlit. Switching on a
      light that is dimming or adjusting changes nothing. */
  function SetLight(l: Light, lightOn: bool, dark: bool): (r: Light)
    ensures r.wait == l.wait
    ensures !lightOn ==> !IsOn(r)
    ensures lightOn && (l.state == LIGHT_OFF || l.state == LIGHT_ON_BRIGHT) ==>
              r.state == (if dark then LIGHT_INC_BRIGHTNESS else LIGHT_ON_BRIGHT)
    ensures lightOn && l.state != LIGHT_OFF && l.state != LIGHT_ON_BRIGHT ==> r == l
    ensures lightOn ==> IsOn(r)
  {
    if (l.state == LIGHT_OFF || l.state == LIGHT_ON_BRIGHT) && lightOn then
      l.(state := if dark then LIGHT_INC_BRIGHTNESS else LIGHT_ON_BRIGHT)
    else if !lightOn then l.(state := LIGHT_OFF)
    else l
  }

  /** Switching on when it is dark always ends with a lit light. */
  lemma SwitchOnInDark(l: Light)
    ensures IsUsingLight(SetLight(l, true, true))
  {
  }

  /** `setAdjustLight`: start the adjust program. */
  function SetAdjustLight(l: Light): (r: Light)
    ensures IsAdjustProgramRunning(r) && r.state == LIGHT_MEASURE_MAX_BRIGHTNESS && r.wait == 0
  {
    Light(LIGHT_MEASURE_MAX_BRIGHTNESS, 0)
  }

  /** `checkForDarkness`: an unlit light that is on starts to brighten once
      it gets dark; every other state stays. */
  function CheckForDarkness(l: Light, dark: bool): (r: Light)
    ensures l.state == LIGHT_ON_BRIGHT && dark ==> r == l.(state := LIGHT_INC_BRIGHTNESS)
    ensures !(l.state == LIGHT_ON_BRIGHT && dark) ==> r == l
  {
    if l.state == LIGHT_ON_BRIGHT && dark then l.(state := LIGHT_INC_BRIGHTNESS) else l
  }

  /** `targetBrightnessChanged`: a lit light chases a new target up or
      down; an equal target, or a light that is not lit, keeps its state. */
  function TargetBrightnessChanged(l: Light, oldTarget: int, newTarget: int): (r: Light)
    ensures r.wait == l.wait
    ensures IsUsingLight(l) && oldTarget < newTarget ==> r.state == LIGHT_INC_BRIGHTNESS
    ensures IsUsingLight(l) && oldTarget > newTarget ==> r.state == LIGHT_DEC_BRIGHTNESS
    ensures !IsUsingLight(l) || oldTarget == newTarget ==> r == l
    ensures IsUsingLight(r) <==> IsUsingLight(l)
  {
    if IsUsingLight(l) then
      if oldTarget < newTarget then l.(state := LIGHT_INC_BRIGHTNESS)
      else if oldTarget > newTarget then l.(state := LIGHT_DEC_BRIGHTNESS)
      else l
    else l
  }

  /** `nextAdjustLightState`: the adjust program's three measurements in
      turn, then off. Outside the program nothing changes. */
  function NextAdjustLightState(l: Light): (r: Light)
    ensures r.wait == l.wait
    ensures LIGHT_MEASURE_MAX_BRIGHTNESS <= l.state < LIGHT_MEASURE_MAX_VOLTAGE ==> r.state == l.state + 1
    ensures l.state == LIGHT_MEASURE_MAX_VOLTAGE ==> r.state == LIGHT_OFF
    ensures !IsAdjustProgramRunning(l) ==> r == l
  {
    if LIGHT_MEASURE_MAX_BRIGHTNESS <= l.state < LIGHT_MEASURE_MAX_VOLTAGE then l.(state := l.state + 1)
    else if l.state == LIGHT_MEASURE_MAX_VOLTAGE then l.(state := LIGHT_OFF)
    else l
  }

  /** The adjust program runs through exactly three states and then stops
      with the light off. */
  lemma AdjustProgramSequence(l: Light)
    ensures var a := SetAdjustLight(l);
      var b := NextAdjustLightState(a);
      var c := NextAdjustLightState(b);
      var d := NextAdjustLightState(c);
      && a.state == LIGHT_MEASURE_MAX_BRIGHTNESS && b.state == LIGHT_MEASURE_MIN_VOLTAGE
      && c.state == LIGHT_MEASURE_MAX_VOLTAGE && d.state == LIGHT_OFF
      && IsAdjustProgramRunning(a) && IsAdjustProgramRunning(b) && IsAdjustProgramRunning(c)
      && !IsAdjustProgramRunning(d)
  {
  }

  /** `waitForReliableBrightness`: count up until the measurement is
      reliable, then restart. */
  function WaitForReliableBrightness(l: Light): (r: Light)
    ensures r.state == l.state
    ensures IsBrightnessReliable(l) ==> r.wait == 0
    ensures !IsBrightnessReliable(l) && l.wait < 0x7F ==> r.wait == l.wait + 1
  {
    if IsBrightnessReliable(l) then l.(wait := 0) else l.(wait := ToInt8(l.wait + 1))
  }

  /** Counting from a settled light, the counter reaches the reliability
      mark and never wraps around. */
  lemma ReliableWaitBounded(l: Light)
    requires 0 <= l.wait <= WAIT_FOR_RELIABLE_BRIGHTNESS_MEASUREMENT
    ensures 0 <= WaitForReliableBrightness(l).wait <= WAIT_FOR_RELIABLE_BRIGHTNESS_MEASUREMENT
  {
  }

  /** The result of one dimming step: the new state and the PWM step. */
  datatype Step = Step(light: Light, step: int)

  /** `handleKeepBrightness` as written. Far from the target it switches
      to chasing it. Otherwise the counter restarts when
      `cur + 15 > target || cur - 15 > target`; the counter only runs in
      the remaining case, and after twenty runs gives one step. */
  function HandleKeepBrightnessAsWritten(l: Light, cur: int, target: int): (r: Step)
    ensures -1 <= r.step <= 1
  {
    if cur + LARGE_BRIGHTNESS_DIFFERENCE < target then Step(l.(state := LIGHT_INC_BRIGHTNESS), 1)
    else if cur - LARGE_BRIGHTNESS_DIFFERENCE > target then Step(l.(state := LIGHT_DEC_BRIGHTNESS), -1)
    else if cur + SMALL_BRIGHTNESS_DIFFERENCE > target || cur - SMALL_BRIGHTNESS_DIFFERENCE > target then
      Step(l.(wait := 0), 0)
    else
      KeepCount(l, cur, target)
  }

  /** The counting branch shared by both versions: count towards the
      target's side, and after `MAX_WAIT` counts give one step. The counts
      are computed in `int` and stored back into the `int8_t` counter. */
  function KeepCount(l: Light, cur: int, target: int): (r: Step)
    ensures r.light.state == l.state && -1 <= r.step <= 1
    ensures -MAX_WAIT < l.wait < MAX_WAIT ==>
              && -MAX_WAIT < r.light.wait < MAX_WAIT
              && (cur < target ==> r.light.wait >= 0 && r.step != -1 && (r.step == 1 <==> l.wait == MAX_WAIT - 1))
              && (cur > target ==> r.light.wait <= 0 && r.step != 1 && (r.step == -1 <==> l.wait == -MAX_WAIT + 1))
    ensures cur == target && -MAX_WAIT < l.wait < MAX_WAIT ==> r == Step(l, 0)
  {
    var w1 := if cur < target then ToInt8(Max(0, l.wait + 1)) else l.wait;
    var w2 := if cur > target then ToInt8(Min(0, w1 - 1)) else w1;
    if w2 >= MAX_WAIT then Step(l.(wait := 0), 1)
    else if w2 <= -MAX_WAIT then Step(l.(wait := 0), -1)
    else Step(l.(wait := w2), 0)
  }

  function Max(a: int, b: int): int { if a >= b then a else b }
  function Min(a: int, b: int): int { if a <= b then a else b }

  /** The band the counting branch was written for: at least the small
      difference and at most the large one away from the target. */
  function HandleKeepBrightness(l: Light, cur: int, target: int): (r: Step)
    ensures -1 <= r.step <= 1
    ensures -MAX_WAIT < l.wait < MAX_WAIT ==> -MAX_WAIT < r.light.wait < MAX_WAIT
  {
    if cur + LARGE_BRIGHTNESS_DIFFERENCE < target then Step(l.(state := LIGHT_INC_BRIGHTNESS), 1)
    else if cur - LARGE_BRIGHTNESS_DIFFERENCE > target then Step(l.(state := LIGHT_DEC_BRIGHTNESS), -1)
    else if cur + SMALL_BRIGHTNESS_DIFFERENCE > target && cur - SMALL_BRIGHTNESS_DIFFERENCE < target then
      Step(l.(wait := 0), 0)
    else
      KeepCount(l, cur, target)
  }

  /** Holding the brightness: more than 40 below the target switches to
      brightening with an immediate step up, more than 40 above to
      dimming with a step down; within 15 the counter restarts. */
  lemma KeepFarAndNear(l: Light, cur: int, target: int)
    requires -MAX_WAIT < l.wait < MAX_WAIT
    ensures cur + LARGE_BRIGHTNESS_DIFFERENCE < target ==>
              HandleKeepBrightness(l, cur, target) == Step(l.(state := LIGHT_INC_BRIGHTNESS), 1)
    ensures cur - LARGE_BRIGHTNESS_DIFFERENCE > target ==>
              HandleKeepBrightness(l, cur, target) == Step(l.(state := LIGHT_DEC_BRIGHTNESS), -1)
    ensures -SMALL_BRIGHTNESS_DIFFERENCE < cur - target < SMALL_BRIGHTNESS_DIFFERENCE ==>
              HandleKeepBrightness(l, cur, target) == Step(l.(wait := 0), 0)
    ensures HandleKeepBrightness(l, cur, target).step == 1 ==> cur < target
    ensures HandleKeepBrightness(l, cur, target).step == -1 ==> cur > target
    ensures cur + LARGE_BRIGHTNESS_DIFFERENCE < target ==>
              HandleKeepBrightnessAsWritten(l, cur, target) == Step(l.(state := LIGHT_INC_BRIGHTNESS), 1)
    ensures cur - LARGE_BRIGHTNESS_DIFFERENCE > target ==>
              HandleKeepBrightnessAsWritten(l, cur, target) == Step(l.(state := LIGHT_DEC_BRIGHTNESS), -1)
    ensures target - LARGE_BRIGHTNESS_DIFFERENCE <= cur <= target - SMALL_BRIGHTNESS_DIFFERENCE ==>
              HandleKeepBrightnessAsWritten(l, cur, target) == KeepCount(l, cur, target)
    ensures target - SMALL_BRIGHTNESS_DIFFERENCE < cur <= target + LARGE_BRIGHTNESS_DIFFERENCE ==>
              HandleKeepBrightnessAsWritten(l, cur, target) == Step(l.(wait := 0), 0)
  {
  }

  /** Mirroring brightness, target and counter mirrors the decision: too
      dark and too bright are handled alike. */
  lemma KeepSymmetric(l: Light, cur: int, target: int)
    requires -MAX_WAIT < l.wait < MAX_WAIT
    ensures var r := HandleKeepBrightness(l, cur, target);
      var m := HandleKeepBrightness(l.(wait := -l.wait), -cur, -target);
      m.step == -r.step && m.light.wait == -r.light.wait
  {
  }

  /** Twenty ticks too bright (but within 40) give one step down. */
  lemma KeepDimsAfterTwentyTicks(l: Light, cur: int, target: int)
    requires l.wait == -MAX_WAIT + 1
    requires SMALL_BRIGHTNESS_DIFFERENCE <= cur - target <= LARGE_BRIGHTNESS_DIFFERENCE
    ensures HandleKeepBrightness(l, cur, target) == Step(l.(wait := 0), -1)
  {
  }

  /** As written, a light that is too bright by up to 40 never dims: the
      first restart condition holds whenever the light is at least as
      bright as the target, so the counter never counts down. */
  lemma KeepAsWrittenNeverDims(l: Light, cur: int, target: int)
    requires -MAX_WAIT < l.wait < MAX_WAIT
    requires target <= cur <= target + LARGE_BRIGHTNESS_DIFFERENCE
    ensures HandleKeepBrightnessAsWritten(l, cur, target) == Step(l.(wait := 0), 0)
  {
  }

  /** The concrete case: 30 points too bright, after nineteen counts. */
  lemma KeepAsWrittenCounterexample()
    ensures HandleKeepBrightnessAsWritten(Light(LIGHT_KEEP_BRIGHTNESS, -19), 60, 30).step == 0
    ensures HandleKeepBrightness(Light(LIGHT_KEEP_BRIGHTNESS, -19), 60, 30).step == -1
  {
  }

  /** `dimmingStep`: the PWM step for the current state. Brightening steps
      up until the target is reached and then holds; dimming steps down
      until the light is below the target and then holds; holding uses
      `handleKeepBrightness` as written; an off light steps down; the end of
      the voltage measurement turns the light off. */
  function DimmingStep(l: Light, cur: int, target: int): (r: Step)
    ensures -1 <= r.step <= 1
    ensures l.state == LIGHT_INC_BRIGHTNESS ==>
              if cur >= target then r == Step(Light(LIGHT_KEEP_BRIGHTNESS, 0), 0) else r == Step(l, 1)
    ensures l.state == LIGHT_DEC_BRIGHTNESS ==>
              if cur < target then r == Step(Light(LIGHT_KEEP_BRIGHTNESS, 0), 0) else r == Step(l, -1)
    ensures l.state == LIGHT_KEEP_BRIGHTNESS ==> r == HandleKeepBrightnessAsWritten(l, cur, target)
    ensures l.state == LIGHT_KEEP_BRIGHTNESS && target <= cur <= target + LARGE_BRIGHTNESS_DIFFERENCE ==>
              r == Step(l.(wait := 0), 0)
    ensures l.state == LIGHT_OFF ==> r == Step(l, -1)
    ensures l.state == LIGHT_MEASURE_MIN_VOLTAGE ==> r == Step(l.(state := LIGHT_OFF), 0)
    ensures (l.state !in {LIGHT_OFF, LIGHT_KEEP_BRIGHTNESS, LIGHT_INC_BRIGHTNESS, LIGHT_DEC_BRIGHTNESS,
                          LIGHT_MEASURE_MIN_VOLTAGE}) ==> r == Step(l, 0)
  {
    if l.state == LIGHT_KEEP_BRIGHTNESS then HandleKeepBrightnessAsWritten(l, cur, target)
    else OtherStep(l, cur, target)
  }

  /** The same with the corrected `handleKeepBrightness`. */
  function DimmingStepFixed(l: Light, cur: int, target: int): (r: Step)
    ensures -1 <= r.step <= 1
    ensures l.state == LIGHT_INC_BRIGHTNESS ==>
              if cur >= target then r == Step(Light(LIGHT_KEEP_BRIGHTNESS, 0), 0) else r == Step(l, 1)
    ensures l.state == LIGHT_DEC_BRIGHTNESS ==>
              if cur < target then r == Step(Light(LIGHT_KEEP_BRIGHTNESS, 0), 0) else r == Step(l, -1)
    ensures l.state == LIGHT_KEEP_BRIGHTNESS ==> r == HandleKeepBrightness(l, cur, target)
    ensures l.state == LIGHT_KEEP_BRIGHTNESS && l.wait == -MAX_WAIT + 1
            && SMALL_BRIGHTNESS_DIFFERENCE <= cur - target <= LARGE_BRIGHTNESS_DIFFERENCE ==>
              r == Step(l.(wait := 0), -1)
    ensures l.state == LIGHT_OFF ==> r == Step(l, -1)
    ensures l.state == LIGHT_MEASURE_MIN_VOLTAGE ==> r == Step(l.(state := LIGHT_OFF), 0)
    ensures (l.state !in {LIGHT_OFF, LIGHT_KEEP_BRIGHTNESS, LIGHT_INC_BRIGHTNESS, LIGHT_DEC_BRIGHTNESS,
                          LIGHT_MEASURE_MIN_VOLTAGE}) ==> r == Step(l, 0)
  {
    if l.state == LIGHT_KEEP_BRIGHTNESS then HandleKeepBrightness(l, cur, target)
    else OtherStep(l, cur, target)
  }

  /** The steps of every state but holding. */
  function OtherStep(l: Light, cur: int, target: int): Step
  {
    if l.state == LIGHT_INC_BRIGHTNESS then
      if cur >= target then Step(Light(LIGHT_KEEP_BRIGHTNESS, 0), 0) else Step(l, 1)
    else if l.state == LIGHT_DEC_BRIGHTNESS then
      if cur < target then Step(Light(LIGHT_KEEP_BRIGHTNESS, 0), 0) else Step(l, -1)
    else if l.state == LIGHT_MEASURE_MIN_VOLTAGE then Step(l.(state := LIGHT_OFF), 0)
    else if l.state == LIGHT_OFF then Step(l, -1)
    else Step(l, 0)
  }

  /** Dimming never leaves the three dimming states for anything but each
      other, and keeps the counter in range: a light that is being dimmed
      stays lit. This holds with either version of the holding step. */
  lemma DimmingStaysDimming(l: Light, cur: int, target: int)
    requires -MAX_WAIT < l.wait < MAX_WAIT
    requires l.state in {LIGHT_KEEP_BRIGHTNESS, LIGHT_INC_BRIGHTNESS, LIGHT_DEC_BRIGHTNESS}
    ensures var r := DimmingStep(l, cur, target);
      && r.light.state in {LIGHT_KEEP_BRIGHTNESS, LIGHT_INC_BRIGHTNESS, LIGHT_DEC_BRIGHTNESS}
      && -MAX_WAIT < r.light.wait < MAX_WAIT && IsUsingLight(r.light)
    ensures var r := DimmingStepFixed(l, cur, target);
      && r.light.state in {LIGHT_KEEP_BRIGHTNESS, LIGHT_INC_BRIGHTNESS, LIGHT_DEC_BRIGHTNESS}
      && -MAX_WAIT < r.light.wait < MAX_WAIT && IsUsingLight(r.light)
  {
  }

  /** Brightening never steps the wrong way: a step up only while the
      light is darker than the target, with either holding step. */
  lemma StepTowardsTarget(l: Light, cur: int, target: int)
    requires -MAX_WAIT < l.wait < MAX_WAIT
    requires l.state in {LIGHT_KEEP_BRIGHTNESS, LIGHT_INC_BRIGHTNESS, LIGHT_DEC_BRIGHTNESS}
    ensures DimmingStep(l, cur, target).step == 1 ==> cur < target
    ensures DimmingStep(l, cur, target).step == -1 ==> cur >= target
    ensures DimmingStepFixed(l, cur, target).step == 1 ==> cur < target
    ensures DimmingStepFixed(l, cur, target).step == -1 ==> cur >= target
  {
  }
}

=== FILE: notification.dfy ===
/** The legacy 7-byte notification frame of the controller nodes (`Notification`):
    sender, receiver, acknowledge, key, value high byte, value low byte and a
    parity byte that XORs the six bytes before it. */
module Legacy {
  import opened Bits
  import opened Values

  const NO_ERROR: byte := 0
  const NO_DATA: byte := 1
  const INVALID_LENGTH_ERROR: byte := 2
  const PARITY_ERROR: byte := 3

  /** Three address/flag bytes, the key, the two value bytes, the parity. */
  const BUFFER_SIZE: nat := 7

  /** The fields a frame carries. */
  datatype Fields = Fields(sender: byte, receiver: byte, ack: byte, key: byte, value: StateValue)

  /** A notification built from a receive buffer: the fields, the error
      classification and the number of bytes that were received. */
  datatype Received = Received(fields: Fields, error: byte, bytesReceived: byte)

  /** `Notification(key, value, senderAddress, receiverAddress)`. */
  function Create(key: byte, value: StateValue, sender: byte, receiver: byte): (f: Fields)
    ensures f.ack == 0 && f.key == key && f.value == value
    ensures f.sender == sender && f.receiver == receiver
  {
    Fields(sender, receiver, 0, key, value)
  }

  /** `calcParity`: sender, receiver, acknowledge, key and the two value
      bytes XORed together, in that order. */
  function Parity(f: Fields): (p: byte)
    ensures XorAll(Payload(f) + [p]) == 0
  {
    XorAllSnoc(Payload(f), XorAll(Payload(f)));
    XorSelf(XorAll(Payload(f)));
    XorAll(Payload(f))
  }

  /** The six bytes that precede the parity. */
  function Payload(f: Fields): (s: seq<byte>)
    ensures |s| == 6
  {
    [f.sender, f.receiver, f.ack, f.key, IntPlaces(f.value), DecPlaces(f.value)]
  }

  /** `writeToSerial`: the six field bytes followed by their parity. */
  function Encode(f: Fields): (frame: seq<byte>)
    ensures |frame| == BUFFER_SIZE
    ensures frame[..6] == Payload(f)
    ensures XorAll(frame) == 0
  {
    var s := Payload(f);
    var frame := s + [Parity(f)];
    assert frame[..|frame| - 1] == s;
    frame
  }

  /** The receive constructor: the fields are read from the buffer whatever
      the count, then the count and the parity are checked; a failed check
      clears the key, a count of 0 does not. */
  function Decode(buffer: seq<byte>, bytesReceived: byte): (r: Received)
    requires |buffer| == BUFFER_SIZE
    ensures r.bytesReceived == bytesReceived
    ensures r.error == NO_DATA <==> bytesReceived == 0
    ensures r.error == INVALID_LENGTH_ERROR <==> bytesReceived != 0 && bytesReceived as nat != BUFFER_SIZE
    ensures r.error == PARITY_ERROR <==> bytesReceived as nat == BUFFER_SIZE && XorAll(buffer) != 0
    ensures r.error == NO_ERROR <==> bytesReceived as nat == BUFFER_SIZE && XorAll(buffer) == 0
    ensures r.error == NO_ERROR || r.error == NO_DATA ==> r.fields.key == buffer[3]
    ensures r.error == INVALID_LENGTH_ERROR || r.error == PARITY_ERROR ==> r.fields.key == 0
  {
    var fields := Fields(buffer[0], buffer[1], buffer[2], buffer[3], FromBytes(buffer[4], buffer[5]));
    var parity := buffer[6];
    assert Payload(fields) == buffer[..6];
    XorLast(buffer);
    if bytesReceived == 0 then
      Received(fields, NO_DATA, bytesReceived)
    else if bytesReceived as nat != BUFFER_SIZE then
      Received(fields.(key := 0), INVALID_LENGTH_ERROR, bytesReceived)
    else if Parity(fields) != parity then
      Received(fields.(key := 0), PARITY_ERROR, bytesReceived)
    else
      Received(fields, NO_ERROR, bytesReceived)
  }

  /** A 7-byte buffer XORs to zero exactly when its last byte is the XOR of
      the first six. */
  lemma XorLast(buffer: seq<byte>)
    requires |buffer| == BUFFER_SIZE
    ensures XorAll(buffer) == 0 <==> XorAll(buffer[..6]) == buffer[6]
  {
    assert buffer[..|buffer| - 1] == buffer[..6];
  }

  /** The seven bytes written decode to the same fields without error. */
  lemma RoundTrip(f: Fields)
    ensures Decode(Encode(f), BUFFER_SIZE as byte) == Received(f, NO_ERROR, BUFFER_SIZE as byte)
  {
    var frame := Encode(f);
    PlacesOfValue(f.value);
  }

  /** Any change of one byte of a valid frame, in particular any flipped
      bit, is detected as a parity error. */
  lemma SingleByteErrorDetected(f: Fields, i: nat, flip: byte)
    requires i < BUFFER_SIZE && flip != 0
    ensures Decode(Encode(f)[i := Encode(f)[i] ^ flip], BUFFER_SIZE as byte).error == PARITY_ERROR
  {
    var frame := Encode(f);
    XorAllFlip(frame, i, flip);
  }
}

=== FILE: notification_v2.dfy ===
/** The versioned notification frame of the controller nodes (`NotificationV2`).
    Byte 2 carries the acknowledge flag in bit 0 and the message version
    above it. Version 0 is the legacy 7-byte frame protected by a parity
    byte; version 1 is a 9-byte frame with a size byte and a CRC-16 sent low
    byte first. */
module NotifyV2 {
  import opened Bits
  import opened Values
  import Crc

  const MAX_SUPPORTED_MESSAGE_VERSION: byte := 1

  const NO_ERROR: byte := 0
  const NO_DATA: byte := 1
  const INVALID_LENGTH_ERROR: byte := 2
  const CHECK_ERROR: byte := 3
  const ILLEGAL_VERSION: byte := 4

  const VERSION: byte := 1
  const BUFFER_SIZE_V0: byte := 7
  /** Sender, receiver, acknowledge/version, size, key, two value bytes and
      the two CRC bytes. */
  const BUFFER_SIZE: byte := 9
  /** The number of leading bytes the CRC covers. */
  const CRC_BUFFER_SIZE: nat := 7

  datatype Fields = Fields(sender: byte, receiver: byte, ack: byte, version: byte,
                           size: byte, key: byte, value: StateValue)

  datatype Received = Received(fields: Fields, error: byte, bytesReceived: byte)

  /** `NotificationV2(key, value, senderAddress, receiverAddress)`: a version 1
      notification without acknowledge request. */
  function Create(key: byte, value: StateValue, sender: byte, receiver: byte): (f: Fields)
    ensures f.version == VERSION && f.size == BUFFER_SIZE && f.ack == 0
    ensures f.key == key && f.value == value && f.sender == sender && f.receiver == receiver
    ensures !IsEmpty(f) <==> key != 0
  {
    Fields(sender, receiver, 0, VERSION, BUFFER_SIZE, key, value)
  }

  /** `setVersion`: versions above the supported maximum are ignored. */
  function SetVersion(f: Fields, version: byte): (r: Fields)
    ensures version <= MAX_SUPPORTED_MESSAGE_VERSION ==> r == f.(version := version)
    ensures version > MAX_SUPPORTED_MESSAGE_VERSION ==> r == f
  {
    if version <= MAX_SUPPORTED_MESSAGE_VERSION then f.(version := version) else f
  }

  /** `isEmpty`: no key was set. */
  function IsEmpty(f: Fields): (r: bool)
    ensures r <==> f.key == 0
  {
    f.key == 0
  }

  /** `hasError`. */
  function HasError(n: Received): (r: bool)
    ensures r <==> n.error != NO_ERROR
  {
    n.error != NO_ERROR
  }

  /** Byte 2 of a frame: `mAcknowledge + (mVersion << 1)`, truncated to a
      byte. */
  function AckVersion(ack: byte, version: byte): byte
  {
    ack + (version << 1)
  }

  function AckOf(b: byte): byte
  {
    b & 1
  }

  function VersionOf(b: byte): byte
  {
    b >> 1
  }

  /** Splitting byte 2 and joining it again gives the byte back. */
  lemma AckVersionSplit(b: byte)
    ensures AckVersion(AckOf(b), VersionOf(b)) == b
  {
  }

  /** A flag of 0 or 1 and a version below 128 survive the packing. */
  lemma AckVersionJoin(ack: byte, version: byte)
    requires ack <= 1 && version < 128
    ensures AckOf(AckVersion(ack, version)) == ack
    ensures VersionOf(AckVersion(ack, version)) == version
  {
  }

  /** The seven bytes the CRC covers, in frame order. */
  function Header(f: Fields): (h: seq<byte>)
    ensures |h| == CRC_BUFFER_SIZE
  {
    [f.sender, f.receiver, AckVersion(f.ack, f.version), f.size, f.key,
     IntPlaces(f.value), DecPlaces(f.value)]
  }

  /** `calcCRC16`. */
  function CalcCrc16(f: Fields): (crc: u16)
    ensures crc == Crc.BitSerialFold(0xFFFF, Header(f))
  {
    Crc.Crc16(Header(f))
  }

  /** `calcParity`: sender, receiver, acknowledge, key and the two value
      bytes XORed together, in that order. */
  function CalcParity(f: Fields): (p: byte)
    ensures XorAll([f.sender, f.receiver, f.ack, f.key, IntPlaces(f.value), DecPlaces(f.value)] + [p]) == 0
  {
    var s := [f.sender, f.receiver, f.ack, f.key, IntPlaces(f.value), DecPlaces(f.value)];
    XorAllSnoc(s, XorAll(s));
    XorSelf(XorAll(s));
    XorAll(s)
  }

  /** `writeToSerial` as written: the 9-byte version 1 layout, whatever the
      version, with the CRC low byte first. */
  function WriteToSerial(f: Fields): (frame: seq<byte>)
    ensures |frame| == BUFFER_SIZE as nat
    ensures frame[..CRC_BUFFER_SIZE] == Header(f)
    ensures Join(frame[8], frame[7]) == CalcCrc16(f)
  {
    var crc := CalcCrc16(f);
    SplitJoin(crc);
    Header(f) + [LowByte(crc), HighByte(crc)]
  }

  /** The fields of a buffer whose byte 2 gives a version other than 0 and 1:
      the source sets only the error and leaves the rest unset, which is
      written as 0 here. */
  function IllegalVersion(buffer: seq<byte>): (r: Received)
    requires |buffer| == BUFFER_SIZE as nat
    ensures r.error == ILLEGAL_VERSION
    ensures r.fields.sender == buffer[0] && r.fields.receiver == buffer[1]
    ensures r.fields.ack == AckOf(buffer[2]) && r.fields.version == VersionOf(buffer[2])
  {
    Received(Fields(buffer[0], buffer[1], AckOf(buffer[2]), VersionOf(buffer[2]), 0, 0, StateValue(0)),
             ILLEGAL_VERSION, 0)
  }

  /** `setVersion0`: the legacy layout; the size becomes 7. */
  function DecodeV0(buffer: seq<byte>, bytesReceived: byte): (r: Received)
    requires |buffer| == BUFFER_SIZE as nat && VersionOf(buffer[2]) == 0
    ensures r.fields == Fields(buffer[0], buffer[1], buffer[2], 0, BUFFER_SIZE_V0, r.fields.key,
                               FromBytes(buffer[4], buffer[5]))
    ensures r.bytesReceived == bytesReceived
    ensures r.error == NO_DATA <==> bytesReceived == 0
    ensures r.error == INVALID_LENGTH_ERROR <==> bytesReceived != 0 && bytesReceived != BUFFER_SIZE_V0
    ensures r.error == CHECK_ERROR <==> bytesReceived == BUFFER_SIZE_V0 && XorAll(buffer[..7]) != 0
    ensures r.error == NO_ERROR <==> bytesReceived == BUFFER_SIZE_V0 && XorAll(buffer[..7]) == 0
    ensures r.fields.key == (if r.error in {NO_ERROR, NO_DATA} then buffer[3] else 0)
  {
    var b2 := buffer[2];
    V0AckByte(b2);
    var fields := Fields(buffer[0], buffer[1], AckOf(b2), 0, BUFFER_SIZE_V0, buffer[3],
                         FromBytes(buffer[4], buffer[5]));
    ParityOfBuffer(buffer, fields);
    if bytesReceived == 0 then
      Received(fields, NO_DATA, bytesReceived)
    else if bytesReceived != BUFFER_SIZE_V0 then
      Received(fields.(key := 0), INVALID_LENGTH_ERROR, bytesReceived)
    else if CalcParity(fields) != buffer[6] then
      Received(fields.(key := 0), CHECK_ERROR, bytesReceived)
    else
      Received(fields, NO_ERROR, bytesReceived)
  }

  lemma V0AckByte(b: byte)
    requires VersionOf(b) == 0
    ensures AckOf(b) == b
  {
  }

  lemma ParityOfBuffer(buffer: seq<byte>, f: Fields)
    requires |buffer| == BUFFER_SIZE as nat
    requires f.sender == buffer[0] && f.receiver == buffer[1] && f.ack == buffer[2] && f.key == buffer[3]
    requires f.value == FromBytes(buffer[4], buffer[5])
    ensures CalcParity(f) == buffer[6] <==> XorAll(buffer[..7]) == 0
  {
    assert buffer[..7][..6] == [f.sender, f.receiver, f.ack, f.key, IntPlaces(f.value), DecPlaces(f.value)];
  }

  /** `setVersion1`: the size byte is taken as sent, the CRC is read low
      byte first from bytes 7 and 8. */
  function DecodeV1(buffer: seq<byte>, bytesReceived: byte): (r: Received)
    requires |buffer| == BUFFER_SIZE as nat && VersionOf(buffer[2]) == 1
    ensures r.fields == Fields(buffer[0], buffer[1], AckOf(buffer[2]), 1, buffer[3], r.fields.key,
                               FromBytes(buffer[5], buffer[6]))
    ensures r.bytesReceived == bytesReceived
    ensures r.error == NO_DATA <==> bytesReceived == 0
    ensures r.error == INVALID_LENGTH_ERROR <==> bytesReceived != 0 && bytesReceived != BUFFER_SIZE
    ensures r.error == CHECK_ERROR
            <==> bytesReceived == BUFFER_SIZE && Crc.Crc16(buffer[..7]) != Join(buffer[8], buffer[7])
    ensures r.error == NO_ERROR
            <==> bytesReceived == BUFFER_SIZE && Crc.Crc16(buffer[..7]) == Join(buffer[8], buffer[7])
    ensures r.fields.key == (if r.error in {NO_ERROR, NO_DATA} then buffer[4] else 0)
  {
    var b2 := buffer[2];
    var fields := Fields(buffer[0], buffer[1], AckOf(b2), VersionOf(b2), buffer[3], buffer[4],
                         FromBytes(buffer[5], buffer[6]));
    HeaderOfBuffer(buffer, fields);
    var crc16 := Join(buffer[8], buffer[7]);
    if bytesReceived == 0 then
      Received(fields, NO_DATA, bytesReceived)
    else if bytesReceived != BUFFER_SIZE then
      Received(fields.(key := 0), INVALID_LENGTH_ERROR, bytesReceived)
    else if CalcCrc16(fields) != crc16 then
      Received(fields.(key := 0), CHECK_ERROR, bytesReceived)
    else
      Received(fields, NO_ERROR, bytesReceived)
  }

  /** Fields read from a buffer have the buffer's first seven bytes as
      their header. */
  lemma HeaderOfBuffer(buffer: seq<byte>, f: Fields)
    requires |buffer| == BUFFER_SIZE as nat
    requires f.sender == buffer[0] && f.receiver == buffer[1]
    requires f.ack == AckOf(buffer[2]) && f.version == VersionOf(buffer[2])
    requires f.size == buffer[3] && f.key == buffer[4] && f.value == FromBytes(buffer[5], buffer[6])
    ensures Header(f) == buffer[..CRC_BUFFER_SIZE]
  {
    AckVersionSplit(buffer[2]);
    PlacesOfBytes(buffer[5], buffer[6]);
  }

  lemma PlacesOfBytes(hi: byte, lo: byte)
    ensures IntPlaces(FromBytes(hi, lo)) == hi && DecPlaces(FromBytes(hi, lo)) == lo
  {
  }

  /** The receive constructor `NotificationV2(buffer, bytesReceived)`. */
  function Decode(buffer: seq<byte>, bytesReceived: byte): (r: Received)
    requires |buffer| == BUFFER_SIZE as nat
    ensures r.fields.sender == buffer[0] && r.fields.receiver == buffer[1]
    ensures r.fields.ack == AckOf(buffer[2]) && r.fields.version == VersionOf(buffer[2])
    ensures r.error == ILLEGAL_VERSION <==> VersionOf(buffer[2]) > 1
    ensures HasError(r) <==> r.error != NO_ERROR
  {
    var version := VersionOf(buffer[2]);
    if version == 0 then
      V0AckByte(buffer[2]);
      DecodeV0(buffer, bytesReceived)
    else if version == 1 then
      DecodeV1(buffer, bytesReceived)
    else
      IllegalVersion(buffer)
  }

  /** A version 1 notification with an acknowledge flag of 0 or 1 is
      received as written, without error. */
  lemma RoundTripV1(f: Fields)
    requires f.version == 1 && f.ack <= 1
    ensures Decode(WriteToSerial(f), BUFFER_SIZE) == Received(f, NO_ERROR, BUFFER_SIZE)
  {
    var frame := WriteToSerial(f);
    AckVersionJoin(f.ack, f.version);
    PlacesOfValue(f.value);
    var r := DecodeV1(frame, BUFFER_SIZE);
    assert r.fields.(key := frame[4]) == f by {
      HeaderInjective(r.fields.(key := frame[4]), f);
    }
  }

  /** Fields with equal headers are equal, once byte 2 can be split. */
  lemma HeaderInjective(f: Fields, g: Fields)
    requires Header(f) == Header(g) && f.ack <= 1 && g.ack <= 1 && f.version < 128 && g.version < 128
    ensures f == g
  {
    AckVersionJoin(f.ack, f.version);
    AckVersionJoin(g.ack, g.version);
    assert Header(f)[5] == Header(g)[5] && Header(f)[6] == Header(g)[6];
    PlacesOfValue(f.value);
    PlacesOfValue(g.value);
  }

  /** The frame `writeToSerial` sends for a version 0 notification carries
      version 0 in byte 2 but has the 9-byte layout, so the receiver, which
      expects 7 bytes for version 0, rejects it as having the wrong length. */
  lemma WriteToSerialV0Rejected(f: Fields)
    requires f.version == 0 && f.ack <= 1
    ensures Decode(WriteToSerial(f), BUFFER_SIZE).error == INVALID_LENGTH_ERROR
  {
    var frame := WriteToSerial(f);
    AckVersionJoin(f.ack, f.version);
    assert frame[2] == Header(f)[2];
  }

  /** The version 0 layout: the legacy fields followed by their parity. */
  function WriteV0(f: Fields): (frame: seq<byte>)
    ensures |frame| == BUFFER_SIZE_V0 as nat
    ensures frame[..6] == [f.sender, f.receiver, AckVersion(f.ack, 0), f.key, IntPlaces(f.value), DecPlaces(f.value)]
    ensures f.ack <= 1 ==> XorAll(frame) == 0
  {
    var frame := [f.sender, f.receiver, AckVersion(f.ack, 0), f.key, IntPlaces(f.value), DecPlaces(f.value),
                  CalcParity(f)];
    if f.ack <= 1 then
      V0Parity(f, frame);
      frame
    else
      frame
  }

  lemma V0Parity(f: Fields, frame: seq<byte>)
    requires f.ack <= 1
    requires frame == [f.sender, f.receiver, AckVersion(f.ack, 0), f.key, IntPlaces(f.value), DecPlaces(f.value),
                       CalcParity(f)]
    ensures XorAll(frame) == 0
  {
    AckVersionJoin(f.ack, 0);
    V0AckByte(AckVersion(f.ack, 0));
    assert frame[..6] == [f.sender, f.receiver, f.ack, f.key, IntPlaces(f.value), DecPlaces(f.value)];
    XorAllSnoc(frame[..6], frame[6]);
    assert frame[..6] + [frame[6]] == frame;
    XorSelf(frame[6]);
  }

  /** `writeToSerial` with the layout chosen by the version, as the private
      helpers `writeV0ToSerial` and `writeV1ToSerial` declared next to it
      suggest. */
  function WriteFrame(f: Fields): (frame: seq<byte>)
    ensures f.version == 0 ==> frame == WriteV0(f)
    ensures f.version != 0 ==> frame == WriteToSerial(f)
  {
    if f.version == 0 then WriteV0(f) else WriteToSerial(f)
  }

  /** A version 0 frame, received into the 9-byte buffer after which two
      arbitrary bytes remain, decodes to the notification with size 7. */
  lemma RoundTripV0(f: Fields, rest: seq<byte>)
    requires f.version == 0 && f.ack <= 1 && |rest| == 2
    ensures Decode(WriteFrame(f) + rest, BUFFER_SIZE_V0) == Received(f.(size := BUFFER_SIZE_V0), NO_ERROR, BUFFER_SIZE_V0)
  {
    var frame := WriteV0(f);
    var buffer := frame + rest;
    AckVersionJoin(f.ack, 0);
    assert buffer[..7] == frame;
    assert buffer[2] == frame[..6][2];
    assert buffer[4] == frame[..6][4] && buffer[5] == frame[..6][5];
    PlacesOfValue(f.value);
  }

  /** Every notification with an acknowledge flag of 0 or 1 is received as
      written by the corrected writer. */
  lemma RoundTripFixed(f: Fields, rest: seq<byte>)
    requires f.version <= 1 && f.ack <= 1 && |rest| == 2
    ensures f.version == 0 ==>
      Decode(WriteFrame(f) + rest, BUFFER_SIZE_V0) == Received(f.(size := BUFFER_SIZE_V0), NO_ERROR, BUFFER_SIZE_V0)
    ensures f.version == 1 ==> Decode(WriteFrame(f), BUFFER_SIZE) == Received(f, NO_ERROR, BUFFER_SIZE)
  {
    if f.version == 0 {
      RoundTripV0(f, rest);
    } else {
      RoundTripV1(f);
    }
  }
}

=== FILE: rs485_driver.dfy ===
/** The node's bus driver (`RS485`): collecting a frame from the received
    bytes, folding receive errors into one pending error code, and
    dispatching a frame to the token machine or to command handling. Serial
    timing is abstracted: a poll sees the bytes that arrive before the
    inter-character timeout, as a finite sequence. */
module NodeBus {
  import opened Bits
  import opened Wrappers
  import opened Values
  import Legacy
  import Arbitration
  import NodeIo

  const TOKEN: byte := 0x21
  /** `'a'`: the node reports its state and receiver address. */
  const STATE_NOTIFICATION: byte := 0x61
  /** `'e'`: the node reports a receive error. */
  const RECEIVE_ERROR_NOTIFICATION: byte := 0x65
  /** `'z'`: the node reports its free memory. */
  const MEM_LEFT_NOTIFICATION: byte := 0x7A

  const INVALID_LENGTH_BASE: u16 := 0x0100
  const PARITY_ERROR_BASE: u16 := 0x0200

  /** A byte that may start a frame: a sender address, 1..127. */
  predicate StartsFrame(b: byte)
  {
    b != 0 && b <= 0x7F
  }

  /** The first index from `from` on whose byte may start a frame, or the
      end. */
  function FirstStart(bytes: seq<byte>, from: nat): (r: nat)
    ensures from <= r && (r > from ==> r <= |bytes|)
    ensures forall k :: from <= k < r ==> !StartsFrame(bytes[k])
    ensures r < |bytes| ==> StartsFrame(bytes[r])
    decreases |bytes| - from
  {
    if from < |bytes| && !StartsFrame(bytes[from]) then FirstStart(bytes, from + 1) else from
  }

  /** The receive buffer after a poll, the number of bytes counted, and the
      number of bytes taken from the input. */
  datatype Reception = Reception(buffer: seq<byte>, count: nat, consumed: nat)

  function Min(a: nat, b: nat): nat
  {
    if a < b then a else b
  }

  /** The receive loop of `pollNonBlocking` from input index `k` with `i`
      bytes counted: every byte is stored at index `i`, but only counted
      once a first byte in 1..127 has been stored; the loop ends with the
      input (the timeout) or with a full buffer. */
  function ReceiveFrom(buffer: seq<byte>, incoming: seq<byte>, k: nat, i: nat): (r: Reception)
    requires |buffer| == Legacy.BUFFER_SIZE && k <= |incoming| && i <= Legacy.BUFFER_SIZE
    requires i == 0 ==> FirstStart(incoming, 0) >= k
    requires i > 0 ==> FirstStart(incoming, 0) + i == k && buffer[..i] == incoming[k - i..k]
    ensures |r.buffer| == Legacy.BUFFER_SIZE
    ensures var skip := FirstStart(incoming, 0);
      && r.count == Min(Legacy.BUFFER_SIZE, |incoming| - skip)
      && r.consumed == Min(|incoming|, skip + Legacy.BUFFER_SIZE)
      && r.buffer[..r.count] == incoming[skip..skip + r.count]
    decreases |incoming| - k
  {
    if k == |incoming| || i == Legacy.BUFFER_SIZE then
      ReceiveEnd(buffer, incoming, k, i);
      Reception(buffer, i, k)
    else
      var buffer' := buffer[i := incoming[k]];
      var i' := if i > 0 || StartsFrame(buffer'[0]) then i + 1 else i;
      ReceiveStep(buffer, incoming, k, i);
      ReceiveFrom(buffer', incoming, k + 1, i')
  }

  /** When the loop ends, the loop's invariant gives the promised count,
      consumption and contents. */
  lemma ReceiveEnd(buffer: seq<byte>, incoming: seq<byte>, k: nat, i: nat)
    requires |buffer| == Legacy.BUFFER_SIZE && k <= |incoming| && i <= Legacy.BUFFER_SIZE
    requires k == |incoming| || i == Legacy.BUFFER_SIZE
    requires i == 0 ==> FirstStart(incoming, 0) >= k
    requires i > 0 ==> FirstStart(incoming, 0) + i == k && buffer[..i] == incoming[k - i..k]
    ensures var skip := FirstStart(incoming, 0);
      && i == Min(Legacy.BUFFER_SIZE, |incoming| - skip)
      && k == Min(|incoming|, skip + Legacy.BUFFER_SIZE)
      && buffer[..i] == incoming[skip..skip + i]
  {
    var skip := FirstStart(incoming, 0);
    assert skip <= |incoming|;
    EndCounts(|incoming|, skip, k, i);
    if i > 0 {
      assert k - i == skip;
    } else {
      assert buffer[..i] == [] == incoming[skip..skip + i];
    }
  }

  lemma EndCounts(n: nat, skip: nat, k: nat, i: nat)
    requires k <= n && i <= Legacy.BUFFER_SIZE && skip <= n
    requires k == n || i == Legacy.BUFFER_SIZE
    requires i == 0 ==> skip >= k
    requires i > 0 ==> skip + i == k
    ensures i == Min(Legacy.BUFFER_SIZE, n - skip) && k == Min(n, skip + Legacy.BUFFER_SIZE)
  {
  }

  /** One iteration of the receive loop keeps the loop's invariant. */
  lemma ReceiveStep(buffer: seq<byte>, incoming: seq<byte>, k: nat, i: nat)
    requires |buffer| == Legacy.BUFFER_SIZE && k < |incoming| && i < Legacy.BUFFER_SIZE
    requires i == 0 ==> FirstStart(incoming, 0) >= k
    requires i > 0 ==> FirstStart(incoming, 0) + i == k && buffer[..i] == incoming[k - i..k]
    ensures var buffer' := buffer[i := incoming[k]];
      var i' := if i > 0 || StartsFrame(buffer'[0]) then i + 1 else i;
      && (i' == 0 ==> FirstStart(incoming, 0) >= k + 1)
      && (i' > 0 ==> FirstStart(incoming, 0) + i' == k + 1 && buffer'[..i'] == incoming[k + 1 - i'..k + 1])
  {
    if i > 0 {
      ReceiveCounted(buffer, incoming[..k + 1], i);
    } else if StartsFrame(incoming[k]) {
      ReceiveFirst(buffer, incoming, k);
    } else {
      FirstStartSkips(incoming, k);
    }
  }

  /** Storing the next input byte after `i` counted ones extends the
      counted prefix by that byte; `seen` is the input up to and including
      it. */
  lemma ReceiveCounted(buffer: seq<byte>, seen: seq<byte>, i: nat)
    requires i < |buffer| && i < |seen|
    requires buffer[..i] == seen[|seen| - 1 - i..|seen| - 1]
    ensures buffer[i := seen[|seen| - 1]][..i + 1] == seen[|seen| - 1 - i..]
  {
    var last := seen[|seen| - 1];
    assert buffer[i := last][..i + 1] == buffer[..i] + [last];
    assert seen[|seen| - 1 - i..] == seen[|seen| - 1 - i..|seen| - 1] + [last];
  }

  lemma ReceiveFirst(buffer: seq<byte>, incoming: seq<byte>, k: nat)
    requires |buffer| == Legacy.BUFFER_SIZE && k < |incoming|
    requires FirstStart(incoming, 0) >= k && StartsFrame(incoming[k])
    ensures FirstStart(incoming, 0) == k
    ensures buffer[0 := incoming[k]][..1] == incoming[k..k + 1]
  {
  }

  lemma FirstStartSkips(incoming: seq<byte>, k: nat)
    requires k < |incoming| && FirstStart(incoming, 0) >= k && !StartsFrame(incoming[k])
    ensures FirstStart(incoming, 0) >= k + 1
  {
  }

  /** `pollNonBlocking`'s receive loop over the bytes of one poll: the
      count starts at the first byte that may start a frame, never exceeds
      the frame size, and the counted bytes are the input's from there. */
  function Receive(buffer: seq<byte>, incoming: seq<byte>): (r: Reception)
    requires |buffer| == Legacy.BUFFER_SIZE
    ensures |r.buffer| == Legacy.BUFFER_SIZE && r.count <= Legacy.BUFFER_SIZE
    ensures r.count > 0 ==> StartsFrame(r.buffer[0])
    ensures var skip := FirstStart(incoming, 0);
      && r.count == Min(Legacy.BUFFER_SIZE, |incoming| - skip)
      && r.buffer[..r.count] == incoming[skip..skip + r.count]
  {
    var r := ReceiveFrom(buffer, incoming, 0, 0);
    assert r.count > 0 ==> r.buffer[0] == incoming[FirstStart(incoming, 0)] by {
      if r.count > 0 {
        assert r.buffer[0] == r.buffer[..r.count][0];
      }
    }
    r
  }

  /** The node's bus state: addressing, token machine, the pending receive
      error (0 for none), whether a state change is still to be reported,
      and the receive buffer, which keeps its bytes from poll to poll. */
  datatype Driver = Driver(io: NodeIo.Io, arb: Arbitration.State, receiveError: u16, stateChanged: bool,
                           buffer: seq<byte>)

  predicate ValidDriver(d: Driver)
  {
    NodeIo.ValidIo(d.io) && |d.buffer| == Legacy.BUFFER_SIZE
  }

  /** Frames sent and the command handed to the devices, if any. */
  datatype Outcome = Outcome(driver: Driver, sends: seq<Legacy.Fields>, delivery: Option<NodeIo.Delivery>)

  /** The value of a state report: state number times 100 plus the
      receiver address. */
  function StatusValue(s: Arbitration.State): u16
  {
    (PhaseNumber(s.phase) * 100 + Arbitration.ReceiverAddress(s)) as u16
  }

  function PhaseNumber(p: Arbitration.Phase): (n: nat)
    ensures n <= 5
  {
    match p
    case Unknown => 0
    case Reboot => 1
    case Single => 2
    case Unregistered => 3
    case Registered => 4
    case Stable => 5
  }

  /** `handleNewTokenState`: act on what the token machine asks for. A
      change is remembered until it can be reported; a registration info,
      or a remembered change while the node may send, is reported to the
      server with the free memory (a parameter, as it comes from the
      hardware). The token goes to the next receiver; every other request
      except a state change is broadcast. */
  function HandleNewTokenState(d: Driver, stateType: u16, freeMemory: u16): (r: Outcome)
    requires ValidDriver(d)
    ensures ValidDriver(r.driver) && r.delivery.None?
    ensures r.driver == d.(stateChanged := r.driver.stateChanged)
  {
    if stateType == Arbitration.NO_REQUEST then Outcome(d, [], None)
    else
      var changed := d.stateChanged || stateType == Arbitration.STATE_CHANGED;
      var report := stateType == Arbitration.REGISTRATION_INFO || (changed && d.arb.maySend);
      var status := if report then [NodeIo.SendToServer(d.io, 0, STATE_NOTIFICATION, StatusValue(d.arb)),
                                    NodeIo.SendToServer(d.io, 0, MEM_LEFT_NOTIFICATION, freeMemory)]
                    else [];
      var token :=
        if stateType == Arbitration.ENABLE_SEND then
          [Legacy.Create(TOKEN, FromWord(Arbitration.ENABLE_SEND), d.io.senderAddresses[0],
                         Arbitration.AddressByte(Arbitration.ReceiverAddress(d.arb)))]
        else if stateType != Arbitration.STATE_CHANGED then
          [NodeIo.Broadcast(d.io, 0, TOKEN, stateType)]
        else [];
      Outcome(d.(stateChanged := changed && !report), status + token, None)
  }

  /** What is sent for a request of the token machine: nothing for none;
      the token, from the node's first address to the next receiver; a
      broadcast of any other request but a state change; and before it at
      most the two state reports. */
  lemma TokenStateSends(d: Driver, stateType: u16, freeMemory: u16)
    requires ValidDriver(d)
    ensures var r := HandleNewTokenState(d, stateType, freeMemory);
      && (stateType == Arbitration.NO_REQUEST ==> r.sends == [] && r.driver == d)
      && (stateType != Arbitration.NO_REQUEST && stateType != Arbitration.STATE_CHANGED ==>
            && |r.sends| > 0
            && var last := r.sends[|r.sends| - 1];
               last.key == TOKEN && ToInt(last.value) == stateType
               && last.sender == d.io.senderAddresses[0]
               && (stateType == Arbitration.ENABLE_SEND ==>
                     last.receiver == Arbitration.AddressByte(Arbitration.ReceiverAddress(d.arb)))
               && (stateType != Arbitration.ENABLE_SEND ==> last.receiver == NodeIo.BROADCAST_ADDRESS))
      && (stateType == Arbitration.STATE_CHANGED ==>
            forall k :: 0 <= k < |r.sends| ==> r.sends[k].key != TOKEN)
      && (forall k :: 0 <= k < |r.sends| ==> r.sends[k].key != RECEIVE_ERROR_NOTIFICATION)
      && |r.sends| <= 3
  {
  }

  /** `sendReceiveError`: report the pending error, then clear it. */
  function SendReceiveError(d: Driver): (r: Outcome)
    requires ValidDriver(d)
    ensures r.driver == d.(receiveError := 0) && r.delivery.None?
    ensures d.receiveError == 0 <==> r.sends == []
    ensures d.receiveError != 0 ==>
      r.sends == [NodeIo.SendToServer(d.io, 0, RECEIVE_ERROR_NOTIFICATION, d.receiveError)]
  {
    if d.receiveError != 0 then
      Outcome(d.(receiveError := 0), [NodeIo.SendToServer(d.io, 0, RECEIVE_ERROR_NOTIFICATION, d.receiveError)], None)
    else
      Outcome(d, [], None)
  }

  /** `handleStateNotification`: a token frame. It counts as addressed
      elsewhere unless its receiver is the node's first address, so a
      broadcast token is not for this node; the sender is remembered as a
      possible neighbour, the pending error is reported, and the machine
      takes the request. */
  function HandleStateNotification(d: Driver, f: Legacy.Fields, freeMemory: u16): (r: Outcome)
    requires ValidDriver(d)
    ensures ValidDriver(r.driver) && r.delivery.None?
  {
    var me := d.io.senderAddresses[0];
    var notForMe := f.receiver != me;
    var d1 := d.(arb := Arbitration.StoreSenderAddress(d.arb, f.sender as nat, me as nat));
    var e := SendReceiveError(d1);
    var step := Arbitration.ChangeState(Arbitration.NodeTiming(), e.driver.arb, ToInt(f.value), notForMe);
    var t := HandleNewTokenState(e.driver.(arb := step.state), step.out, freeMemory);
    Outcome(t.driver, e.sends + t.sends, None)
  }

  /** `handleCommandNotification`: answer an acknowledge request, then hand
      the command to the addressing layer. The answer goes out whatever the
      receiver address was. */
  function HandleCommandNotification(d: Driver, f: Legacy.Fields): (r: Outcome)
    requires ValidDriver(d)
    ensures ValidDriver(r.driver)
    ensures r.sends == (if f.ack != 0 then [NodeIo.Reply(f)] else [])
    ensures r.driver == d.(io := r.driver.io)
  {
    var notified := NodeIo.Notify(d.io, f);
    Outcome(d.(io := notified.io), if f.ack != 0 then [NodeIo.Reply(f)] else [], notified.delivery)
  }

  /** `handleNotification` as written: a length error becomes
      0x0100 + bytes received, a parity error 0x0200 + key (the key of such
      a frame is always cleared, so this is 0x0200); no data is one tick of
      the machine; a valid frame clears the pending error and is a token
      frame or a command. */
  function HandleNotification(d: Driver, n: Legacy.Received, freeMemory: u16): (r: Outcome)
    requires ValidDriver(d)
    ensures ValidDriver(r.driver)
  {
    if n.error == Legacy.INVALID_LENGTH_ERROR then
      Outcome(d.(receiveError := INVALID_LENGTH_BASE + n.bytesReceived as u16), [], None)
    else if n.error == Legacy.PARITY_ERROR then
      Outcome(d.(receiveError := PARITY_ERROR_BASE + n.fields.key as u16), [], None)
    else if n.error == Legacy.NO_DATA then
      var step := Arbitration.ChangeStateNoInfo(Arbitration.NodeTiming(), d.arb);
      HandleNewTokenState(d.(arb := step.state), step.out, freeMemory)
    else if n.error == Legacy.NO_ERROR then
      var d0 := d.(receiveError := 0);
      if n.fields.key == TOKEN then HandleStateNotification(d0, n.fields, freeMemory)
      else HandleCommandNotification(d0, n.fields)
    else
      Outcome(d, [], None)
  }

  /** The same with the pending error left in place for a valid frame, so
      that the next token frame reports it. */
  function HandleNotificationFixed(d: Driver, n: Legacy.Received, freeMemory: u16): (r: Outcome)
    requires ValidDriver(d)
    ensures ValidDriver(r.driver)
  {
    if n.error == Legacy.NO_ERROR then
      if n.fields.key == TOKEN then HandleStateNotification(d, n.fields, freeMemory)
      else HandleCommandNotification(d, n.fields)
    else
      HandleNotification(d, n, freeMemory)
  }

  /** Error folding: a frame of the wrong length or with a bad parity sets
      the pending error and does nothing else; the machine does not advance
      and nothing is sent. */
  lemma ErrorFolding(d: Driver, buffer: seq<byte>, bytesReceived: byte, freeMemory: u16)
    requires ValidDriver(d) && |buffer| == Legacy.BUFFER_SIZE
    ensures var n := Legacy.Decode(buffer, bytesReceived);
      var r := HandleNotificationFixed(d, n, freeMemory);
      && (n.error == Legacy.INVALID_LENGTH_ERROR ==>
            r == Outcome(d.(receiveError := 0x0100 + bytesReceived as u16), [], None))
      && (n.error == Legacy.PARITY_ERROR ==> r == Outcome(d.(receiveError := 0x0200), [], None))
  {
  }

  /** Dispatch: no data is exactly one tick of the machine, a valid token
      frame goes to `changeState` after the sender is stored, and any other
      valid frame leaves the machine alone. */
  lemma Dispatch(d: Driver, n: Legacy.Received, freeMemory: u16)
    requires ValidDriver(d)
    ensures var r := HandleNotificationFixed(d, n, freeMemory);
      var me := d.io.senderAddresses[0];
      && (n.error == Legacy.NO_DATA ==>
            r.driver.arb == Arbitration.ChangeStateNoInfo(Arbitration.NodeTiming(), d.arb).state)
      && (n.error == Legacy.NO_ERROR && n.fields.key == TOKEN ==>
            r.driver.arb == Arbitration.ChangeState(Arbitration.NodeTiming(),
                              Arbitration.StoreSenderAddress(d.arb, n.fields.sender as nat, me as nat),
                              ToInt(n.fields.value), n.fields.receiver != me).state)
      && (n.error == Legacy.NO_ERROR && n.fields.key != TOKEN ==> r.driver.arb == d.arb)
  {
  }

  /** As written, a valid frame clears the pending error before the token
      handling could report it, so no receive error is ever sent: apart
      from the answer to a command with that very key, no frame sent while
      handling a notification carries the receive error key. */
  lemma ReceiveErrorNeverSent(d: Driver, n: Legacy.Received, freeMemory: u16)
    requires ValidDriver(d) && n.fields.key != RECEIVE_ERROR_NOTIFICATION
    ensures var r := HandleNotification(d, n, freeMemory);
      forall k :: 0 <= k < |r.sends| ==> r.sends[k].key != RECEIVE_ERROR_NOTIFICATION
  {
    if n.error == Legacy.NO_DATA {
      var step := Arbitration.ChangeStateNoInfo(Arbitration.NodeTiming(), d.arb);
      TokenStateSends(d.(arb := step.state), step.out, freeMemory);
    } else if n.error == Legacy.NO_ERROR && n.fields.key == TOKEN {
      StateNotificationSends(d.(receiveError := 0), n.fields, freeMemory);
    }
  }

  lemma StateNotificationSends(d: Driver, f: Legacy.Fields, freeMemory: u16)
    requires ValidDriver(d) && d.receiveError == 0
    ensures forall k :: 0 <= k < |HandleStateNotification(d, f, freeMemory).sends| ==>
              HandleStateNotification(d, f, freeMemory).sends[k].key != RECEIVE_ERROR_NOTIFICATION
  {
    var me := d.io.senderAddresses[0];
    var d1 := d.(arb := Arbitration.StoreSenderAddress(d.arb, f.sender as nat, me as nat));
    var e := SendReceiveError(d1);
    var step := Arbitration.ChangeState(Arbitration.NodeTiming(), e.driver.arb, ToInt(f.value), f.receiver != me);
    TokenStateSends(e.driver.(arb := step.state), step.out, freeMemory);
  }

  /** With the fix, a pending error is the first frame sent when the next
      token frame arrives, and it is cleared. */
  lemma ReceiveErrorReported(d: Driver, f: Legacy.Fields, freeMemory: u16)
    requires ValidDriver(d) && d.receiveError != 0 && f.key == TOKEN
    ensures var r := HandleNotificationFixed(d, Legacy.Received(f, Legacy.NO_ERROR, 7), freeMemory);
      && |r.sends| > 0
      && r.sends[0] == NodeIo.SendToServer(d.io, 0, RECEIVE_ERROR_NOTIFICATION, d.receiveError)
      && r.driver.receiveError == 0
  {
  }

  /** One `pollNonBlocking`: receive, decode the legacy frame, handle it
      with `handleNotification` as written. */
  function Poll(d: Driver, incoming: seq<byte>, freeMemory: u16): (r: Outcome)
    requires ValidDriver(d)
    ensures ValidDriver(r.driver)
    ensures FirstStart(incoming, 0) == |incoming| ==>
              r.driver.arb == Arbitration.ChangeStateNoInfo(Arbitration.NodeTiming(), d.arb).state
  {
    var rx := Receive(d.buffer, incoming);
    var n := Legacy.Decode(rx.buffer, rx.count as byte);
    HandleNotification(d.(buffer := rx.buffer), n, freeMemory)
  }

  /** The same with the corrected handler, which keeps a pending error for
      the next token frame. */
  function PollFixed(d: Driver, incoming: seq<byte>, freeMemory: u16): (r: Outcome)
    requires ValidDriver(d)
    ensures ValidDriver(r.driver)
    ensures FirstStart(incoming, 0) == |incoming| ==>
              r.driver.arb == Arbitration.ChangeStateNoInfo(Arbitration.NodeTiming(), d.arb).state
  {
    var rx := Receive(d.buffer, incoming);
    var n := Legacy.Decode(rx.buffer, rx.count as byte);
    Dispatch(d.(buffer := rx.buffer), n, freeMemory);
    HandleNotificationFixed(d.(buffer := rx.buffer), n, freeMemory)
  }

  /** A frame written by another node and received after any noise fills
      the buffer and decodes as that frame. */
  lemma ReceiveAfterNoise(buffer: seq<byte>, noise: seq<byte>, f: Legacy.Fields)
    requires |buffer| == Legacy.BUFFER_SIZE && StartsFrame(f.sender)
    requires forall k :: 0 <= k < |noise| ==> !StartsFrame(noise[k])
    ensures var rx := Receive(buffer, noise + Legacy.Encode(f));
      && rx.buffer == Legacy.Encode(f)
      && Legacy.Decode(rx.buffer, rx.count as byte) == Legacy.Received(f, Legacy.NO_ERROR, 7)
  {
    var frame := Legacy.Encode(f);
    var incoming := noise + frame;
    FirstStartAfterNoise(noise, frame);
    var rx := Receive(buffer, incoming);
    assert incoming[|noise|..|noise| + 7] == frame;
    assert rx.buffer == rx.buffer[..7];
    Legacy.RoundTrip(f);
  }

  /** A frame received after any noise is handled as that frame. */
  lemma PollReceivesFrame(d: Driver, noise: seq<byte>, f: Legacy.Fields, freeMemory: u16)
    requires ValidDriver(d) && StartsFrame(f.sender)
    requires forall k :: 0 <= k < |noise| ==> !StartsFrame(noise[k])
    ensures Poll(d, noise + Legacy.Encode(f), freeMemory)
            == HandleNotification(d.(buffer := Legacy.Encode(f)),
                                  Legacy.Received(f, Legacy.NO_ERROR, 7), freeMemory)
    ensures PollFixed(d, noise + Legacy.Encode(f), freeMemory)
            == HandleNotificationFixed(d.(buffer := Legacy.Encode(f)),
                                       Legacy.Received(f, Legacy.NO_ERROR, 7), freeMemory)
  {
    ReceiveAfterNoise(d.buffer, noise, f);
  }

  /** As written, a token frame received while an error is pending drops
      the error: it is cleared and no frame sent carries the receive error
      key. With the fix the error is the first frame sent, and cleared. */
  lemma PollPendingError(d: Driver, noise: seq<byte>, f: Legacy.Fields, freeMemory: u16)
    requires ValidDriver(d) && StartsFrame(f.sender) && f.key == TOKEN && d.receiveError != 0
    requires forall k :: 0 <= k < |noise| ==> !StartsFrame(noise[k])
    ensures var r := Poll(d, noise + Legacy.Encode(f), freeMemory);
      && r.driver.receiveError == 0
      && forall k :: 0 <= k < |r.sends| ==> r.sends[k].key != RECEIVE_ERROR_NOTIFICATION
    ensures var r := PollFixed(d, noise + Legacy.Encode(f), freeMemory);
      && r.driver.receiveError == 0
      && |r.sends| > 0
      && r.sends[0] == NodeIo.SendToServer(d.io, 0, RECEIVE_ERROR_NOTIFICATION, d.receiveError)
  {
    PollReceivesFrame(d, noise, f, freeMemory);
    var d1 := d.(buffer := Legacy.Encode(f));
    var n := Legacy.Received(f, Legacy.NO_ERROR, 7);
    ReceiveErrorNeverSent(d1, n, freeMemory);
    ReceiveErrorReported(d1, f, freeMemory);
  }

  lemma FirstStartAfterNoise(noise: seq<byte>, rest: seq<byte>)
    requires forall k :: 0 <= k < |noise| ==> !StartsFrame(noise[k])
    requires |rest| > 0 && StartsFrame(rest[0])
    ensures FirstStart(noise + rest, 0) == |noise|
  {
    var s := noise + rest;
    assert s[|noise|] == rest[0];
    assert forall k :: 0 <= k < |noise| ==> s[k] == noise[k];
    FirstStartIs(s, 0, |noise|);
  }

  lemma {:induction false} FirstStartIs(s: seq<byte>, from: nat, i: nat)
    requires from <= i < |s| && StartsFrame(s[i])
    requires forall k :: from <= k < i ==> !StartsFrame(s[k])
    ensures FirstStart(s, from) == i
    decreases i - from
  {
    if from < i {
      FirstStartIs(s, from + 1, i);
    }
  }
}

=== FILE: serial_io.dfy ===
/** The node's addressing layer (`SerialIO`): a node hosts up to four
    devices, each with its own bus address, and knows the address of the
    server. Incoming commands are routed to a device by their receiver
    address; two keys change the addresses themselves. */
module NodeIo {
  import opened Bits
  import opened Wrappers
  import opened Values
  import Legacy

  const MAX_DEVICE_AMOUNT: nat := 4
  const BROADCAST_ADDRESS: byte := 0
  /** `'S'`: sets the server address. */
  const SERVER_ADDRESS_KEY: byte := 0x53
  /** `'A'`: sets the addressed device's own address. */
  const ADDRESS_KEY: byte := 0x41

  /** The server's address and the address of each device of the node. */
  datatype Io = Io(receiverAddress: byte, senderAddresses: seq<byte>)

  predicate ValidIo(io: Io)
  {
    0 < |io.senderAddresses| <= MAX_DEVICE_AMOUNT
  }

  /** The device index of an address (`getDeviceNoFromAddress`): broadcast
      belongs to device 0, any other address to the first device that has
      it, and an unknown address to none (-1). */
  function DeviceNoFromAddress(io: Io, address: byte): (r: int)
    ensures -1 <= r < |io.senderAddresses| || (r == 0 && address == BROADCAST_ADDRESS)
    ensures address == BROADCAST_ADDRESS ==> r == 0
    ensures address != BROADCAST_ADDRESS && r >= 0 ==>
              io.senderAddresses[r] == address
              && forall k :: 0 <= k < r ==> io.senderAddresses[k] != address
    ensures address != BROADCAST_ADDRESS ==> (r == -1 <==> address !in io.senderAddresses)
  {
    if address == BROADCAST_ADDRESS then 0 else FindFrom(io.senderAddresses, address, 0)
  }

  /** The loop of `getDeviceNoFromAddress` from index `from`. */
  function FindFrom(addresses: seq<byte>, address: byte, from: nat): (r: int)
    requires from <= |addresses|
    ensures r == -1 || from <= r < |addresses|
    ensures r >= 0 ==> addresses[r] == address
                       && forall k :: from <= k < r ==> addresses[k] != address
    ensures r == -1 <==> forall k :: from <= k < |addresses| ==> addresses[k] != address
    decreases |addresses| - from
  {
    if from == |addresses| then -1
    else if addresses[from] == address then from
    else FindFrom(addresses, address, from + 1)
  }

  /** What `notify` hands to the scheduler: a change for every device, or
      for one. */
  datatype Delivery = ToAll(key: byte, value: StateValue) | ToDevice(deviceNo: nat, key: byte, value: StateValue)

  datatype Notified = Notified(io: Io, delivery: Option<Delivery>)

  /** `notify`: commands to an unknown address are dropped. The two address
      keys only take plausible addresses (the server in 1..126, a device in
      2..126) and are not delivered; every other command is delivered to
      all devices when broadcast and to the addressed device otherwise. */
  function Notify(io: Io, n: Legacy.Fields): (r: Notified)
    requires ValidIo(io)
    ensures ValidIo(r.io)
  {
    var deviceNo := DeviceNoFromAddress(io, n.receiver);
    var value := ToInt(n.value);
    if deviceNo != -1 && deviceNo < MAX_DEVICE_AMOUNT then
      if n.key == SERVER_ADDRESS_KEY then
        Notified(if 0 < value < 127 then io.(receiverAddress := LowByte(value)) else io, None)
      else if n.key == ADDRESS_KEY then
        Notified(if 1 < value < 127
                 then io.(senderAddresses := io.senderAddresses[deviceNo := LowByte(value)])
                 else io, None)
      else if n.receiver == BROADCAST_ADDRESS then
        Notified(io, Some(ToAll(n.key, n.value)))
      else
        Notified(io, Some(ToDevice(deviceNo, n.key, n.value)))
    else
      Notified(io, None)
  }

  /** Address gating: the server address changes only through the server
      key with a value in 1..126, a device address only through the
      address key with a value in 2..126 sent to that device (device 0 for
      broadcast), and nothing is delivered for an unknown receiver. */
  lemma NotifyGating(io: Io, n: Legacy.Fields)
    requires ValidIo(io)
    ensures var r := Notify(io, n);
      var value := ToInt(n.value);
      && (r.io.receiverAddress != io.receiverAddress ==>
            n.key == SERVER_ADDRESS_KEY && 0 < value < 127 && LowByte(value) == r.io.receiverAddress)
      && (r.io.senderAddresses != io.senderAddresses ==>
            n.key == ADDRESS_KEY && 1 < value < 127
            && r.io.senderAddresses == io.senderAddresses[DeviceNoFromAddress(io, n.receiver) := LowByte(value)])
      && (n.receiver != BROADCAST_ADDRESS && n.receiver !in io.senderAddresses ==> r == Notified(io, None))
      && (r.delivery.Some? ==> n.key != SERVER_ADDRESS_KEY && n.key != ADDRESS_KEY)
  {
  }

  /** Delivery: a broadcast command reaches every device, an addressed one
      the first device with that address. */
  lemma NotifyDelivery(io: Io, n: Legacy.Fields)
    requires ValidIo(io) && n.key != SERVER_ADDRESS_KEY && n.key != ADDRESS_KEY
    ensures n.receiver == BROADCAST_ADDRESS ==> Notify(io, n).delivery == Some(ToAll(n.key, n.value))
    ensures n.receiver != BROADCAST_ADDRESS && n.receiver in io.senderAddresses ==>
      var d := Notify(io, n).delivery;
      d.Some? && d.value.ToDevice? && io.senderAddresses[d.value.deviceNo] == n.receiver
      && d.value.key == n.key && d.value.value == n.value
  {
  }

  /** `reply`: the same key and value back, from the receiver to the sender,
      without acknowledge request. */
  function Reply(n: Legacy.Fields): (r: Legacy.Fields)
    ensures r.sender == n.receiver && r.receiver == n.sender
    ensures r.key == n.key && r.value == n.value && r.ack == 0
  {
    Legacy.Create(n.key, n.value, n.receiver, n.sender)
  }

  /** Replying to a reply gives back the original, minus its acknowledge
      request. */
  lemma ReplyOfReply(n: Legacy.Fields)
    ensures Reply(Reply(n)) == n.(ack := 0)
  {
  }

  /** `sendToServer`: from a device to the server. */
  function SendToServer(io: Io, deviceNo: nat, key: byte, value: u16): (f: Legacy.Fields)
    requires deviceNo < |io.senderAddresses|
    ensures f.sender == io.senderAddresses[deviceNo] && f.receiver == io.receiverAddress
    ensures f.key == key && ToInt(f.value) == value && f.ack == 0
  {
    Legacy.Create(key, FromWord(value), io.senderAddresses[deviceNo], io.receiverAddress)
  }

  /** `broadcast`: from a device to every node. */
  function Broadcast(io: Io, deviceNo: nat, key: byte, value: u16): (f: Legacy.Fields)
    requires deviceNo < |io.senderAddresses|
    ensures f.sender == io.senderAddresses[deviceNo] && f.receiver == BROADCAST_ADDRESS
    ensures f.key == key && ToInt(f.value) == value && f.ack == 0
  {
    Legacy.Create(key, FromWord(value), io.senderAddresses[deviceNo], BROADCAST_ADDRESS)
  }

  /** `sendToAddress`: from a device to a given address. */
  function SendToAddress(io: Io, deviceNo: nat, key: byte, value: u16, receiver: byte): (f: Legacy.Fields)
    requires deviceNo < |io.senderAddresses|
    ensures f.sender == io.senderAddresses[deviceNo] && f.receiver == receiver
    ensures f.key == key && ToInt(f.value) == value && f.ack == 0
  {
    Legacy.Create(key, FromWord(value), io.senderAddresses[deviceNo], receiver)
  }
}

=== FILE: serial_reader.dfy ===
/** The node's text reader (`SerialReader`): it reads a serial stream char
    by char, skips white space and scans signed decimal numbers. The stream
    is a finite sequence of chars; the end of the sequence stands for the
    reader's timeout. The reader's current char is the last char read, or
    NUL before the first read, so a reader is just a position. */
module SerialReader {

  predicate IsSpace(c: char)
  {
    c == ' ' || c == '\t' || c == '\n' || c == '\r'
  }

  predicate IsDigit(c: char)
  {
    '0' <= c <= '9'
  }

  predicate IsSign(c: char)
  {
    c == '+' || c == '-'
  }

  /** The three classes are exactly the documented character sets, and no
      char belongs to two of them. */
  lemma CharClasses(c: char)
    ensures IsSpace(c) <==> c in " \t\n\r"
    ensures IsDigit(c) <==> c in "0123456789"
    ensures IsSign(c) <==> c in "+-"
    ensures !(IsSpace(c) && IsDigit(c)) && !(IsSpace(c) && IsSign(c)) && !(IsDigit(c) && IsSign(c))
  {
  }

  /** The reader's timeout in milliseconds: three plus the time of one
      8-bit char at `serialSpeed` baud, by unsigned integer division. */
  function TimeoutInMilliseconds(serialSpeed: nat): (t: nat)
    requires serialSpeed > 0
    ensures 3 <= t <= 8003
    ensures serialSpeed > 8000 <==> t == 3
    ensures (t - 3) * serialSpeed <= 8000 < (t - 2) * serialSpeed
  {
    3 + 8 * 1000 / serialSpeed
  }

  /** A faster line never waits longer. */
  lemma TimeoutMonotone(slow: nat, fast: nat)
    requires 0 < slow <= fast
    ensures TimeoutInMilliseconds(fast) <= TimeoutInMilliseconds(slow)
  {
    var a, b := 8000 / slow, 8000 / fast;
    if b > a {
      MulMonotone(a + 1, slow, fast);
      MulMonotone(fast, a + 1, b);
      assert false;
    }
  }

  lemma MulMonotone(x: nat, y: nat, z: nat)
    requires y <= z
    ensures x * y <= x * z && y * x <= z * x
  {
  }

  /** The char the reader holds at `pos`. */
  function Cur(s: seq<char>, pos: nat): char
    requires pos <= |s|
  {
    if pos == 0 then '\0' else s[pos - 1]
  }

  datatype Read = Read(pos: nat, ok: bool)

  /** `readNext`: the next char, or a timeout at the end of the stream,
      which leaves the current char as it was. */
  function ReadNext(s: seq<char>, pos: nat): (r: Read)
    requires pos <= |s|
    ensures r.ok <==> pos < |s|
    ensures r.ok ==> r.pos == pos + 1 && Cur(s, r.pos) == s[pos]
    ensures !r.ok ==> r.pos == pos
  {
    if pos < |s| then Read(pos + 1, true) else Read(pos, false)
  }

  /** `readNextSkipSpaces`: read until a char that is not white space. It
      fails only when the rest of the stream is white space. */
  function ReadNextSkipSpaces(s: seq<char>, pos: nat): (r: Read)
    requires pos <= |s|
    ensures pos <= r.pos <= |s|
    ensures r.ok ==> pos < r.pos && !IsSpace(s[r.pos - 1])
                     && forall k :: pos <= k < r.pos - 1 ==> IsSpace(s[k])
    ensures !r.ok ==> r.pos == |s| && forall k :: pos <= k < |s| ==> IsSpace(s[k])
    decreases |s| - pos
  {
    var n := ReadNext(s, pos);
    if n.ok && IsSpace(Cur(s, n.pos)) then ReadNextSkipSpaces(s, n.pos) else n
  }

  /** Where the first char other than white space is, that is where the
      skip stops. */
  lemma SkipSpacesTo(s: seq<char>, pos: nat, q: nat)
    requires pos <= q < |s| && !IsSpace(s[q])
    requires forall k :: pos <= k < q ==> IsSpace(s[k])
    ensures ReadNextSkipSpaces(s, pos) == Read(q + 1, true)
  {
  }

  /** `checkNext`: skip white space, then compare one char. */
  function CheckNext(s: seq<char>, pos: nat, ch: char): (r: Read)
    requires pos <= |s|
    ensures r.pos == ReadNextSkipSpaces(s, pos).pos
    ensures r.ok ==> pos < r.pos && s[r.pos - 1] == ch
                     && forall k :: pos <= k < r.pos - 1 ==> IsSpace(s[k])
    ensures !IsSpace(ch) ==> (r.ok <==> pos < r.pos && s[r.pos - 1] == ch)
  {
    var n := ReadNextSkipSpaces(s, pos);
    Read(n.pos, n.ok && Cur(s, n.pos) == ch)
  }

  lemma CheckNextAt(s: seq<char>, pos: nat, q: nat, ch: char)
    requires pos <= q < |s| && s[q] == ch && !IsSpace(ch)
    requires forall k :: pos <= k < q ==> IsSpace(s[k])
    ensures CheckNext(s, pos, ch) == Read(q + 1, true)
  {
    SkipSpacesTo(s, pos, q);
  }

  // ---------------------------------------------------------------------
  // Numbers
  // ---------------------------------------------------------------------

  function Pow10(n: nat): (r: nat)
    ensures r >= 1
  {
    if n == 0 then 1 else 10 * Pow10(n - 1)
  }

  function DigitValue(c: char): (d: nat)
    requires IsDigit(c)
    ensures d < 10
  {
    c as int - '0' as int
  }

  function DigitChar(d: nat): (c: char)
    requires d < 10
    ensures IsDigit(c) && DigitValue(c) == d
  {
    ('0' as int + d) as char
  }

  predicate AllDigits(ds: seq<char>)
  {
    forall k :: 0 <= k < |ds| ==> IsDigit(ds[k])
  }

  /** The positional value of a run of decimal digits, most significant
      first. */
  function DigitsValue(ds: seq<char>): (v: nat)
    requires AllDigits(ds)
    ensures v < Pow10(|ds|)
  {
    if |ds| == 0 then 0 else 10 * DigitsValue(ds[..|ds| - 1]) + DigitValue(ds[|ds| - 1])
  }

  /** The leading digit weighs `10^(n-1)`. */
  lemma {:induction false} DigitsValueHead(ds: seq<char>)
    requires |ds| > 0 && AllDigits(ds)
    ensures DigitsValue(ds) == DigitValue(ds[0]) * Pow10(|ds| - 1) + DigitsValue(ds[1..])
  {
    var n := |ds|;
    if n > 1 {
      var init := ds[..n - 1];
      DigitsValueHead(init);
      assert init[1..] == ds[1..][..n - 2];
      assert init[0] == ds[0];
      Regroup(DigitsValue(ds), DigitsValue(ds[1..]), DigitValue(ds[0]), Pow10(n - 2), DigitsValue(init[1..]),
              DigitValue(ds[n - 1]), Pow10(n - 1), DigitsValue(init));
    } else {
      assert ds[..0] == [] && ds[1..] == [];
    }
  }

  lemma Regroup(total: int, rest: int, a: int, b: int, c: int, d: int, b10: int, init: int)
    requires init == a * b + c && total == 10 * init + d && rest == 10 * c + d && b10 == 10 * b
    ensures total == a * b10 + rest
  {
  }

  lemma Spread(acc: int, d: int, p: int)
    ensures (acc * 10 + d) * p == acc * (10 * p) + d * p
  {
  }

  /** The end of the run of digits from index `i`. */
  function DigitRunEnd(s: seq<char>, i: nat): (j: nat)
    requires i <= |s|
    ensures i <= j <= |s|
    ensures forall k :: i <= k < j ==> IsDigit(s[k])
    ensures j < |s| ==> !IsDigit(s[j])
    decreases |s| - i
  {
    if i == |s| || !IsDigit(s[i]) then i else DigitRunEnd(s, i + 1)
  }

  datatype Number = Number(pos: nat, ok: bool, value: int)

  /** The digit loop of `readValueFromCharStream`: while the current char is
      a digit, take it into the value and read on. It stops on the first
      other char, which stays current, or at the end of the stream. */
  function ReadDigits(s: seq<char>, pos: nat, acc: int, seen: bool): (r: Number)
    requires pos <= |s|
    ensures !IsDigit(Cur(s, pos)) ==> r == Number(pos, seen, acc)
    ensures IsDigit(Cur(s, pos)) ==>
      var j := DigitRunEnd(s, pos - 1);
      && r.ok
      && r.pos == (if j < |s| then j + 1 else |s|)
      && r.value == acc * Pow10(j - (pos - 1)) + DigitsValue(s[pos - 1..j])
    decreases |s| - pos
  {
    var c := Cur(s, pos);
    if !IsDigit(c) then Number(pos, seen, acc)
    else
      var acc' := acc * 10 + DigitValue(c);
      var n := ReadNext(s, pos);
      if n.ok then
        var r := ReadDigits(s, n.pos, acc', true);
        DigitsCombine(s, pos, acc, r);
        r
      else
        DigitsLast(s, acc);
        Number(n.pos, true, acc')
  }

  /** What the loop reads from the next char on is what it reads from
      this digit on. */
  lemma DigitsCombine(s: seq<char>, pos: nat, acc: int, r: Number)
    requires 0 < pos < |s| && IsDigit(s[pos - 1])
    requires var acc' := acc * 10 + DigitValue(s[pos - 1]);
      && (!IsDigit(s[pos]) ==> r == Number(pos + 1, true, acc'))
      && (IsDigit(s[pos]) ==>
            var j := DigitRunEnd(s, pos);
            && r.ok
            && r.pos == (if j < |s| then j + 1 else |s|)
            && r.value == acc' * Pow10(j - pos) + DigitsValue(s[pos..j]))
    ensures var j := DigitRunEnd(s, pos - 1);
      && r.ok
      && r.pos == (if j < |s| then j + 1 else |s|)
      && r.value == acc * Pow10(j - (pos - 1)) + DigitsValue(s[pos - 1..j])
  {
    DigitsStep(s, pos, acc);
    if !IsDigit(s[pos]) {
      assert DigitRunEnd(s, pos) == pos;
      assert s[pos..pos] == [];
    }
  }

  lemma DigitsLast(s: seq<char>, acc: int)
    requires |s| > 0 && IsDigit(s[|s| - 1])
    ensures DigitRunEnd(s, |s| - 1) == |s|
    ensures acc * 10 + DigitValue(s[|s| - 1]) == acc * Pow10(1) + DigitsValue(s[|s| - 1..])
  {
    var ds := s[|s| - 1..];
    assert ds == [s[|s| - 1]] && ds[..0] == [];
  }

  lemma DigitsStep(s: seq<char>, pos: nat, acc: int)
    requires 0 < pos < |s| && IsDigit(s[pos - 1])
    ensures var j := DigitRunEnd(s, pos - 1);
      && j == DigitRunEnd(s, pos)
      && (acc * 10 + DigitValue(s[pos - 1])) * Pow10(j - pos) + DigitsValue(s[pos..j])
         == acc * Pow10(j - (pos - 1)) + DigitsValue(s[pos - 1..j])
  {
    var j := DigitRunEnd(s, pos - 1);
    var ds := s[pos - 1..j];
    DigitsValueHead(ds);
    assert ds[1..] == s[pos..j];
    var d, p := DigitValue(s[pos - 1]), Pow10(j - pos);
    assert Pow10(j - (pos - 1)) == 10 * p;
    Spread(acc, d, p);
  }

  /** `readValueFromCharStream`: skip to a sign or digit, take an optional
      sign (white space may follow it), then the digits. It succeeds iff at
      least one digit was read; a failed read gives 0. */
  function ReadValueFromCharStream(s: seq<char>, pos: nat): (r: Number)
    requires pos <= |s|
    ensures pos <= r.pos <= |s|
    ensures r.ok ==> pos < r.pos || IsDigit(Cur(s, pos))
    ensures !r.ok ==> r.value == 0
  {
    var c := Cur(s, pos);
    var first := if !IsSign(c) && !IsDigit(c) then ReadNextSkipSpaces(s, pos) else Read(pos, true);
    var signed := first.ok && IsSign(Cur(s, first.pos));
    var negate := signed && Cur(s, first.pos) == '-';
    var start := if signed then ReadNextSkipSpaces(s, first.pos) else first;
    var digits := if start.ok then ReadDigits(s, start.pos, 0, false) else Number(start.pos, false, 0);
    digits.(value := if negate then -digits.value else digits.value)
  }

  /** The decimal text of a natural number, without leading zeros. */
  function FormatNat(n: nat): (ds: seq<char>)
    ensures |ds| > 0 && AllDigits(ds)
  {
    if n < 10 then [DigitChar(n)] else FormatNat(n / 10) + [DigitChar(n % 10)]
  }

  lemma {:induction false} FormatNatValue(n: nat)
    ensures DigitsValue(FormatNat(n)) == n
  {
    if n >= 10 {
      FormatNatValue(n / 10);
      var ds := FormatNat(n);
      assert ds[..|ds| - 1] == FormatNat(n / 10);
    }
  }

  /** The decimal text of an integer, with a minus sign when negative. */
  function FormatInt(v: int): (ds: seq<char>)
  {
    if v < 0 then ['-'] + FormatNat(-v) else FormatNat(v)
  }

  /** Round trip: a number written in decimal, after white space and
      followed by any char that is not a digit, reads back as itself; the
      reader stops on that char. */
  lemma ReadValueRoundTrip(s: seq<char>, pos: nat, q: nat, v: int)
    requires pos <= q && q + |FormatInt(v)| < |s|
    requires !IsSign(Cur(s, pos)) && !IsDigit(Cur(s, pos))
    requires forall k :: pos <= k < q ==> IsSpace(s[k])
    requires s[q..q + |FormatInt(v)|] == FormatInt(v)
    requires !IsDigit(s[q + |FormatInt(v)|])
    ensures ReadValueFromCharStream(s, pos) == Number(q + |FormatInt(v)| + 1, true, v)
  {
    var f := FormatInt(v);
    assert s[q] == f[0];
    SkipSpacesTo(s, pos, q);
    if v < 0 {
      SliceTail(s, q, f);
      assert f[1..] == FormatNat(-v);
      ReadNegative(s, pos, q, -v);
    } else {
      ReadDigitsFormatted(s, q, v);
    }
  }

  lemma SliceTail(s: seq<char>, q: nat, f: seq<char>)
    requires |f| > 0 && q + |f| <= |s| && s[q..q + |f|] == f
    ensures s[q + 1..q + |f|] == f[1..]
  {
    assert s[q + 1..q + |f|] == s[q..q + |f|][1..];
  }

  lemma ReadNegative(s: seq<char>, pos: nat, q: nat, n: nat)
    requires n > 0 && pos <= q && q + 1 + |FormatNat(n)| < |s|
    requires !IsSign(Cur(s, pos)) && !IsDigit(Cur(s, pos))
    requires ReadNextSkipSpaces(s, pos) == Read(q + 1, true)
    requires s[q] == '-' && s[q + 1..q + 1 + |FormatNat(n)|] == FormatNat(n)
    requires !IsDigit(s[q + 1 + |FormatNat(n)|])
    ensures ReadValueFromCharStream(s, pos) == Number(q + 1 + |FormatNat(n)| + 1, true, -(n as int))
  {
    var ds := FormatNat(n);
    ReadNegativeRun(s, pos, q, ds);
    FormatNatValue(n);
  }

  /** A minus sign directly followed by a run of digits reads as the
      negated value of the run. */
  lemma ReadNegativeRun(s: seq<char>, pos: nat, q: nat, ds: seq<char>)
    requires |ds| > 0 && AllDigits(ds) && pos <= q && q + 1 + |ds| < |s|
    requires !IsSign(Cur(s, pos)) && !IsDigit(Cur(s, pos))
    requires ReadNextSkipSpaces(s, pos) == Read(q + 1, true)
    requires s[q] == '-' && s[q + 1..q + 1 + |ds|] == ds
    requires !IsDigit(s[q + 1 + |ds|])
    ensures ReadValueFromCharStream(s, pos) == Number(q + 1 + |ds| + 1, true, -(DigitsValue(ds) as int))
  {
    ReadDigitsRun(s, q + 1, ds);
    assert s[q + 1] == ds[0];
    assert !IsSpace(s[q + 1]);
    SkipSpacesTo(s, q + 1, q + 1);
    ReadMinus(s, pos, q);
  }

  /** After a minus sign directly followed by a digit, the reader negates
      what the digit loop reads. */
  lemma ReadMinus(s: seq<char>, pos: nat, q: nat)
    requires pos <= q && q + 1 < |s|
    requires !IsSign(Cur(s, pos)) && !IsDigit(Cur(s, pos))
    requires ReadNextSkipSpaces(s, pos) == Read(q + 1, true)
    requires s[q] == '-' && ReadNextSkipSpaces(s, q + 1) == Read(q + 2, true)
    ensures var d, r := ReadDigits(s, q + 2, 0, false), ReadValueFromCharStream(s, pos);
      r.pos == d.pos && r.ok == d.ok && r.value == -d.value
  {
    assert Cur(s, q + 1) == '-';
  }

  /** The digit loop started on the first digit of a run reads exactly
      the value of that run. */
  lemma ReadDigitsRun(s: seq<char>, d0: nat, ds: seq<char>)
    requires |ds| > 0 && AllDigits(ds) && d0 + |ds| < |s|
    requires s[d0..d0 + |ds|] == ds
    requires !IsDigit(s[d0 + |ds|])
    ensures ReadDigits(s, d0 + 1, 0, false) == Number(d0 + |ds| + 1, true, DigitsValue(ds))
  {
    var e := d0 + |ds|;
    assert forall k :: d0 <= k < e ==> s[k] == ds[k - d0];
    RunEndIs(s, d0, e);
    assert s[d0] == ds[0];
  }

  lemma ReadDigitsFormatted(s: seq<char>, d0: nat, n: nat)
    requires d0 + |FormatNat(n)| < |s|
    requires s[d0..d0 + |FormatNat(n)|] == FormatNat(n)
    requires !IsDigit(s[d0 + |FormatNat(n)|])
    ensures ReadDigits(s, d0 + 1, 0, false) == Number(d0 + |FormatNat(n)| + 1, true, n)
  {
    ReadDigitsRun(s, d0, FormatNat(n));
    FormatNatValue(n);
  }

  /** A run of digits after white space reads as its value. */
  lemma ReadValueDigits(s: seq<char>, pos: nat, q: nat, ds: seq<char>)
    requires |ds| > 0 && AllDigits(ds) && pos <= q && q + |ds| < |s|
    requires !IsSign(Cur(s, pos)) && !IsDigit(Cur(s, pos))
    requires forall k :: pos <= k < q ==> IsSpace(s[k])
    requires s[q..q + |ds|] == ds
    requires !IsDigit(s[q + |ds|])
    ensures ReadValueFromCharStream(s, pos) == Number(q + |ds| + 1, true, DigitsValue(ds))
  {
    assert s[q] == ds[0];
    SkipSpacesTo(s, pos, q);
    ReadDigitsRun(s, q, ds);
  }

  lemma RunEndIs(s: seq<char>, i: nat, j: nat)
    requires i <= j < |s| && !IsDigit(s[j])
    requires forall k :: i <= k < j ==> IsDigit(s[k])
    ensures DigitRunEnd(s, i) == j
    decreases j - i
  {
    if i < j {
      RunEndIs(s, i + 1, j);
    }
  }
}

=== FILE: state_value.dfy ===
/** The 16-bit value carried by every notification: an integer, or a fixed
    point number whose high byte holds the integer places and whose low byte
    holds the hundredths. */
module Values {
  import opened Bits

  datatype StateValue = StateValue(store: u16)

  /** `StateValue(intPlaces, decPlaces)`: the integer places are shifted into
      the high byte and the decimal places added, in 16-bit arithmetic. Only
      the low byte of `intPlaces` survives, and decimal places above 255
      carry into the integer places. */
  function FromPlaces(intPlaces: u16, decPlaces: u16): (v: StateValue)
    ensures DecPlaces(v) == LowByte(decPlaces)
    ensures IntPlaces(v) == LowByte(intPlaces) + HighByte(decPlaces)
  {
    PlacesCarry(intPlaces, decPlaces);
    StateValue((intPlaces << 8) + decPlaces)
  }

  lemma PlacesCarry(intPlaces: u16, decPlaces: u16)
    ensures LowByte((intPlaces << 8) + decPlaces) == LowByte(decPlaces)
    ensures HighByte((intPlaces << 8) + decPlaces) == LowByte(intPlaces) + HighByte(decPlaces)
  {
  }

  /** `StateValue(uint16_t)`; the `int16_t` constructor keeps the same bit
      pattern. */
  function FromWord(value: u16): (v: StateValue)
    ensures ToInt(v) == value
    ensures IsZero(v) <==> value == 0
  {
    StateValue(value)
  }

  /** `StateValue(uint8_t)`. */
  function FromByte(value: byte): (v: StateValue)
    ensures IntPlaces(v) == 0 && DecPlaces(v) == value
    ensures ToInt(v) as int == value as int
  {
    StateValue(value as u16)
  }

  /** `StateValue(uint8_t data[2])`: the first byte is the high byte. */
  function FromBytes(hi: byte, lo: byte): (v: StateValue)
    ensures IntPlaces(v) == hi && DecPlaces(v) == lo
    ensures ToInt(v) as int == hi as int * 256 + lo as int
  {
    PlusIsOr(hi, lo);
    JoinValue(hi, lo);
    FromPlaces(hi as u16, lo as u16)
  }

  lemma PlusIsOr(hi: byte, lo: byte)
    ensures ((hi as u16) << 8) + (lo as u16) == Join(hi, lo)
  {
  }

  lemma JoinValue(hi: byte, lo: byte)
    ensures Join(hi, lo) as int == hi as int * 256 + lo as int
  {
    JoinUnfold(hi, lo);
    ShiftOrValue(hi, lo);
  }

  lemma JoinUnfold(hi: byte, lo: byte)
    ensures Join(hi, lo) == ((hi as u16) << 8) | (lo as u16)
  {
  }

  lemma ShiftOrValue(hi: byte, lo: byte)
    ensures (((hi as u16) << 8) | (lo as u16)) as int == hi as int * 256 + lo as int
  {
  }

  /** `toInt`: the stored word, which is the integer places times 256 plus
      the decimal places. */
  function ToInt(v: StateValue): (r: u16)
    ensures r as int == IntPlaces(v) as int * 256 + DecPlaces(v) as int
  {
    SplitJoin(v.store);
    JoinValue(HighByte(v.store), LowByte(v.store));
    v.store
  }

  predicate IsZero(v: StateValue)
  {
    v.store == 0
  }

  /** The least significant byte. */
  function DecPlaces(v: StateValue): byte
  {
    LowByte(v.store)
  }

  /** The most significant byte. */
  function IntPlaces(v: StateValue): byte
  {
    HighByte(v.store)
  }

  lemma IsZeroIffToIntZero(v: StateValue)
    ensures IsZero(v) <==> ToInt(v) == 0
  {
  }

  /** Places that fit in a byte are recovered unchanged. */
  lemma PlacesRoundTrip(intPlaces: u16, decPlaces: u16)
    requires intPlaces < 256 && decPlaces < 256
    ensures IntPlaces(FromPlaces(intPlaces, decPlaces)) as u16 == intPlaces
    ensures DecPlaces(FromPlaces(intPlaces, decPlaces)) as u16 == decPlaces
  {
  }

  /** Every value is the composition of its two places. */
  lemma PlacesOfValue(v: StateValue)
    ensures FromBytes(IntPlaces(v), DecPlaces(v)) == v
  {
    SplitJoin(v.store);
  }
}

=== FILE: switches.dfy ===
/** A set of output pins switched together (`Switches`), usually relays.
    The pins are configured by a bitmask (bit 0 is digital pin 2, bit 11
    pin 13, bits 12 to 15 the analog pins A0 to A3). The switch values are
    a second bitmask whose bit k drives the k-th configured pin; they are
    kept in the device's configuration. */
module Switches {
  import opened Bits
  import Values

  const SET_MODE: u16 := 0x4000
  const CLEAR_MODE: u16 := 0x2000
  /** `SWITCH_STATUS_KEY`, `'X'`: the configuration key of the values and
      the notification key that changes them. */
  const SWITCH_STATUS_KEY: byte := 0x58

  /** Pin numbers on the board (an ATmega328 Arduino): digital pins 2 to
      13, then A0 to A3 as 14 to 17. */
  const FIRST_PIN: nat := 2
  const LAST_DIGITAL_PIN: nat := 13
  const LAST_ANALOG_PIN: nat := 17

  /** The configured pins and the stored values (`getCurValues` reads the
      configuration). */
  datatype Switches = Switches(pins: u16, stored: u16)

  /** One `digitalWrite`. */
  datatype PinWrite = PinWrite(pin: nat, high: bool)

  /** The reference reading of a 16-bit mask: entry `j` is bit `j`
      (`PIN02` is bit 0, `SW_PINA3` bit 15). */
  function BitsOf(x: u16): (r: seq<bool>)
    ensures |r| == 16
  {
    seq(16, j requires 0 <= j < 16 => Bit(x, j))
  }

  /** Bit `j` of `x`. */
  function Bit(x: u16, j: nat): bool
    requires j < 16
  {
    (x >> j) & 1 == 1
  }

  /** `x >>= 1`. */
  function Half(x: u16): u16
  {
    x >> 1
  }

  /** `x & 1`, the bit the loops test. */
  predicate LowBit(x: u16)
  {
    x & 1 == 1
  }

  lemma HalfBits(x: u16)
    ensures BitsOf(Half(x)) == BitsOf(x)[1..] + [false]
  {
    forall j | 0 <= j < 16
      ensures BitsOf(Half(x))[j] == (BitsOf(x)[1..] + [false])[j]
    {
      ShiftBit(x, j);
    }
  }

  /** Bit `j` of `x >> 1` is bit `j + 1` of `x`. The shift amount is
      symbolic; splitting on it leaves only constant shifts. */
  lemma ShiftBit(x: u16, j: nat)
    requires j < 16
    ensures Bit(Half(x), j) == (j < 15 && Bit(x, j + 1))
  {
    if j < 8 {
      if j < 4 {
        if j < 2 { if j == 0 { } else { } } else { if j == 2 { } else { } }
      } else {
        if j < 6 { if j == 4 { } else { } } else { if j == 6 { } else { } }
      }
    } else {
      if j < 12 {
        if j < 10 { if j == 8 { } else { } } else { if j == 10 { } else { } }
      } else {
        if j < 14 { if j == 12 { } else { } } else { if j == 14 { } else { } }
      }
    }
  }

  lemma LowBitIsFirst(x: u16)
    ensures LowBit(x) <==> BitsOf(x)[0]
  {
  }

  /** The pins a range of pins covers is at most 16, one per mask bit. */
  predicate InMask(pin: nat, last: nat)
  {
    pin <= last + 1 <= pin + 16
  }

  /** The `digitalWrite` loop of `setAll` over the pins from `pin` to
      `last`: a configured pin gets the low bit of the values, and only then
      are the values shifted. */
  function Writes(pins: u16, values: u16, pin: nat, last: nat): (w: seq<PinWrite>)
    requires pin <= last + 1
    ensures |w| <= last + 1 - pin
    ensures forall k :: 0 <= k < |w| ==> pin <= w[k].pin <= last
    ensures forall k, l :: 0 <= k < l < |w| ==> w[k].pin < w[l].pin
    decreases last + 1 - pin
  {
    if pin > last then []
    else if LowBit(pins) then [PinWrite(pin, LowBit(values))] + Writes(Half(pins), Half(values), pin + 1, last)
    else Writes(Half(pins), values, pin + 1, last)
  }

  /** The pins a sequence of writes drives. */
  function Driven(w: seq<PinWrite>): set<nat>
  {
    set x | x in w :: x.pin
  }

  /** Exactly the configured pins are driven: pin `p` is written if and
      only if its bit is set in the configuration. */
  lemma {:induction false} WritesConfiguredPins(pins: u16, values: u16, pin: nat, last: nat)
    requires InMask(pin, last)
    ensures forall p :: pin <= p <= last ==> (p in Driven(Writes(pins, values, pin, last)) <==> BitsOf(pins)[p - pin])
    decreases last + 1 - pin, 1
  {
    if pin <= last {
      ConfiguredStep(pins, values, pin, last);
    }
  }

  lemma {:induction false} ConfiguredStep(pins: u16, values: u16, pin: nat, last: nat)
    requires InMask(pin, last) && pin <= last
    ensures forall p :: pin <= p <= last ==> (p in Driven(Writes(pins, values, pin, last)) <==> BitsOf(pins)[p - pin])
    decreases last + 1 - pin, 0
  {
    var next := pin + 1;
    var v := if LowBit(pins) then Half(values) else values;
    WritesConfiguredPins(Half(pins), v, next, last);
    HalfBits(pins);
    LowBitIsFirst(pins);
    DrivenSplit(pins, values, pin, last);
    ConsDriven(Driven(Writes(pins, values, pin, last)), Driven(Writes(Half(pins), v, next, last)),
               BitsOf(pins), BitsOf(Half(pins)), pin, next, last, LowBit(pins));
  }

  /** One turn of the loop, on the bits as booleans. */
  lemma ConsDriven(d: set<nat>, rest: set<nat>, bits: seq<bool>, hbits: seq<bool>, pin: nat, next: nat, last: nat, low: bool)
    requires InMask(pin, last) && pin <= last && next == pin + 1
    requires |bits| == 16 && hbits == bits[1..] + [false] && low == bits[0]
    requires d == (if low then {pin} + rest else rest) && pin !in rest
    requires forall p :: next <= p <= last ==> (p in rest <==> hbits[p - next])
    ensures forall p :: pin <= p <= last ==> (p in d <==> bits[p - pin])
  {
    forall p | pin <= p <= last
      ensures p in d <==> bits[p - pin]
    {
      if p > pin {
        assert hbits[p - next] == bits[p - pin];
      }
    }
  }

  lemma DrivenSplit(pins: u16, values: u16, pin: nat, last: nat)
    requires pin <= last
    ensures var v := if LowBit(pins) then Half(values) else values;
      var rest := Driven(Writes(Half(pins), v, pin + 1, last));
      Driven(Writes(pins, values, pin, last)) == (if LowBit(pins) then {pin} + rest else rest)
      && pin !in rest
  {
    var v := if LowBit(pins) then Half(values) else values;
    var w := Writes(Half(pins), v, pin + 1, last);
    if LowBit(pins) {
      assert Writes(pins, values, pin, last) == [PinWrite(pin, LowBit(values))] + w;
    }
  }

  /** The k-th write carries bit k of the values: the values are consumed
      one bit per configured pin. */
  lemma {:induction false} WritesValueBits(pins: u16, values: u16, pin: nat, last: nat)
    requires InMask(pin, last)
    ensures var w := Writes(pins, values, pin, last);
      forall k :: 0 <= k < |w| ==> (w[k].high <==> BitsOf(values)[k])
    decreases last + 1 - pin, 1
  {
    if pin <= last {
      if LowBit(pins) {
        ValueStep(pins, values, pin, last);
      } else {
        WritesValueBits(Half(pins), values, pin + 1, last);
      }
    }
  }

  lemma {:induction false} ValueStep(pins: u16, values: u16, pin: nat, last: nat)
    requires InMask(pin, last) && pin <= last && LowBit(pins)
    ensures var w := Writes(pins, values, pin, last);
      forall k :: 0 <= k < |w| ==> (w[k].high <==> BitsOf(values)[k])
    decreases last + 1 - pin, 0
  {
    var next := pin + 1;
    WritesValueBits(Half(pins), Half(values), next, last);
    HalfBits(values);
    LowBitIsFirst(values);
    var rest := Writes(Half(pins), Half(values), next, last);
    ConsBits(Writes(pins, values, pin, last), rest, BitsOf(values), BitsOf(Half(values)), PinWrite(pin, LowBit(values)));
  }

  /** One turn of the loop, on the bits as booleans. */
  lemma ConsBits(w: seq<PinWrite>, rest: seq<PinWrite>, bits: seq<bool>, hbits: seq<bool>, first: PinWrite)
    requires w == [first] + rest && |w| <= 16
    requires |bits| == 16 && hbits == bits[1..] + [false] && (first.high <==> bits[0])
    requires forall k :: 0 <= k < |rest| ==> (rest[k].high <==> hbits[k])
    ensures forall k :: 0 <= k < |w| ==> (w[k].high <==> bits[k])
  {
    forall k | 1 <= k < |w|
      ensures w[k].high <==> bits[k]
    {
      assert w[k] == rest[k - 1];
    }
  }

  /** `setAll` as written: when the values differ from the stored ones they
      are stored and the digital pins driven; the loop over A0 to A3 only
      sets the pin mode again, so those pins are never driven. */
  function SetAllAsWritten(sw: Switches, values: u16): (r: (Switches, seq<PinWrite>))
    ensures sw.stored == values ==> r == (sw, [])
    ensures sw.stored != values ==> r.0 == sw.(stored := values)
    ensures forall k :: 0 <= k < |r.1| ==> FIRST_PIN <= r.1[k].pin <= LAST_DIGITAL_PIN
  {
    if sw.stored != values then (sw.(stored := values), Writes(sw.pins, values, FIRST_PIN, LAST_DIGITAL_PIN))
    else (sw, [])
  }

  /** `setAll` with the analog pins driven like the digital ones. */
  function SetAll(sw: Switches, values: u16): (r: (Switches, seq<PinWrite>))
    ensures sw.stored == values ==> r == (sw, [])
    ensures sw.stored != values ==> r.0 == sw.(stored := values)
    ensures forall k :: 0 <= k < |r.1| ==> FIRST_PIN <= r.1[k].pin <= LAST_ANALOG_PIN
  {
    if sw.stored != values then (sw.(stored := values), Writes(sw.pins, values, FIRST_PIN, LAST_ANALOG_PIN))
    else (sw, [])
  }

  /** On a change every configured pin, analog ones included, is driven,
      in ascending pin order, and the k-th driven pin gets bit k of the
      values; no other pin is touched. */
  lemma SetAllDrivesConfiguredPins(sw: Switches, values: u16)
    requires sw.stored != values
    ensures var w := SetAll(sw, values).1;
      && (forall p :: FIRST_PIN <= p <= LAST_ANALOG_PIN ==> (p in Driven(w) <==> BitsOf(sw.pins)[p - FIRST_PIN]))
      && (forall k :: 0 <= k < |w| ==> (w[k].high <==> BitsOf(values)[k]))
  {
    WritesConfiguredPins(sw.pins, values, FIRST_PIN, LAST_ANALOG_PIN);
    WritesValueBits(sw.pins, values, FIRST_PIN, LAST_ANALOG_PIN);
  }

  /** As written, a switch configured on A0 (`SW_PINA0`, pin 14) is never
      driven, while the corrected `setAll` drives it on every change. */
  lemma AnalogPinNeverDriven(sw: Switches, values: u16)
    requires sw.stored != values && BitsOf(sw.pins)[14 - FIRST_PIN]
    ensures 14 !in Driven(SetAllAsWritten(sw, values).1)
    ensures 14 in Driven(SetAll(sw, values).1)
  {
    SetAllDrivesConfiguredPins(sw, values);
  }

  /** `init`: the configured pins, digital and analog, are put in output
      mode. */
  function OutputPins(pins: u16, pin: nat, last: nat): (r: seq<nat>)
    requires pin <= last + 1
    ensures forall k :: 0 <= k < |r| ==> pin <= r[k] <= last
    decreases last + 1 - pin
  {
    if pin > last then []
    else if LowBit(pins) then [pin] + OutputPins(Half(pins), pin + 1, last)
    else OutputPins(Half(pins), pin + 1, last)
  }

  /** The pins of a sequence of writes, in order. */
  function PinsOf(w: seq<PinWrite>): (r: seq<nat>)
    ensures |r| == |w|
  {
    if w == [] then [] else [w[0].pin] + PinsOf(w[1..])
  }

  /** `init` puts in output mode exactly the pins `setAll` drives, in the
      same order. */
  lemma {:induction false} OutputPinsAreDriven(pins: u16, values: u16, pin: nat, last: nat)
    requires pin <= last + 1
    ensures OutputPins(pins, pin, last) == PinsOf(Writes(pins, values, pin, last))
    decreases last + 1 - pin
  {
    if pin <= last {
      OutputPinsAreDriven(Half(pins), if LowBit(pins) then Half(values) else values, pin + 1, last);
    }
  }

  /** The constructor: the stored values (zero when none are stored) become
      the current ones, and since `setAll` finds them unchanged no pin is
      driven. */
  function Create(pins: u16, stored: u16): (r: (Switches, seq<PinWrite>))
    ensures r.0.pins == pins && r.0.stored == stored && r.1 == []
  {
    SetAllAsWritten(Switches(pins, stored), stored)
  }

  /** The values `changeSwitches` applies: with `SET_MODE` the given bits
      are switched on, with `CLEAR_MODE` off, and otherwise the values
      replace the current ones; the mode bits are never kept. */
  function NewValues(cur: u16, values: u16): (r: u16)
    ensures r & (SET_MODE | CLEAR_MODE) == 0
  {
    var v := if values & SET_MODE != 0 then cur | values
             else if values & CLEAR_MODE != 0 then cur & !values
             else values;
    v & !(SET_MODE | CLEAR_MODE)
  }

  /** `changeSwitches`: a value with the reserved top bits (from
      `SET_MODE | CLEAR_MODE` on) is ignored; otherwise the new values go
      to `setAll` as written, so only digital pins are driven. */
  function ChangeSwitches(sw: Switches, values: u16): (r: (Switches, seq<PinWrite>))
    ensures values >= SET_MODE | CLEAR_MODE ==> r == (sw, [])
    ensures values < SET_MODE | CLEAR_MODE ==> r.0 == sw.(stored := NewValues(sw.stored, values))
    ensures values < SET_MODE | CLEAR_MODE ==> r.0.stored & (SET_MODE | CLEAR_MODE) == 0
    ensures forall k :: 0 <= k < |r.1| ==> FIRST_PIN <= r.1[k].pin <= LAST_DIGITAL_PIN
  {
    if values < SET_MODE | CLEAR_MODE then SetAllAsWritten(sw, NewValues(sw.stored, values)) else (sw, [])
  }

  /** The same over the corrected `setAll`, which drives A0 to A3 too. */
  function ChangeSwitchesFixed(sw: Switches, values: u16): (r: (Switches, seq<PinWrite>))
    ensures values >= SET_MODE | CLEAR_MODE ==> r == (sw, [])
    ensures values < SET_MODE | CLEAR_MODE ==> r.0 == sw.(stored := NewValues(sw.stored, values))
    ensures values < SET_MODE | CLEAR_MODE ==> r.0.stored & (SET_MODE | CLEAR_MODE) == 0
    ensures forall k :: 0 <= k < |r.1| ==> FIRST_PIN <= r.1[k].pin <= LAST_ANALOG_PIN
  {
    if values < SET_MODE | CLEAR_MODE then SetAll(sw, NewValues(sw.stored, values)) else (sw, [])
  }

  /** A switch on A0 alone: as written, the change to 1 drives no pin; the
      corrected `setAll` drives A0 (pin 14) high. */
  lemma AnalogChangeExample()
    ensures ChangeSwitches(Switches(0x1000, 0), 1) == (Switches(0x1000, 1), [])
    ensures ChangeSwitchesFixed(Switches(0x1000, 0), 1) == (Switches(0x1000, 1), [PinWrite(14, true)])
  {
    assert NewValues(0, 1) == 1;
    PinsUpToFourteen(0x1000, 1, LAST_DIGITAL_PIN);
    PinsUpToFourteen(0x1000, 1, LAST_ANALOG_PIN);
  }

  /** With only bit 12 of the mask set, the writes up to `last` are empty
      below pin 14 and hold pin 14 with the low value bit from there on. */
  lemma PinsUpToFourteen(pins: u16, values: u16, last: nat)
    requires pins == 0x1000 && (last == LAST_DIGITAL_PIN || last == LAST_ANALOG_PIN)
    ensures Writes(pins, values, FIRST_PIN, last)
         == if last < 14 then [] else [PinWrite(14, LowBit(values))]
  {
    assert Half(0x1000) == 0x0800 && !LowBit(0x1000);
    assert Half(0x0800) == 0x0400 && !LowBit(0x0800);
    assert Half(0x0400) == 0x0200 && !LowBit(0x0400);
    assert Half(0x0200) == 0x0100 && !LowBit(0x0200);
    assert Half(0x0100) == 0x0080 && !LowBit(0x0100);
    assert Half(0x0080) == 0x0040 && !LowBit(0x0080);
    assert Half(0x0040) == 0x0020 && !LowBit(0x0040);
    assert Half(0x0020) == 0x0010 && !LowBit(0x0020);
    assert Half(0x0010) == 0x0008 && !LowBit(0x0010);
    assert Half(0x0008) == 0x0004 && !LowBit(0x0008);
    assert Half(0x0004) == 0x0002 && !LowBit(0x0004);
    assert Half(0x0002) == 0x0001 && !LowBit(0x0002);
    assert LowBit(0x0001) && Half(0x0001) == 0;
    if last >= 14 {
      NoPinsNoWrites(Half(values), 15, last);
    }
  }

  /** The three modes bit by bit: set mode switches on the given bits and
      keeps the others, clear mode switches them off and keeps the others,
      and a plain value (below `CLEAR_MODE`) is taken as it is. */
  lemma ModesBitwise(cur: u16, m: u16)
    requires m < CLEAR_MODE
    ensures NewValues(cur, SET_MODE | m) == (cur | m) & !(SET_MODE | CLEAR_MODE)
    ensures NewValues(cur, CLEAR_MODE | m) == cur & !m & !(SET_MODE | CLEAR_MODE)
    ensures NewValues(cur, m) == m
  {
    SetMode(cur, m);
    ClearMode(cur, m);
    PlainMode(cur, m);
  }

  lemma SetMode(cur: u16, m: u16)
    requires m < CLEAR_MODE
    ensures NewValues(cur, SET_MODE | m) == (cur | m) & !(SET_MODE | CLEAR_MODE)
  {
  }

  lemma ClearMode(cur: u16, m: u16)
    requires m < CLEAR_MODE
    ensures NewValues(cur, CLEAR_MODE | m) == cur & !m & !(SET_MODE | CLEAR_MODE)
  {
  }

  lemma PlainMode(cur: u16, m: u16)
    requires m < CLEAR_MODE
    ensures NewValues(cur, m) == m
  {
  }

  lemma SetClearIdentity(cur: u16, m: u16)
    ensures ((cur | m) & !(SET_MODE | CLEAR_MODE)) & !m & !(SET_MODE | CLEAR_MODE)
         == cur & !m & !(SET_MODE | CLEAR_MODE)
  {
  }

  lemma ModeBelowReserved(m: u16)
    requires m < CLEAR_MODE
    ensures SET_MODE | m < SET_MODE | CLEAR_MODE
    ensures CLEAR_MODE | m < SET_MODE | CLEAR_MODE
  {
  }

  /** Clearing what was set restores the other bits: set then clear of
      the same bits leaves exactly those bits off and the other value bits
      as they were (both commands pass the reserved-bits test, so
      `changeSwitches` applies them). */
  lemma SetThenClear(cur: u16, m: u16)
    requires m < CLEAR_MODE
    ensures SET_MODE | m < SET_MODE | CLEAR_MODE && CLEAR_MODE | m < SET_MODE | CLEAR_MODE
    ensures NewValues(NewValues(cur, SET_MODE | m), CLEAR_MODE | m) == cur & !m & !(SET_MODE | CLEAR_MODE)
  {
    ModeBelowReserved(m);
    SetThenClearValues(cur, m);
  }

  lemma SetThenClearValues(cur: u16, m: u16)
    requires m < CLEAR_MODE
    ensures NewValues(NewValues(cur, SET_MODE | m), CLEAR_MODE | m) == cur & !m & !(SET_MODE | CLEAR_MODE)
  {
    SetMode(cur, m);
    ClearMode((cur | m) & !(SET_MODE | CLEAR_MODE), m);
    SetClearIdentity(cur, m);
  }

  lemma SetModeTwice(cur: u16, values: u16)
    requires values & SET_MODE != 0
    ensures (((cur | values) & !(SET_MODE | CLEAR_MODE)) | values) & !(SET_MODE | CLEAR_MODE)
         == (cur | values) & !(SET_MODE | CLEAR_MODE)
  {
  }

  lemma ClearModeTwice(cur: u16, values: u16)
    ensures (((cur & !values) & !(SET_MODE | CLEAR_MODE)) & !values) & !(SET_MODE | CLEAR_MODE)
         == (cur & !values) & !(SET_MODE | CLEAR_MODE)
  {
  }

  lemma SetModeIdempotent(cur: u16, values: u16)
    requires values & SET_MODE != 0
    ensures NewValues(NewValues(cur, values), values) == NewValues(cur, values)
  {
    SetModeTwice(cur, values);
  }

  lemma ClearModeIdempotent(cur: u16, values: u16)
    requires values & SET_MODE == 0 && values & CLEAR_MODE != 0
    ensures NewValues(NewValues(cur, values), values) == NewValues(cur, values)
  {
    ClearModeTwice(cur, values);
  }

  lemma PlainIdempotent(cur: u16, values: u16)
    requires values & SET_MODE == 0 && values & CLEAR_MODE == 0
    ensures NewValues(NewValues(cur, values), values) == NewValues(cur, values)
  {
    PlainValue(cur, values);
    PlainValue(values & !(SET_MODE | CLEAR_MODE), values);
  }

  lemma PlainValue(cur: u16, values: u16)
    requires values & SET_MODE == 0 && values & CLEAR_MODE == 0
    ensures NewValues(cur, values) == values & !(SET_MODE | CLEAR_MODE)
  {
  }

  /** Applying the same change twice gives what applying it once gave. */
  lemma NewValuesIdempotent(cur: u16, values: u16)
    ensures NewValues(NewValues(cur, values), values) == NewValues(cur, values)
  {
    if values & SET_MODE != 0 {
      SetModeIdempotent(cur, values);
    } else if values & CLEAR_MODE != 0 {
      ClearModeIdempotent(cur, values);
    } else {
      PlainIdempotent(cur, values);
    }
  }

  /** A repeated command changes nothing and drives no pin, since `setAll`
      only acts on a change, in either version. */
  lemma ChangeIdempotent(sw: Switches, values: u16)
    ensures var a := ChangeSwitches(sw, values);
      ChangeSwitches(a.0, values) == (a.0, [])
    ensures var a := ChangeSwitchesFixed(sw, values);
      ChangeSwitchesFixed(a.0, values) == (a.0, [])
  {
    NewValuesIdempotent(sw.stored, values);
  }

  /** No configured pin, no write. */
  lemma {:induction false} NoPinsNoWrites(values: u16, pin: nat, last: nat)
    requires pin <= last + 1
    ensures Writes(0, values, pin, last) == []
    decreases last + 1 - pin
  {
    if pin <= last {
      assert Half(0) == 0 && !LowBit(0);
      NoPinsNoWrites(values, pin + 1, last);
    }
  }

  /** The writes for `PIN11 + PIN12`: pin 11 gets bit 0 and pin 12 bit 1,
      whether or not the analog pins are part of the loop. */
  lemma PinsElevenTwelve(values: u16, last: nat)
    requires last == LAST_DIGITAL_PIN || last == LAST_ANALOG_PIN
    ensures Writes(0x0600, values, FIRST_PIN, last)
         == [PinWrite(11, LowBit(values)), PinWrite(12, LowBit(Half(values)))]
  {
    assert Half(0x0600) == 0x0300 && !LowBit(0x0600);
    assert Half(0x0300) == 0x0180 && !LowBit(0x0300);
    assert Half(0x0180) == 0x00C0 && !LowBit(0x0180);
    assert Half(0x00C0) == 0x0060 && !LowBit(0x00C0);
    assert Half(0x0060) == 0x0030 && !LowBit(0x0060);
    assert Half(0x0030) == 0x0018 && !LowBit(0x0030);
    assert Half(0x0018) == 0x000C && !LowBit(0x0018);
    assert Half(0x000C) == 0x0006 && !LowBit(0x000C);
    assert Half(0x0006) == 0x0003 && !LowBit(0x0006);
    assert Half(0x0003) == 0x0001 && LowBit(0x0003);
    assert Half(0x0001) == 0x0000 && LowBit(0x0001);
    NoPinsNoWrites(Half(Half(values)), 13, last);
  }

  /** The documented example: with `PIN11 + PIN12` configured, `0x02`
      drives pin 11 low and pin 12 high; set mode with `0x01` then drives
      pin 11 high and keeps pin 12 high; clear mode with `0x01` drives pin
      11 low again and keeps pin 12 high. */
  lemma DocumentedExample()
    ensures var sw := Switches(0x0600, 0);
      var (a, w1) := ChangeSwitches(sw, 0x02);
      var (b, w2) := ChangeSwitches(a, SET_MODE | 0x01);
      var (c, w3) := ChangeSwitches(b, CLEAR_MODE | 0x01);
      && w1 == [PinWrite(11, false), PinWrite(12, true)]
      && w2 == [PinWrite(11, true), PinWrite(12, true)]
      && w3 == [PinWrite(11, false), PinWrite(12, true)]
      && c.stored == 0x02
  {
    assert NewValues(0, 0x02) == 0x02;
    assert NewValues(0x02, SET_MODE | 0x01) == 0x03;
    assert NewValues(0x03, CLEAR_MODE | 0x01) == 0x02;
    PinsElevenTwelve(0x02, LAST_DIGITAL_PIN);
    PinsElevenTwelve(0x03, LAST_DIGITAL_PIN);
    assert !LowBit(0x02) && LowBit(Half(0x02)) && LowBit(0x03) && LowBit(Half(0x03));
  }

  /** `handleChange`: only the switch key changes the switches, with the
      16 bits of the notified value. */
  function HandleChange(sw: Switches, key: byte, data: Values.StateValue): (r: (Switches, seq<PinWrite>))
    ensures key != SWITCH_STATUS_KEY ==> r == (sw, [])
    ensures key == SWITCH_STATUS_KEY && Values.ToInt(data) < CLEAR_MODE ==> r.0 == sw.(stored := Values.ToInt(data))
    ensures forall k :: 0 <= k < |r.1| ==> FIRST_PIN <= r.1[k].pin <= LAST_DIGITAL_PIN
  {
    if key == SWITCH_STATUS_KEY then ChangeSwitches(sw, Values.ToInt(data)) else (sw, [])
  }
}

=== FILE: wrappers.dfy ===
/** The optional value used where the source returns `undefined`, throws, or
    has nothing to report. */
module Wrappers {

  datatype Option<+T> = None | Some(value: T)
}
